=== FILE: README.md ===
# Horizon connectivity core in Dafny

Horizon is a server-monitoring system with three parts:

- a Spring Boot backend that stores agents, keys and metrics;
- a Go agent that runs on each monitored host;
- a React dashboard.

This project models the parts that connect them. On the backend side these are:

- the agent WebSocket registry, which also correlates commands with their results and multiplexes interactive shells;
- the dashboard shell endpoint and command execution;
- the server-sent-events hub;
- the polling scheduler;
- metrics ingestion and the realtime cache;
- agent registration with its unique-name search;
- the agent, client-key and refresh-token bookkeeping;
- the push controller.

On the agent side the model covers the push client and its sticky authentication failure, the WebSocket client and its shell state, release selection for self-update, the `auth`/`status`/`run` credential handling and the runtime configuration.

On the dashboard side it covers the SSE line parser with its reconnect backoff, the bounded metric history, the agent card's arithmetic and the command-result text.

Every handler callback, scheduled tick or HTTP request is one atomic step: a pure function from the state before to the state after. The model keeps:

- tables as sequences;
- caches, task maps and listener sets as maps and sets;
- stores and emitters as records.

I/O outcomes are parameters. These are:

- whether a write failed;
- the HTTP status and body;
- the decoded JSON;
- the environment;
- the clock;
- the random draws.

One Dafny module corresponds to each source file or closely related pair:

- `Base` holds `Option` and `Result`.
- `Text` holds the library string functions the sources call: Go `strings`, Java `split`/`trim`/`parseLong`, and JavaScript `split`/`trim`. Each comes with its round trips.

Where the source files disagree with each other, the model follows the code that runs. For example, the services read `ip`, `port` and `pollingInterval` from the agent entity, and the registration service reads a port from the request, though the `Agent` entity and the `AgentRegisterRequest` class lack these fields; the model carries them. Likewise, the agent repository query `existsByIp` is modelled as "some agent has that ip".

Behaviours of the code a reader might not expect, which the model keeps:

- `stopShell` sends `shell_stop` to a connected agent even when other observers remain.
- A failed write to a shell observer does not remove it.
- The agent sends `shell_exit` twice for every shell that ends, once from the terminal reader and once from the process waiter (`AgentClient.ShellEndReportsExitTwice`, `AgentClient.StoppedShellReportsExitTwice`).
- Closing an agent socket removes the session stored under the agent id, whichever socket it is (`AgentRegistry.LateCloseEvictsReconnectedSession`).
- Pending commands are keyed by agent id, so a second command displaces the first (`AgentRegistry.OverlappingCommandsShareOneSlot`).
- An agent that disconnects while a command waits reaches the generic error branch of the command service, with its "Command execution failed: " prefix, because the wait wraps the I/O error.
- The 60-second cache lifetime makes the "stale" branch of `getAllRealtimeMetrics` unreachable (`MetricsCache.StaleBranchUnreachable`).

Other boundaries the model makes visible:

- The key lookup used for validation requires `expiresAt > now`, while the entity's `isExpired` is `now > expiresAt`. At exactly `expiresAt` the entity calls the key valid but the lookup rejects it (`ClientKeys.AcceptedIsValidOffExpiry`).
- The agent card's received and sent totals include loopback interfaces that its list hides (`AgentCard.TotalCountsHiddenLoopback`).
- An agent id written with a leading zero finds the agent in the database but not its connection (`CommandExecution.LeadingZeroIdReportsOffline`).

## Model

| member | source | states |
|---|---|---|
| AgentRegistry.FirstAgentIdParam | backend/src/main/java/com/horizon/backend/websocket/AgentWebSocketHandler.java:191-198 | an id is found exactly when some query parameter starts with "agentId="; it is the rest of the first such parameter |
| AgentRegistry.ExtractAgentId | backend/src/main/java/com/horizon/backend/websocket/AgentWebSocketHandler.java:188-199 | a session without a query has no id; a query without '&' names an id exactly when it starts with "agentId=" (the general case is `FirstAgentIdParam` over Java's split) |
| AgentRegistry.IsConnected | backend/src/main/java/com/horizon/backend/websocket/AgentWebSocketHandler.java:114-117 | a stored session that is open; `Connect`, `Close` and `LateCloseEvictsReconnectedSession` state how connecting and closing change it |
| AgentRegistry.ExtractAgentIdOfAgentQuery | backend/src/main/java/com/horizon/backend/websocket/AgentWebSocketHandler.java:188-199 | the query "agentId=" plus an id without '&' names that id back |
| AgentRegistry.Connect | backend/src/main/java/com/horizon/backend/websocket/AgentWebSocketHandler.java:28-34 | without an id nothing changes; with one, that agent's session becomes the new connection, replacing any earlier one, and no other session, pending command or listener changes |
| AgentRegistry.Close | backend/src/main/java/com/horizon/backend/websocket/AgentWebSocketHandler.java:67-77 | the agent's session and pending command are removed; its waiting caller is failed exactly when one was pending; nothing else changes |
| AgentRegistry.CloseIsIdempotent | backend/src/main/java/com/horizon/backend/websocket/AgentWebSocketHandler.java:67-77 | closing twice fails no caller the second time and changes nothing more |
| AgentRegistry.LateCloseEvictsReconnectedSession | backend/src/main/java/com/horizon/backend/websocket/AgentWebSocketHandler.java:67-77 | sessions are removed by agent id, so a late close of an old connection also disconnects the agent's newer, open one |
| AgentRegistry.HandleMessage | backend/src/main/java/com/horizon/backend/websocket/AgentWebSocketHandler.java:37-64 | a `command_result` completes the agent's pending command, if any, with the frame's output, error and code, "", "" and 0 when absent, and clears the slot; `shell_output` and `shell_exit` are forwarded; anything else, or a payload that is not JSON, changes nothing |
| AgentRegistry.Forward | backend/src/main/java/com/horizon/backend/websocket/AgentWebSocketHandler.java:173-186 | the payload reaches exactly the agent's listeners that are open and whose write does not fail; a failed write removes nobody |
| AgentRegistry.StartCommand | backend/src/main/java/com/horizon/backend/websocket/AgentWebSocketHandler.java:79-91 | an agent that is not connected fails with "not connected"; otherwise the caller's slot is stored under the agent, and removed again when the write fails |
| AgentRegistry.AbandonCommand | backend/src/main/java/com/horizon/backend/websocket/AgentWebSocketHandler.java:94-99 | the agent's slot is removed and every other slot kept |
| AgentRegistry.SendCommandAndWait | backend/src/main/java/com/horizon/backend/websocket/AgentWebSocketHandler.java:79-101 | not connected fails at once; otherwise the slot is gone afterwards, and the caller gets the write error, the agent's reply with absent fields defaulted, a timeout naming the seconds, or the disconnect failure |
| AgentRegistry.OverlappingCommandsShareOneSlot | backend/src/main/java/com/horizon/backend/websocket/AgentWebSocketHandler.java:85-86 | a second command to the same agent displaces the first caller's slot, so the next result completes the second caller |
| AgentRegistry.StartShell | backend/src/main/java/com/horizon/backend/websocket/AgentWebSocketHandler.java:119-130 | not connected fails and changes nothing; otherwise the observer joins the agent's listeners even when the write then fails, and `shell_start` with the size is sent when it does not |
| AgentRegistry.ShellInput | backend/src/main/java/com/horizon/backend/websocket/AgentWebSocketHandler.java:132-140 | not connected fails; otherwise the input goes out as `shell_input`, and a failed write is reported as that write's error with nothing sent; no state changes |
| AgentRegistry.ResizeShell | backend/src/main/java/com/horizon/backend/websocket/AgentWebSocketHandler.java:142-150 | not connected fails; otherwise the size goes out as `shell_resize`, and a failed write is reported as that write's error with nothing sent; no state changes |
| AgentRegistry.StopShell | backend/src/main/java/com/horizon/backend/websocket/AgentWebSocketHandler.java:152-164 | the observer leaves the agent's listeners; `shell_stop` is sent whenever the agent is connected, even while other observers remain; with no connection nothing is sent and nothing fails; a failed write is reported as that write's error with nothing sent |
| AgentRegistry.RemoveShellListener | backend/src/main/java/com/horizon/backend/websocket/AgentWebSocketHandler.java:166-171 | the observer leaves the agent's listeners and nothing else changes |
| AgentRegistry.StartThenRemoveRestoresListeners | backend/src/main/java/com/horizon/backend/websocket/AgentWebSocketHandler.java:119-171 | starting a shell and then removing the same observer leaves the agent's listeners as they were |
| PushClient.NewClient | agent/push/push.go:82-96 | a new client starts with valid authentication, no agent id and no error message |
| PushClient.AuthMessage | agent/push/push.go:137 | the stored message is "key invalid or expired (HTTP n): " followed by the response body |
| PushClient.AuthMessageReadsBack | agent/push/push.go:137 | after "key invalid or expired (HTTP " the text up to the first ')' parses back as the status, and the rest is "): " followed by the body |
| PushClient.ContainsAuthError | agent/push/push.go:17-22 | a body counts as an authentication error exactly when its lower-cased text holds "invalid" and "authentication", or "expired" and "key", or "invalid or expired" |
| PushClient.ToLowerIdempotent | agent/push/push.go:18 | lower-casing twice is lower-casing once |
| PushClient.ToLowerAppend | agent/push/push.go:18 | lower-casing works character by character across a concatenation |
| PushClient.AuthErrorIgnoresCase | agent/push/push.go:17-22 | whether a body is an authentication error does not depend on its letter case |
| PushClient.ContainsInContext | agent/push/push.go:19-21 | a substring stays a substring of any longer text around it |
| PushClient.AuthErrorInContext | agent/push/push.go:17-22 | a body that reads as an authentication error still does with any text around it |
| PushClient.Register | agent/push/push.go:98-157 | a transport error changes nothing; 401 and 403 invalidate authentication with the stored message; only those set the flag; 200 and 201 succeed and take the decoded id when there is one; any other status fails with the server's message, else with the status and body, and leaves the client alone |
| PushClient.PushMetrics | agent/push/push.go:159-223 | an invalidated client sends nothing and fails with its stored message; otherwise it sends, and is invalidated exactly on 401, 403 or a 400 whose body reads as an authentication error; only 200 succeeds |
| PushClient.AuthInvalidIsSticky | agent/push/push.go:135-137 | once invalidated, no push or registration makes the client valid again |
| PushClient.StartPushing | agent/push/push.go:225-256 | the loop stops on authentication exactly when the client ends invalidated; sends never exceed attempts, nor attempts the outcomes; without any authentication failure every outcome is an attempt and a send |
| PushClient.PushingStopsAtFirstAuthFailure | agent/push/push.go:237-252 | the loop stops right after the first push that fails authentication, having attempted and sent exactly up to it |
| PushClient.InvalidClientNeverSends | agent/push/push.go:229-234 | a client that starts invalidated sends nothing |
| PushClient.ValidateKey | agent/push/push.go:281-314 | valid exactly on 200 or 201; a transport error, 400 or 401 (invalid or expired key) and any other status fail with their own errors |
| PushClient.ForbiddenIsOnlyInvalidForPushes | agent/push/push.go:135-303 | a 403 invalidates a pushing or registering client but is only a generic validation failure for `auth` |
| PushController.ClientIpAsWritten | backend/src/main/java/com/horizon/backend/controller/AgentPushController.java:55-67 | as written: a non-empty `X-Forwarded-For` yields its trimmed first field, and fails with an index error exactly when the header holds only commas; else a non-empty `X-Real-IP`; else the remote address |
| PushController.CommaOnlyHeaderFails | backend/src/main/java/com/horizon/backend/controller/AgentPushController.java:58 | the header "," makes the lookup fail |
| PushController.ClientIp | backend/src/main/java/com/horizon/backend/controller/AgentPushController.java:55-67 | corrected: the first field is read with empty fields kept, so every header gives an address |
| PushController.ClientIpAgreesWhereDefined | backend/src/main/java/com/horizon/backend/controller/AgentPushController.java:55-67 | the correction agrees with the code as written wherever that does not fail, and gives "" where it fails |
| PushController.JoinOfEmptyFieldsConverse | backend/src/main/java/com/horizon/backend/controller/AgentPushController.java:58 | splitting a header made only of commas gives an empty first field |
| PushController.CleanKey | backend/src/main/java/com/horizon/backend/controller/AgentPushController.java:51 | the cleaned key is the body with every double quote removed and then only runs of space or control characters cut from its two ends, none left at either end |
| PushController.QuotedKeyCleans | backend/src/main/java/com/horizon/backend/controller/AgentPushController.java:51 | a key sent as a JSON string is recovered exactly |
| PushController.CleanKeyIdempotent | backend/src/main/java/com/horizon/backend/controller/AgentPushController.java:51 | cleaning a cleaned key changes nothing |
| PushController.ValidateEndpoint | backend/src/main/java/com/horizon/backend/controller/AgentPushController.java:49-53 | the answer is true exactly when some stored key equals the cleaned body and is accepted now |
| ShellHandler.Decode | backend/src/main/java/com/horizon/backend/websocket/ShellWebSocketHandler.java:34-56 | each of the four types selects its action and nothing else does; sizes default to 80 columns and 24 rows, input to "" |
| ShellHandler.ErrorFrame | backend/src/main/java/com/horizon/backend/websocket/ShellWebSocketHandler.java:59 | the error frame is the fixed prefix, the message and the fixed suffix |
| ShellHandler.ErrorFrameRoundTrip | backend/src/main/java/com/horizon/backend/websocket/ShellWebSocketHandler.java:59 | the message is recovered from its error frame by dropping prefix and suffix |
| ShellHandler.HandleMessage | backend/src/main/java/com/horizon/backend/websocket/ShellWebSocketHandler.java:28-61 | an unparsable frame is answered with an error frame; a frame of no known type does nothing; a known one without an agent id fails with an error frame; otherwise the registry operation runs and its failure, and only that, is answered with an error frame; agent sessions and pending commands never change |
| ShellHandler.StartOnOfflineAgentReportsNotConnected | backend/src/main/java/com/horizon/backend/websocket/ShellWebSocketHandler.java:37-41 | starting a shell on an agent that is not connected changes nothing, sends nothing and answers "Agent <id> is not connected" |
| ShellHandler.StopRemovesOnlySender | backend/src/main/java/com/horizon/backend/websocket/ShellWebSocketHandler.java:51-53 | a stop removes only the sender from that agent's listeners |
| ShellHandler.ObserverClosed | backend/src/main/java/com/horizon/backend/websocket/ShellWebSocketHandler.java:63-70 | closing a dashboard socket removes it from its agent's listeners only, and nothing without an agent id |
| SseHub.Prune | backend/src/main/java/com/horizon/backend/service/SseEmitterService.java:88-100 | after a broadcast exactly the emitters that did not fail remain, each as often as before |
| SseHub.PruneIdempotent | backend/src/main/java/com/horizon/backend/service/SseEmitterService.java:88-100 | a second broadcast with the same failing emitters removes nothing more |
| SseHub.RemoveFirst | backend/src/main/java/com/horizon/backend/service/SseEmitterService.java:28 | removing an emitter drops one occurrence, and leaves a list without it unchanged |
| SseHub.TotalSizeRemove | backend/src/main/java/com/horizon/backend/service/SseEmitterService.java:155-157 | the per-agent total is any one list's size plus the total of the rest |
| SseHub.Restrict | backend/src/main/java/com/horizon/backend/service/SseEmitterService.java:136-150 | restricting the map keeps exactly the given keys with their lists |
| SseHub.CountConnections | backend/src/main/java/com/horizon/backend/service/SseEmitterService.java:153-159 | the loop counts the broadcast emitters plus every agent's emitters |
| SseHub.ConnectionCount | backend/src/main/java/com/horizon/backend/service/SseEmitterService.java:153-159 | the broadcast list's size plus every agent list's size, the reference `CountConnections` is proved to compute; `CreateEmitter` raises it by one |
| SseHub.CreateEmitter | backend/src/main/java/com/horizon/backend/service/SseEmitterService.java:22-43 | a new stream is appended to the broadcast list and the count grows by one |
| SseHub.RemoveFromAll | backend/src/main/java/com/horizon/backend/service/SseEmitterService.java:27-40 | completion, timeout or error drops one occurrence from the broadcast list and nothing else |
| SseHub.CreateThenRemoveAll | backend/src/main/java/com/horizon/backend/service/SseEmitterService.java:22-43 | opening and then closing a new stream restores the broadcast list |
| SseHub.RemoveFirstLast | backend/src/main/java/com/horizon/backend/service/SseEmitterService.java:28 | removing a just-appended emitter not present before restores the list |
| SseHub.CreateEmitterForAgent | backend/src/main/java/com/horizon/backend/service/SseEmitterService.java:45-66 | the stream is appended to that agent's list, created if missing; other agents and the broadcast list are untouched |
| SseHub.RemoveEmitter | backend/src/main/java/com/horizon/backend/service/SseEmitterService.java:161-169 | one occurrence is dropped from that agent's list, the key is removed exactly when the list becomes empty, and nothing else changes |
| SseHub.SendToAgent | backend/src/main/java/com/horizon/backend/service/SseEmitterService.java:68-85 | only that agent's list loses its failing emitters; an agent without streams changes nothing |
| SseHub.SendToAll | backend/src/main/java/com/horizon/backend/service/SseEmitterService.java:87-103 | the broadcast list and the snapshot's agent's list lose their failing emitters; other agents are untouched |
| SseHub.SendListToAll | backend/src/main/java/com/horizon/backend/service/SseEmitterService.java:105-119 | a list broadcast prunes only the broadcast list |
| SseHub.Heartbeat | backend/src/main/java/com/horizon/backend/service/SseEmitterService.java:121-151 | a heartbeat prunes the failing emitters from every list and keeps every key |
| SseHub.HeartbeatIdempotent | backend/src/main/java/com/horizon/backend/service/SseEmitterService.java:121-151 | a second heartbeat with the same failures changes nothing more |
| SseHub.PruneNothing | backend/src/main/java/com/horizon/backend/service/SseEmitterService.java:88-100 | with no failures a broadcast keeps every list as it was |
| SseHub.HeartbeatTick | backend/src/main/java/com/horizon/backend/scheduler/MetricsScheduler.java:22-29 | a heartbeat is sent exactly when at least one stream is registered; otherwise nothing changes |
| CommandExecution.FailureResponse | backend/src/main/java/com/horizon/backend/service/CommandExecutionService.java:49-58 | a failed call answers with exit code -1 and no output; an `IOException` shows its own message, anything else is prefixed with "Command execution failed: " |
| CommandExecution.ExecuteCommand | backend/src/main/java/com/horizon/backend/service/CommandExecutionService.java:22-59 | a missing or blank command, then an id that `Long.parseLong` rejects, answer with exit code 1 and change nothing; an unknown agent is the not-found error and only that; a known agent that is not connected under the id as written is "Agent is offline"; any call that changes the registry leaves no pending slot for the agent |
| CommandExecution.TimeoutMessage | backend/src/main/java/com/horizon/backend/websocket/AgentWebSocketHandler.java:94-96 | with the 30-second limit the timeout reads "Command timeout after 30 seconds" |
| CommandExecution.ConnectedAgentOutcome | backend/src/main/java/com/horizon/backend/service/CommandExecutionService.java:44-58 | for a connected, known agent: a write error is shown with -1; a reply is passed on with absent fields defaulted; silence is the timeout message with -1; a disconnect while waiting reaches the generic branch, with the prefix |
| CommandExecution.LeadingZeroIdReportsOffline | backend/src/main/java/com/horizon/backend/service/CommandExecutionService.java:29-37 | the id "05" finds agent 5 in the database, but the connection is looked up under "05", so a connected agent 5 is reported offline |
| CommandExecution.LeadingZeroParses | backend/src/main/java/com/horizon/backend/service/CommandExecutionService.java:29 | `Long.parseLong` reads "05" as 5 |
| Payload.SumPresent | backend/src/main/java/com/horizon/backend/service/impl/AgentPushServiceImpl.java:142-149 | the skipping sum of non-negative values is non-negative |
| Payload.SumAll | backend/src/main/java/com/horizon/backend/service/AgentPollingService.java:167-171 | the unboxing sum has a value exactly when no element is absent |
| Payload.SumAllIsSumPresent | backend/src/main/java/com/horizon/backend/service/AgentPollingService.java:164-181 | when nothing is absent, the polled sum and the pushed sum agree |
| Payload.SumPresentAppend | backend/src/main/java/com/horizon/backend/service/impl/AgentPushServiceImpl.java:144-149 | the skipping sum of a concatenation is the sum of the parts' sums |
| Payload.SumPresentSkipsAbsent | backend/src/main/java/com/horizon/backend/service/impl/AgentPushServiceImpl.java:146-147 | an absent value anywhere in the list leaves the pushed sum unchanged |
| Payload.ToInt32 | backend/src/main/java/com/horizon/backend/service/impl/AgentPushServiceImpl.java:176 | `Long.intValue` lands in the 32-bit range, agrees with its input modulo 2^32, and is the identity on values already in range |
| AgentPolling.NewTask | backend/src/main/java/com/horizon/backend/service/AgentPollingService.java:102-114 | a new task starts at once, is live, and runs at the agent's interval, or every 1000 ms when it has none |
| AgentPolling.Reconcile | backend/src/main/java/com/horizon/backend/service/AgentPollingService.java:76-100 | afterwards exactly the enabled agents have tasks, all live; exactly the tracked ids of agents no longer enabled are cancelled; live tasks of enabled agents are kept; the others are new tasks for their agent |
| AgentPolling.DropStale | backend/src/main/java/com/horizon/backend/service/AgentPollingService.java:80-88 | the tasks kept are exactly those whose id is still enabled, unchanged; the others are exactly the cancelled ids |
| AgentPolling.ScheduleMissing | backend/src/main/java/com/horizon/backend/service/AgentPollingService.java:90-96 | every enabled agent has a live task; live ones are kept, missing or cancelled ones are replaced by a new task for that agent |
| AgentPolling.Reschedule | backend/src/main/java/com/horizon/backend/service/AgentPollingService.java:116-127 | a task is cancelled exactly when the id had one; the id has a fresh task exactly when it names an enabled agent; every other id keeps its task |
| AgentPolling.PollUrl | backend/src/main/java/com/horizon/backend/service/AgentPollingService.java:136-137 | the polled address is an `http://` URL ending in `/metrics`, and in `:9090/metrics` when the agent has no port |
| AgentPolling.PollUrlReadsBack | backend/src/main/java/com/horizon/backend/service/AgentPollingService.java:136-137 | between the scheme and the path, an ip without ':' is the text before the ':' and the text after it parses as the agent's port, or 9090 when it has none |
| AgentPolling.ConvertPolled | backend/src/main/java/com/horizon/backend/service/AgentPollingService.java:164-192 | conversion succeeds exactly when no listed disk or interface lacks a byte count; then cpu and memory pass through, absent lists sum to 0, present lists to the sum of their values, and process count, uptime and load stay unset |
| AgentPolling.PollAgent | backend/src/main/java/com/horizon/backend/service/AgentPollingService.java:129-162 | a missing or disabled agent is skipped with no request; otherwise its URL is requested; the state changes only when a snapshot is sent, and then it is the saved metrics read back and broadcast to every subscriber |
| AgentPolling.PollOfHealthyAgentBroadcasts | backend/src/main/java/com/horizon/backend/service/AgentPollingService.java:147-153 | an enabled agent that answers 200 with a convertible report has its snapshot broadcast |
| AgentPolling.NonOkStatusChangesNothing | backend/src/main/java/com/horizon/backend/service/AgentPollingService.java:156-158 | a status other than 200 leaves cache, history and subscribers unchanged |
| MetricsCache.CalculatePercentage | backend/src/main/java/com/horizon/backend/service/impl/MetricsServiceImpl.java:214-219 | 0 for a missing or zero total; the unboxing error exactly when a non-zero total meets a missing used figure; otherwise the used share in hundredths of a percent, rounded half up |
| MetricsCache.QuarterUsage | backend/src/main/java/com/horizon/backend/service/impl/MetricsServiceImpl.java:214-219 | 250 of 1000 is 25.00 percent |
| MetricsCache.PercentageBounds | backend/src/main/java/com/horizon/backend/service/impl/MetricsServiceImpl.java:214-219 | a used figure within a positive total gives a percentage between 0 and 100 |
| MetricsCache.Offline | backend/src/main/java/com/horizon/backend/dto/metrics/RealtimeMetrics.java:42-50 | the offline view names the agent, carries the time, and has no figures and no heartbeat |
| MetricsCache.CacheKey | backend/src/main/java/com/horizon/backend/service/impl/MetricsServiceImpl.java:37 | every cache key starts with "agent:metrics:" |
| MetricsCache.CacheKeyInjective | backend/src/main/java/com/horizon/backend/service/impl/MetricsServiceImpl.java:114 | two agents never share a cache key |
| MetricsCache.Lookup | backend/src/main/java/com/horizon/backend/service/impl/MetricsServiceImpl.java:114-115 | an entry is seen exactly while its 60-second lifetime has not run out |
| MetricsCache.UsageOf | backend/src/main/java/com/horizon/backend/service/impl/MetricsServiceImpl.java:59-60 | fails exactly when either percentage fails; otherwise keeps the reading without the rates and adds both percentages |
| MetricsCache.SaveInternal | backend/src/main/java/com/horizon/backend/service/impl/MetricsServiceImpl.java:58-110 | fails exactly on the unboxing error; otherwise appends one history row and caches an online view stamped now for 60 seconds, with the agent's name and ip and the reading's figures |
| MetricsCache.SaveMetrics | backend/src/main/java/com/horizon/backend/service/impl/MetricsServiceImpl.java:42-47 | an unknown agent is not found; a known one is saved as above |
| MetricsCache.SavePreservesConsistency | backend/src/main/java/com/horizon/backend/service/impl/MetricsServiceImpl.java:58-110 | after a save every cache entry still sits under its own agent's key with a heartbeat within its lifetime, and the last history row holds the cached figures |
| MetricsCache.GetRealtime | backend/src/main/java/com/horizon/backend/service/impl/MetricsServiceImpl.java:113-129 | a live entry is returned as stored; otherwise an unknown agent is not found and a known one is offline |
| MetricsCache.SaveThenGetRealtime | backend/src/main/java/com/horizon/backend/service/impl/MetricsServiceImpl.java:42-129 | reading right after a save returns what was saved, for that agent |
| MetricsCache.StaleIff | backend/src/main/java/com/horizon/backend/service/impl/MetricsServiceImpl.java:144-145 | more than 60 whole seconds since the heartbeat means at least 61000 ms |
| MetricsCache.Report | backend/src/main/java/com/horizon/backend/service/impl/MetricsServiceImpl.java:136-155 | a live entry is reported as stored except that it is online only if stored online and not stale; an agent without one is offline |
| MetricsCache.GetAllRealtime | backend/src/main/java/com/horizon/backend/service/impl/MetricsServiceImpl.java:131-159 | one report per enabled agent, in order |
| MetricsCache.AllRealtimeOnePerAgent | backend/src/main/java/com/horizon/backend/service/impl/MetricsServiceImpl.java:131-159 | the i-th report is about the i-th enabled agent |
| MetricsCache.StaleBranchUnreachable | backend/src/main/java/com/horizon/backend/service/impl/MetricsServiceImpl.java:38-208 | because entries live only 60 seconds, a live entry is never stale, so the stale branch never changes a report |
| MetricsCache.DeleteMetrics | backend/src/main/java/com/horizon/backend/service/impl/MetricsServiceImpl.java:197-202 | the agent's cache entry and exactly its history rows are removed |
| MetricsCache.DropAgentRows | backend/src/main/java/com/horizon/backend/service/impl/MetricsServiceImpl.java:198 | exactly the rows of other agents remain |
| MetricsCache.DeleteKeepsOthers | backend/src/main/java/com/horizon/backend/service/impl/MetricsServiceImpl.java:197-202 | other agents' cached views are untouched, and the agent's is gone |
| AgentPush.Candidate | backend/src/main/java/com/horizon/backend/service/impl/AgentPushServiceImpl.java:68-74 | the zeroth candidate is the base name itself; the n-th is the base, a '-', and n in decimal |
| AgentPush.CandidateInjective | backend/src/main/java/com/horizon/backend/service/impl/AgentPushServiceImpl.java:70-74 | different counters give different names, so the loop never tries a name twice |
| AgentPush.UniqueName | backend/src/main/java/com/horizon/backend/service/impl/AgentPushServiceImpl.java:68-74 | the name chosen is a candidate no agent has, and every earlier candidate is taken; the loop ends because the table's names are finite |
| AgentPush.Refreshed | backend/src/main/java/com/horizon/backend/service/impl/AgentPushServiceImpl.java:58-64 | the refreshed agent takes the request's host name, os, platform and port, the caller's ip and the time; identity, name, owner and enabled flag stay |
| AgentPush.RegisterAgent | backend/src/main/java/com/horizon/backend/service/impl/AgentPushServiceImpl.java:38-103 | fails exactly for an invalid key; otherwise stamps the key, refreshes the agent already registered under that key and node id in place, or appends a new enabled agent owned by the key's user under the first free candidate name; unique names stay unique |
| AgentPush.ConvertPushed | backend/src/main/java/com/horizon/backend/service/impl/AgentPushServiceImpl.java:141-176 | absent cpu and memory become 0; disk and interface totals sum only the present values; the uptime is copied; the process count is narrowed to 32 bits |
| AgentPush.PushedReadingStores | backend/src/main/java/com/horizon/backend/service/impl/AgentPushServiceImpl.java:141-176 | a converted report always has the figures the cache needs to store it |
| AgentPush.PushAndPollAgree | backend/src/main/java/com/horizon/backend/service/AgentPollingService.java:164-192 | on a report with every figure present, pushing and polling store the same cpu, memory, disk and traffic totals |
| AgentPush.PushTarget | backend/src/main/java/com/horizon/backend/service/impl/AgentPushServiceImpl.java:108-123 | fails exactly when the key is invalid or no agent is registered under it with that node id, with the invalid-key error exactly in the first case; otherwise the agent found has that key and node id |
| AgentPush.PushMetrics | backend/src/main/java/com/horizon/backend/service/impl/AgentPushServiceImpl.java:107-134 | fails exactly when the target lookup fails; otherwise stamps the agent's last-seen time and the key's last use, saves the converted reading and sends the agent's realtime view to every emitter |
| AgentPush.StampedAgentStillExists | backend/src/main/java/com/horizon/backend/service/impl/AgentPushServiceImpl.java:125-130 | stamping the agent keeps its id in the table, so the save that follows finds it |
| AgentPush.ValidateKey | backend/src/main/java/com/horizon/backend/service/impl/AgentPushServiceImpl.java:136-139 | true exactly when some stored key has that value and is accepted now |
| AgentEntity.FindById | backend/src/main/java/com/horizon/backend/service/impl/AgentServiceImpl.java:93-94 | the agent found carries that id and is in the table; nothing is found exactly when no row has the id |
| AgentEntity.ExistsByName | backend/src/main/java/com/horizon/backend/repository/AgentRepository.java:23 | some row has that name; `AgentService.CreateAgent` and `UpdateAgent` raise their duplicate-name errors exactly when it holds |
| AgentEntity.ExistsByIp | backend/src/main/java/com/horizon/backend/service/impl/AgentServiceImpl.java:32 | some row has that ip; `AgentService.CreateAgent` and `UpdateAgent` raise their duplicate-ip errors exactly when it holds |
| AgentEntity.FindByClientKeyAndNode | backend/src/main/java/com/horizon/backend/repository/AgentRepository.java:21 | a found agent is in the table with that key and node id; when none is found, no row matches both |
| AgentEntity.FindEnabled | backend/src/main/java/com/horizon/backend/repository/AgentRepository.java:29 | exactly the enabled rows, each as often as in the table |
| AgentEntity.FindEnabledAppend | backend/src/main/java/com/horizon/backend/repository/AgentRepository.java:29 | the query keeps table order: the enabled rows of a concatenation are those of the first part followed by those of the second |
| AgentEntity.FindEnabledAllEnabled | backend/src/main/java/com/horizon/backend/repository/AgentRepository.java:29 | when every row is enabled the query returns the whole table in order |
| AgentEntity.Remove | backend/src/main/java/com/horizon/backend/service/impl/AgentServiceImpl.java:134 | exactly the rows without that id remain |
| AgentEntity.Replace | backend/src/main/java/com/horizon/backend/service/impl/AgentServiceImpl.java:122 | `save` of an existing row: same length, the rows with that id replaced in place, every other row kept |
| AgentEntity.ReplaceThenFind | backend/src/main/java/com/horizon/backend/service/impl/AgentServiceImpl.java:93-122 | after the save, `findById` of the saved id returns the saved row and every other id finds what it found before |
| AgentService.CreateAgent | backend/src/main/java/com/horizon/backend/service/impl/AgentServiceImpl.java:27-48 | a taken name fails first, then a taken ip; creation succeeds exactly when both are free and appends one enabled agent with the new id, the name and ip, and port 9090 and interval 1000 when not given |
| AgentService.CreatePreservesUniqueness | backend/src/main/java/com/horizon/backend/service/impl/AgentServiceImpl.java:27-48 | a successful create keeps ids, names and ips unique |
| AgentService.Patch | backend/src/main/java/com/horizon/backend/service/impl/AgentServiceImpl.java:96-120 | every given field replaces the stored one and no other field changes |
| AgentService.UpdateAgent | backend/src/main/java/com/horizon/backend/service/impl/AgentServiceImpl.java:92-126 | a missing id is not found; for an existing row a new name already taken fails with that name, and otherwise a new ip already taken fails with that ip; the update succeeds exactly when the id exists and neither clashes, and it replaces that row with the patched agent |
| AgentService.EmptyUpdateChangesNothing | backend/src/main/java/com/horizon/backend/service/impl/AgentServiceImpl.java:92-126 | an update with no fields succeeds and leaves the table as it was |
| AgentService.UpdateTouchesOnlyThatRow | backend/src/main/java/com/horizon/backend/service/impl/AgentServiceImpl.java:92-126 | every row with another id is unchanged |
| AgentService.UpdatePreservesUniqueness | backend/src/main/java/com/horizon/backend/service/impl/AgentServiceImpl.java:92-126 | a successful update keeps ids, names and ips unique |
| AgentService.DeleteAgent | backend/src/main/java/com/horizon/backend/service/impl/AgentServiceImpl.java:130-136 | a missing id is not found; otherwise exactly the rows with other ids remain |
| AgentService.EnabledAgents | backend/src/main/java/com/horizon/backend/service/impl/AgentServiceImpl.java:84-88 | exactly the enabled agents |
| ClientKeys.NotExpiredAtExpiry | backend/src/main/java/com/horizon/backend/entity/ClientKey.java:57-59 | a key is not expired at its expiry instant and is expired at every later one |
| ClientKeys.IsExpired | backend/src/main/java/com/horizon/backend/entity/ClientKey.java:57-59 | only a key with an expiry expires, strictly after it; `NotExpiredAtExpiry` states both sides of the instant |
| ClientKeys.IsValid | backend/src/main/java/com/horizon/backend/entity/ClientKey.java:61-63 | enabled and not expired; `DisabledNeverValid` and `AcceptedIsValidOffExpiry` relate it to the repository query |
| ClientKeys.DisabledNeverValid | backend/src/main/java/com/horizon/backend/entity/ClientKey.java:61-63 | a disabled key is never valid |
| ClientKeys.AcceptedIsValidOffExpiry | backend/src/main/java/com/horizon/backend/repository/ClientKeyRepository.java:19-21 | the query accepts a key exactly when the entity calls it valid and the time is not its expiry instant, where the query's strict comparison rejects what the entity still accepts |
| ClientKeys.FindValid | backend/src/main/java/com/horizon/backend/repository/ClientKeyRepository.java:19-21 | a key found is stored with that value and accepted now; when none is found, no stored key with that value is accepted |
| ClientKeys.UpdateLastUsed | backend/src/main/java/com/horizon/backend/repository/ClientKeyRepository.java:31-33 | every key with that value gets the time as last use, and every other key is unchanged |
| ClientKeys.UpdateLastUsedKeepsValidity | backend/src/main/java/com/horizon/backend/service/impl/ClientKeyServiceImpl.java:78-82 | stamping a key's use never changes which values validate |
| ClientKeys.EncodedLength | backend/src/main/java/com/horizon/backend/service/impl/ClientKeyServiceImpl.java:116 | the length of unpadded URL-safe Base64 text for n bytes: the least number of characters carrying 8n bits at six bits each |
| ClientKeys.GeneratedKeyLength | backend/src/main/java/com/horizon/backend/service/impl/ClientKeyServiceImpl.java:113-118 | a generated key is "hzn_" followed by 43 characters, 47 in all, within the column's 64 |
| ClientKeys.FirstUnused | backend/src/main/java/com/horizon/backend/service/impl/ClientKeyServiceImpl.java:39-42 | an unused value, the prefix and a draw every earlier draw of which gives a value already stored; none exactly when every draw is taken |
| ClientKeys.FirstUnusedIsFirst | backend/src/main/java/com/horizon/backend/service/impl/ClientKeyServiceImpl.java:39-42 | conversely, an unused draw preceded only by taken ones is the value chosen |
| ClientKeys.CreateKey | backend/src/main/java/com/horizon/backend/service/impl/ClientKeyServiceImpl.java:34-62 | the duplicate-name error is raised exactly when the user already has that name; otherwise one enabled key is appended with the new id, the owner, name and description, the first unused generated "hzn_" value, and an expiry exactly when a positive number of days is given, that many days ahead; the creation time is now |
| ClientKeys.CreateKeepsValuesUnique | backend/src/main/java/com/horizon/backend/service/impl/ClientKeyServiceImpl.java:39-42 | key values stay unique |
| ClientKeys.CreatedKeyIsValid | backend/src/main/java/com/horizon/backend/service/impl/ClientKeyServiceImpl.java:34-76 | a created key validates at any time before its expiry |
| ClientKeys.FindKey | backend/src/main/java/com/horizon/backend/service/impl/ClientKeyServiceImpl.java:87-88 | a key found has that id and is stored; none is found only when no key has the id |
| ClientKeys.OwnedKey | backend/src/main/java/com/horizon/backend/service/impl/ClientKeyServiceImpl.java:87-92 | succeeds exactly when the key exists and belongs to the user; otherwise "not found" for a missing key and "not the owner" for someone else's |
| ClientKeys.RevokeKey | backend/src/main/java/com/horizon/backend/service/impl/ClientKeyServiceImpl.java:86-97 | the ownership errors pass through; otherwise that key is disabled and every other key unchanged |
| ClientKeys.RevokedKeyRejected | backend/src/main/java/com/horizon/backend/service/impl/ClientKeyServiceImpl.java:86-97 | with unique values a revoked key never validates again |
| ClientKeys.DeleteKey | backend/src/main/java/com/horizon/backend/service/impl/ClientKeyServiceImpl.java:101-111 | the ownership errors pass through; otherwise exactly the keys with other ids remain |
| ClientKeys.RemoveKey | backend/src/main/java/com/horizon/backend/service/impl/ClientKeyServiceImpl.java:109 | exactly the keys with other ids remain |
| ClientKeys.MaskKey | backend/src/main/java/com/horizon/backend/dto/clientkey/ClientKeyDto.java:40-45 | "****" for a missing key or one shorter than eight; otherwise 15 characters: the first eight, "...", the last four |
| ClientKeys.ShortKeyMaskOverlaps | backend/src/main/java/com/horizon/backend/dto/clientkey/ClientKeyDto.java:44 | for keys of 8 to 11 characters the two visible ends overlap, so a character is shown twice |
| ClientKeys.MaskDeterminesEnds | backend/src/main/java/com/horizon/backend/dto/clientkey/ClientKeyDto.java:40-45 | two keys of one length with the same mask agree on their first eight and last four characters |
| ClientKeys.ViewOf | backend/src/main/java/com/horizon/backend/dto/clientkey/ClientKeyDto.java:26-38 | the listing copies id, name, description, enabled flag, expiry, last use and creation time, computes the expired flag now, and shows the masked value |
| ClientKeys.ViewAgreesWithValidation | backend/src/main/java/com/horizon/backend/dto/clientkey/ClientKeyDto.java:26-38 | with unique values a key listed as enabled and not expired validates, except at its exact expiry instant, and no other key does |
| Text.EndsWithAppend | agent/websocket/client.go:56 | a concatenation ends with its second part |
| Text.IndexOfFrom | agent/websocket/client.go:56 | the search from a position finds the first occurrence at or after it, or reports that there is none |
| Text.IndexOf | agent/websocket/client.go:56 | a position is found exactly when the text contains the pattern, and it is the first occurrence |
| Text.TrimPrefix | agent/cmd/update.go:55-56 | Go `strings.TrimPrefix`: the result with the prefix put back is the input when the input starts with it; otherwise the input is unchanged |
| Text.TrimSuffix | agent/cmd/commands.go:60 | Go `strings.TrimSuffix`: the result with the suffix put back is the input when the input ends with it; otherwise the input is unchanged |
| Text.ReplaceFirst | agent/websocket/client.go:56 | Go `strings.Replace(s, old, new, 1)`: without an occurrence nothing changes; otherwise exactly the first occurrence is replaced |
| Text.Split | backend/src/main/java/com/horizon/backend/service/impl/TokenServiceImpl.java:67 | splitting with empty fields kept gives at least one field, and no field holds the separator |
| Text.SplitWithoutSeparator | backend/src/main/java/com/horizon/backend/service/impl/TokenServiceImpl.java:67 | a text without the separator is a single field |
| Text.JoinFirstCons | backend/src/main/java/com/horizon/backend/service/impl/TokenServiceImpl.java:40-45 | a character added to the first field is added to the front of the join |
| Text.JoinSplit | backend/src/main/java/com/horizon/backend/service/impl/TokenServiceImpl.java:40-67 | joining the fields of a split gives back the text |
| Text.SplitJoin | backend/src/main/java/com/horizon/backend/service/impl/TokenServiceImpl.java:40-67 | splitting a join of fields without the separator gives back the fields |
| Text.SplitAtFirst | backend/src/main/java/com/horizon/backend/service/impl/TokenServiceImpl.java:67 | a first field without the separator is split off as is |
| Text.SplitAppend | frontend/src/hooks/useMetricsStream.ts:99-101 | splitting x + y gives the complete fields of x, then the split of x's unfinished last field continued by y |
| Text.AppendShapeAfterSeparator | frontend/src/hooks/useMetricsStream.ts:100 | the split-append shape holds when x begins with the separator, given it for the rest |
| Text.EmptyFirstKeepsShape | frontend/src/hooks/useMetricsStream.ts:100 | an empty first field on both sides keeps the split-append shape |
| Text.AppendShapeInOnlyField | frontend/src/hooks/useMetricsStream.ts:100 | the split-append shape holds when x's rest is a single field |
| Text.PrependKeepsShape | frontend/src/hooks/useMetricsStream.ts:100 | a character prepended to the first field on both sides keeps the split-append shape |
| Text.AppendShapeInFirstField | frontend/src/hooks/useMetricsStream.ts:100 | the split-append shape holds when x's rest has several fields |
| Text.DropTrailingEmpty | backend/src/main/java/com/horizon/backend/controller/AgentPushController.java:58 | the result is the longest prefix not ending in an empty field: everything cut is empty, and all-empty fields leave nothing |
| Text.JoinOfEmptyFields | backend/src/main/java/com/horizon/backend/controller/AgentPushController.java:58 | a join of empty fields is made only of separators |
| Text.JoinOfSeparators | backend/src/main/java/com/horizon/backend/controller/AgentPushController.java:58 | if a join is made only of separators, so is every field |
| Text.OnlyChar | backend/src/main/java/com/horizon/backend/controller/AgentPushController.java:58 | a string made only of one character is empty or contains it |
| Text.JavaSplitEmpty | backend/src/main/java/com/horizon/backend/controller/AgentPushController.java:58 | Java's default split returns no field exactly when the text is non-empty and made only of separators |
| Text.JavaSplitFirst | backend/src/main/java/com/horizon/backend/controller/AgentPushController.java:58 | when Java's default split returns fields, its first is the first field of the full split |
| Text.TrimStart | frontend/src/hooks/useMetricsStream.ts:108-110 | the result is a suffix of the input, every character dropped is white space, and the result does not start with white space |
| Text.TrimEnd | frontend/src/hooks/useMetricsStream.ts:108-110 | the result is a prefix of the input, every character dropped is white space, and the result does not end with white space |
| Text.Trim | backend/src/main/java/com/horizon/backend/controller/AgentPushController.java:58 | the result is the input with runs of white space cut from its two ends, and neither starts nor ends with white space |
| Text.TrimKeepsChars | backend/src/main/java/com/horizon/backend/controller/AgentPushController.java:51 | trimming only removes characters |
| Text.TrimUntrimmed | backend/src/main/java/com/horizon/backend/controller/AgentPushController.java:51 | a text without white space at either end is unchanged by trimming |
| Text.JsTrimIsTrim | frontend/src/hooks/useMetricsStream.ts:108-110 | JavaScript `trim` is trimming with JavaScript's white space |
| Text.JsTrimStartIsTrimStart | frontend/src/hooks/useMetricsStream.ts:108-110 | the leading half of JavaScript `trim` is the general leading trim |
| Text.JsTrimEndIsTrimEnd | frontend/src/hooks/useMetricsStream.ts:108-110 | the trailing half of JavaScript `trim` is the general trailing trim |
| Text.RemoveChar | backend/src/main/java/com/horizon/backend/controller/AgentPushController.java:51 | removing a character leaves none of it, never lengthens the text and adds no character |
| Text.RemoveCharAppend | backend/src/main/java/com/horizon/backend/controller/AgentPushController.java:51 | removal works piece by piece across a concatenation |
| Text.RemoveCharAbsent | backend/src/main/java/com/horizon/backend/controller/AgentPushController.java:51 | removing an absent character changes nothing |
| Text.ToLower | agent/push/push.go:18 | lower-casing keeps the length and lower-cases each character in place |
| Text.DigitChar | backend/src/main/java/com/horizon/backend/service/impl/TokenServiceImpl.java:41 | a digit value becomes the digit character of that value |
| Text.NatToString | backend/src/main/java/com/horizon/backend/service/impl/TokenServiceImpl.java:41 | a number is written as at least one decimal digit, without a leading zero |
| Text.NatToStringRoundTrip | backend/src/main/java/com/horizon/backend/service/impl/TokenServiceImpl.java:41-73 | reading the written digits back gives the number |
| Text.NatToStringInjective | backend/src/main/java/com/horizon/backend/service/impl/TokenServiceImpl.java:49 | different numbers are written differently |
| Text.ParseLong | backend/src/main/java/com/horizon/backend/service/CommandExecutionService.java:29 | `Long.parseLong` accepts only non-empty text and yields a value in the 64-bit range |
| Text.ParseNatString | backend/src/main/java/com/horizon/backend/service/impl/TokenServiceImpl.java:73 | a written natural number is read back |
| Text.ParseNegativeString | backend/src/main/java/com/horizon/backend/service/impl/TokenServiceImpl.java:73 | a written negative number is read back |
| Text.ParseLongRoundTrip | backend/src/main/java/com/horizon/backend/service/impl/TokenServiceImpl.java:41-73 | every 64-bit value, written and parsed, comes back |
| Tokens.CreateRefreshToken | backend/src/main/java/com/horizon/backend/service/impl/TokenServiceImpl.java:36-56 | the token maps to id, email, user agent and address joined by pipes; only the user's token set gains it; the blacklist is untouched |
| Tokens.ValidateRefreshToken | backend/src/main/java/com/horizon/backend/service/impl/TokenServiceImpl.java:59-78 | an unknown token or a value with fewer than four fields gives nothing; a value with four or more fields and a number first gives the fields in order, with the first parsed as a number; it fails exactly when that parse fails |
| Tokens.NoPipeInNumber | backend/src/main/java/com/horizon/backend/service/impl/TokenServiceImpl.java:41 | a written id holds no pipe |
| Tokens.CreateThenValidate | backend/src/main/java/com/horizon/backend/service/impl/TokenServiceImpl.java:36-78 | a token just created validates to the user's id, email, user agent and address, absent ones as "", when none holds a pipe |
| Tokens.DefaultSplitWouldLoseEmptyFields | backend/src/main/java/com/horizon/backend/service/impl/TokenServiceImpl.java:67 | without the -1 limit a token with no user agent and no address would split into two fields instead of four |
| Tokens.FirstField | backend/src/main/java/com/horizon/backend/service/impl/TokenServiceImpl.java:86-88 | the first field of a stored value is the text before the first pipe |
| Tokens.DeleteRefreshToken | backend/src/main/java/com/horizon/backend/service/impl/TokenServiceImpl.java:81-95 | the token is gone, other tokens are untouched, and it leaves the token set named by its value's first field and no other |
| Tokens.CreateThenDelete | backend/src/main/java/com/horizon/backend/service/impl/TokenServiceImpl.java:36-95 | a token created and then deleted no longer validates and is not in its user's set |
| Tokens.DeleteAllUserRefreshTokens | backend/src/main/java/com/horizon/backend/service/impl/TokenServiceImpl.java:98-110 | every token in the user's set is gone, other tokens and other users' sets are untouched, and the user's set is empty |
| Tokens.CreateThenDeleteAll | backend/src/main/java/com/horizon/backend/service/impl/TokenServiceImpl.java:36-110 | a user's token no longer validates after all of the user's tokens are deleted |
| Tokens.BlacklistAccessToken | backend/src/main/java/com/horizon/backend/service/impl/TokenServiceImpl.java:113-123 | the token is blacklisted, no other token changes status, and refresh tokens are untouched |
| Tokens.IsAccessTokenBlacklisted | backend/src/main/java/com/horizon/backend/service/impl/TokenServiceImpl.java:120-123 | the blacklist key exists; `BlacklistAccessToken` makes it hold for exactly that token and `RefreshOperationsKeepBlacklist` shows refresh operations never clear it |
| Tokens.RefreshOperationsKeepBlacklist | backend/src/main/java/com/horizon/backend/service/impl/TokenServiceImpl.java:36-110 | no refresh-token operation lifts a blacklisting |
| CommandText.Combine | frontend/src/api/command.ts:28-30 | the combination is empty exactly when both parts are; a missing part leaves the other alone; both present are joined by a newline |
| CommandText.CommandResultText | frontend/src/api/command.ts:26-36 | the text is never empty: the combined text when there is one, else the exit code message for a non-zero code, else the success message |
| CommandText.OutputAndErrorRecoverable | frontend/src/api/command.ts:28-30 | single-line output and error are recovered by splitting at the newline |
| CommandText.ExitCodeRecoverable | frontend/src/api/command.ts:32-34 | the exit code of a silent failure is read back from its message |
| CommandText.SilentOutcomesDistinct | frontend/src/api/command.ts:32-36 | a silent failure never reads as a silent success |
| CommandText.ClientErrorMessage | frontend/src/api/command.ts:39-41 | the body's error, else the client's message, else "Failed to execute command" |
| CommandText.Execute | frontend/src/api/command.ts:11-46 | a response resolves to its command-result text, which is never empty; a client error raises the body's error, else the client's message, else the fallback; other exceptions pass through unchanged |
| CommandText.BackendErrorWins | frontend/src/api/command.ts:39 | with an error in the body, that error is raised whatever the client's message |
| AgentClient.NewClient | agent/websocket/client.go:46-53 | the client keeps the agent id and the server address with at most one trailing '/' removed, removed exactly when there was one |
| AgentClient.NewClientStripsOneSlash | agent/websocket/client.go:48 | only one of two trailing slashes is removed |
| AgentClient.WsUrl | agent/websocket/client.go:56 | the address always ends with "/api/ws/agent?agentId=" and the id; without "http://" in the server address it is that address unchanged followed by the path |
| AgentClient.HttpServerUrl | agent/websocket/client.go:46-56 | an "http://" server without a trailing '/' is reached at the same host with "ws://" |
| AgentClient.Dispatch | agent/websocket/client.go:86-97 | only the five known message types do anything; commands carry the data as the command line, input carries the data, start and resize carry the size |
| AgentClient.ShellFramesReachTerminal | agent/websocket/client.go:86-97 | the `shell_input` and `shell_resize` frames the backend sends to a connected agent write exactly that input, or apply exactly that size, to an open terminal and change nothing else |
| AgentClient.StartShellStep | agent/websocket/client.go:102-138 | a running terminal ignores the start; a start error is reported to the server as shell output and changes nothing; a successful start runs terminal, process and interactive mode, resizing only for a positive size |
| AgentClient.InputStep | agent/websocket/client.go:179-191 | input reaches the terminal exactly when one is open, and changes no state |
| AgentClient.ResizeStep | agent/websocket/client.go:193-221 | a resize reaches the terminal exactly when one is open, and changes no state |
| AgentClient.StopStep | agent/websocket/client.go:223-236 | afterwards there is no terminal and no interactive mode; the process is signalled exactly when there is one and the terminal closed exactly when open; the process handle itself is kept |
| AgentClient.ExitedStep | agent/websocket/client.go:161-176 | when the shell process ends, the terminal, process and interactive flag are cleared and the waiter sends `shell_exit` |
| AgentClient.ReaderEndedStep | agent/websocket/client.go:143-158 | when a read of the terminal fails, end of file included, the reader sends `shell_exit` and leaves the shell state alone |
| AgentClient.ShellEndReportsExitTwice | agent/websocket/client.go:143-176 | a shell that ends by itself sends `shell_exit` twice, once from the reader and once from the waiter, and ends fully cleared |
| AgentClient.StoppedShellReportsExitTwice | agent/websocket/client.go:143-176 | a stopped running shell is signalled and closed, then `shell_exit` is sent twice, and the shell ends fully cleared |
| AgentClient.AfterExitInputDroppedAndStartRuns | agent/websocket/client.go:160-191 | after the shell process exits, input is dropped and a new start opens a terminal |
| AgentClient.StopIsIdempotent | agent/websocket/client.go:223-236 | stopping twice leaves the same state as stopping once, and the second stop closes no terminal |
| AgentClient.StopThenStartRuns | agent/websocket/client.go:102-236 | after a stop, a successful start runs a new shell |
| AgentClient.RunningShellIgnoresStart | agent/websocket/client.go:106-109 | while a terminal is open a start changes nothing and does nothing |
| AgentClient.Receive | agent/websocket/client.go:71-100 | unknown messages and commands leave the shell alone; `shell_stop` is the stop step; input and resize without a terminal do nothing |
| AgentClient.CommandLine | agent/websocket/client.go:264-269 | three arguments; on Windows the command as given, elsewhere "/bin/sh -c" with "sudo " put before the command |
| AgentClient.ResultFor | agent/websocket/client.go:271-289 | a `command_result` with the combined output; no error and code 0 on success; the exit code and message when the command exited with one; code 1 and the message when it could not run |
| AgentClient.ResultReachesWaitingCommand | agent/websocket/client.go:284-297 | the result the agent sends completes the backend's waiting command with the same output, error and code |
| AgentClient.SuccessIsRecognisable | agent/websocket/client.go:271-289 | code 0 with no error is reported exactly for a command that succeeded, given failures carry a message and a failed exit is non-zero |
| AgentUpdate.LatestRelease | agent/cmd/update.go:127-133 | the index of the first release whose tag starts with "agent-v"; none exactly when no release does |
| AgentUpdate.ReleaseByVersion | agent/cmd/update.go:160-171 | the index of the first agent release whose tag, without "agent-v", equals the requested version without one leading "v"; none exactly when no release matches |
| AgentUpdate.LatestIsFoundByItsVersion | agent/cmd/update.go:127-171 | asking for the latest release's version, with or without a "v", finds that same release |
| AgentUpdate.FoundAtFirstAgentRelease | agent/cmd/update.go:160-171 | a matching release with no agent release before it is the one found |
| AgentUpdate.BinaryFileName | agent/cmd/update.go:174-180 | "horizon-agent-{os}-{arch}", with ".exe" added exactly on Windows |
| AgentUpdate.AssetUrl | agent/cmd/update.go:67-74 | the download address of the first asset with exactly that name, "" when no asset has it |
| AgentUpdate.IsAgentRelease | agent/cmd/update.go:128 | an agent release is one whose tag begins with "agent-v" |
| AgentUpdate.TagVersion | agent/cmd/update.go:164 | an agent release's tag is "agent-v" followed by its version; any other tag is its own version |
| AgentUpdate.Normalize | agent/cmd/update.go:160 | a version beginning with 'v' is "v" followed by the normalised text, so only one 'v' is dropped; any other version is unchanged |
| AgentUpdate.PlanUpdate | agent/cmd/update.go:36-80 | a failed fetch, a missing agent release and a missing version are errors; "up to date" exactly when no version was named, the build is not "dev" and the versions agree; otherwise the first matching asset's address is downloaded, and its absence is the "no binary" error |
| AgentUpdate.DevOrTargetNeverUpToDate | agent/cmd/update.go:61 | a development build or a named version never reports "up to date" |
| AgentUpdate.SameVersionIsUpToDate | agent/cmd/update.go:55-63 | running the latest release's version, with or without a leading "v", reports "up to date" |
| AgentConfig.Port | agent/config/config.go:23-28 | always positive; a port other than 9090 is the one `AGENT_PORT` parses to, and a positive parse of `AGENT_PORT` is always taken |
| AgentConfig.NodeId | agent/config/config.go:30-38 | `NODE_ID` when set, else the host name, else "unknown" when the host name cannot be read |
| AgentConfig.Interval | agent/config/config.go:40-54 | the parsed duration when the variable is set and parses, the default otherwise |
| AgentConfig.PushEnabled | agent/config/config.go:56-62 | pushing is on exactly when `PUSH_ENABLED` is "true" or "1" or `BACKEND_URL` is set |
| AgentConfig.Load | agent/config/config.go:20-72 | every field of the loaded configuration comes from its own variable by the rules above |
| AgentConfig.EmptyEnvironmentDefaults | agent/config/config.go:23-62 | with no variables set: port 9090, the host name, 100 ms caching, no backend, 1 s pushing, pushing off |
| AgentConfig.BadPortFallsBack | agent/config/config.go:23-28 | an `AGENT_PORT` that does not parse or is not positive leaves port 9090 |
| AgentConfig.BackendUrlForcesPush | agent/config/config.go:60-62 | a backend address turns pushing on even when `PUSH_ENABLED` says "false" |
| AgentCommands.AuthServerUrl | agent/cmd/commands.go:50-60 | the `HORIZON_SERVER_URL` variable wins over the second argument, which wins over the default; then one trailing '/' is trimmed |
| AgentCommands.KeyPreview | agent/cmd/commands.go:74 | 15 characters that start with the key's first eight and end with its last four |
| AgentCommands.PreviewMatchesDashboardMask | agent/cmd/commands.go:74 | the agent shows a key exactly as the dashboard's key list masks it |
| AgentCommands.RunAuthAsWritten | agent/cmd/commands.go:44-79 | as written: missing key, rejected key, and failed save are errors; the slice panic happens exactly when all else succeeds with a key shorter than eight; success returns the chosen server, the key and its preview |
| AgentCommands.ShortKeyPanics | agent/cmd/commands.go:74 | the three-character key "abc" accepted by the server crashes the command after the save |
| AgentCommands.RunAuth | agent/cmd/commands.go:44-79 | corrected: never panics; succeeds exactly when a key is given, the server accepts it and the save works; the preview is shown exactly for keys of eight or more characters |
| AgentCommands.RunAuthAgreesWithoutPanic | agent/cmd/commands.go:44-79 | wherever the code as written does not panic, the corrected command gives the same result |
| AgentCommands.RunStatus | agent/cmd/commands.go:100-120 | a load error is passed on; not authenticated exactly when nothing is stored or it is unregistered; otherwise the stored server is shown, with the key preview exactly for keys longer than twelve characters |
| AgentCommands.RunDeauth | agent/cmd/commands.go:81-98 | a load error is passed on; nothing stored means nothing to remove; removal succeeds exactly when something is stored and deleting works, and a delete error is passed on |
| AgentCommands.StatusAgreesWithRun | agent/cmd/commands.go:100-152 | without environment overrides, `status` says not authenticated exactly when `run` gets no credentials, and both name the same server otherwise |
| AgentCommands.GetAuthConfig | agent/cmd/commands.go:122-152 | `HORIZON_KEY` yields registered credentials with the environment's or the default server; otherwise the file's error, nothing for a missing or unregistered file, or the stored credentials with the server overridden by `HORIZON_SERVER_URL` when set |
| AgentCommands.EnvironmentKeyIgnoresFile | agent/cmd/commands.go:126-136 | with `HORIZON_KEY` set, the file's contents, even a read error, make no difference |
| AgentCommands.CredentialsAreRegistered | agent/cmd/commands.go:122-152 | credentials handed to `run` are always registered, and without `HORIZON_KEY` they keep the stored key |
| MetricsStream.LineStep | frontend/src/hooks/useMetricsStream.ts:106-116 | an "event:" line sets the trimmed type, a "data:" line the trimmed data; an event is dispatched exactly on a blank line with data, and then the fields reset to "message" and ""; any other line changes nothing |
| MetricsStream.FoldLines | frontend/src/hooks/useMetricsStream.ts:106-116 | no lines leave the fields as they are and dispatch nothing; a single line is one step of the handler |
| MetricsStream.FoldLinesAppend | frontend/src/hooks/useMetricsStream.ts:106-116 | reading two runs of lines one after the other equals reading them together, with the events concatenated |
| MetricsStream.BlankLineDispatches | frontend/src/hooks/useMetricsStream.ts:111-115 | a blank line after data dispatches exactly one event with the current type and data, and resets the fields |
| MetricsStream.DispatchedEventsHaveData | frontend/src/hooks/useMetricsStream.ts:111 | no dispatched event has empty data |
| MetricsStream.AfterLinesAppend | frontend/src/hooks/useMetricsStream.ts:99-116 | the carried reading of a line run followed by a tail equals reading the run and then the tail from where it left off |
| MetricsStream.Feed | frontend/src/hooks/useMetricsStream.ts:99-101 | the buffer kept after a read never holds a newline |
| MetricsStream.FeedWithoutNewline | frontend/src/hooks/useMetricsStream.ts:99-101 | a read that completes no line only grows the buffer and dispatches nothing |
| MetricsStream.ReadAsWritten | frontend/src/hooks/useMetricsStream.ts:99-116 | the read loop as written: the buffer kept holds no newline |
| MetricsStream.AsWrittenRestartsEachRead | frontend/src/hooks/useMetricsStream.ts:103-104 | each read as written is the carrying reader started from a fresh "message" type and empty data |
| MetricsStream.FeedAll | frontend/src/hooks/useMetricsStream.ts:92-117 | with no reads, nothing happens |
| MetricsStream.ReadAllAsWritten | frontend/src/hooks/useMetricsStream.ts:92-117 | as written, no reads deliver nothing, and the events of the first read come first |
| MetricsStream.FeedAppend | frontend/src/hooks/useMetricsStream.ts:99-116 | with type and data carried across reads, reading a then b equals reading a followed by b at once |
| MetricsStream.ChunkingDoesNotMatter | frontend/src/hooks/useMetricsStream.ts:92-117 | with type and data carried, the events of a stream do not depend on how it was cut into reads |
| MetricsStream.SplitEncoded | backend/src/main/java/com/horizon/backend/service/SseEmitterService.java:92-94 | a one-line event frame splits into its event line, its data line and two empty fields |
| MetricsStream.FieldLinesSet | frontend/src/hooks/useMetricsStream.ts:107-110 | the frame's event and data lines set exactly the frame's type and data |
| MetricsStream.FramedLinesAreParsed | frontend/src/hooks/useMetricsStream.ts:106-116 | the lines of one frame dispatch exactly that event and reset the fields |
| MetricsStream.EncodedEventIsParsed | backend/src/main/java/com/horizon/backend/service/SseEmitterService.java:92-94 | one frame the backend sends, read at once, yields exactly its event and leaves an empty buffer and fresh fields |
| MetricsStream.EncodedStreamIsParsed | backend/src/main/java/com/horizon/backend/service/SseEmitterService.java:87-119 | a stream of frames, read at once, yields exactly its events in order |
| MetricsStream.ChunkedStreamIsParsed | frontend/src/hooks/useMetricsStream.ts:92-117 | with the carrying reader, any cutting of a stream of frames into reads yields exactly its events in order |
| MetricsStream.ExampleWholeRead | frontend/src/hooks/useMetricsStream.ts:99-116 | as written, a frame arriving in one read is delivered |
| MetricsStream.SplitEventLostAsWritten | frontend/src/hooks/useMetricsStream.ts:103-104 | as written, a data line in one read and its blank line in the next deliver nothing, while the same bytes in one read deliver the event |
| MetricsStream.SplitEventDeliveredWhenCarried | frontend/src/hooks/useMetricsStream.ts:92-117 | the carrying reader delivers that same split event |
| MetricsStream.Upsert | frontend/src/hooks/useMetricsStream.ts:145-168 | the keys are the old ones plus the batch's agents; each agent in the batch holds its last snapshot there; agents outside the batch keep their snapshot |
| MetricsStream.ProcessEvent | frontend/src/hooks/useMetricsStream.ts:136-174 | heartbeats, empty data, unparsable JSON and payloads of the wrong shape leave the view as it was; `init`, a single `metrics` snapshot and a `metrics-all` array add their agents to the pending map, each with its last snapshot in the payload, and leave every other pending entry unchanged; `init` also replaces the shown map with exactly the payload's agents and their last snapshots; only `init` touches the shown map; listeners hear exactly the decoded payload |
| MetricsStream.UiTick | frontend/src/hooks/useMetricsStream.ts:196-200 | with pending snapshots the shown map becomes a copy of them; with none nothing changes |
| MetricsStream.InitIsUndoneByTick | frontend/src/hooks/useMetricsStream.ts:144-200 | an agent missing from an `init` disappears from the view, but comes back at the next tick, since the pending map still holds it |
| MetricsStream.MetricsShownAfterTick | frontend/src/hooks/useMetricsStream.ts:160-200 | a `metrics` snapshot is shown for its agent after the next tick |
| MetricsStream.Delay | frontend/src/hooks/useMetricsStream.ts:178-181 | every delay lies between one second and thirty |
| MetricsStream.DelayDoubles | frontend/src/hooks/useMetricsStream.ts:178-181 | the first wait is one second and each next wait is twice the previous one, capped at 30 seconds |
| MetricsStream.DelaySchedule | frontend/src/hooks/useMetricsStream.ts:178-181 | the first six waits are 1000, 2000, 4000, 8000, 16000 and 30000 ms |
| MetricsStream.Pow2Monotone | frontend/src/hooks/useMetricsStream.ts:181 | powers of two grow with the exponent |
| MetricsStream.DelayGrows | frontend/src/hooks/useMetricsStream.ts:178-181 | delays never shrink as attempts grow, and from the fifth attempt on they are 30 seconds |
| MetricsStream.ScheduleReconnect | frontend/src/hooks/useMetricsStream.ts:176-191 | the stream is disconnected; below ten attempts the next one is counted, timed by the doubling delay and announced; from ten on nothing is timed and the give-up message is shown |
| MetricsStream.Connected | frontend/src/hooks/useMetricsStream.ts:82-86 | a successful connection is connected, clears the error and resets the attempts |
| MetricsStream.ManualReconnect | frontend/src/hooks/useMetricsStream.ts:219-231 | a manual reconnect cancels the timer and resets the attempts |
| MetricsStream.Failures | frontend/src/hooks/useMetricsStream.ts:176-191 | n failures in a row schedule at most n waits, each between one and thirty seconds, and none once ten attempts have been made |
| MetricsStream.FailuresAreBounded | frontend/src/hooks/useMetricsStream.ts:176-191 | n failures in a row schedule at most the ten attempts left, with the doubling delays in order |
| MetricsStream.FailuresCount | frontend/src/hooks/useMetricsStream.ts:180-190 | the number of retries scheduled by n failures is n, capped by the attempts left |
| MetricsStream.FailuresDelays | frontend/src/hooks/useMetricsStream.ts:181 | the k-th retry scheduled waits the delay of attempt k |
| MetricsStream.SuccessResetsBackoff | frontend/src/hooks/useMetricsStream.ts:84-229 | after a successful connection or a manual reconnect, the next failure waits one second again |
| MetricsHistory.AddMetrics | frontend/src/hooks/useMetricsHistory.ts:68-84 | an offline snapshot changes nothing; an online one sets only its agent's latest point, stamped with the time, with the snapshot's cpu, memory, disk and temperature and each missing rate taken from the agent's previous point; the histories are untouched |
| MetricsHistory.RateSticksUntilReplaced | frontend/src/hooks/useMetricsHistory.ts:78-79 | a rate, once reported, survives a later snapshot that lacks it |
| MetricsHistory.AddMultiple | frontend/src/hooks/useMetricsHistory.ts:86-90 | afterwards exactly the agents that had a latest point or are reported online in the batch have one |
| MetricsHistory.AddMultipleKeepsHistories | frontend/src/hooks/useMetricsHistory.ts:86-90 | adding a batch never touches the histories |
| MetricsHistory.AddMultipleKeepsOthers | frontend/src/hooks/useMetricsHistory.ts:86-90 | an agent the batch does not mention keeps its latest point |
| MetricsHistory.AddMultipleLastWins | frontend/src/hooks/useMetricsHistory.ts:86-90 | an agent's last online snapshot in the batch sets its whole latest point: the time, cpu, memory, disk and temperature, and each missing rate from the point the batch had built for the agent before it |
| MetricsHistory.Extend | frontend/src/hooks/useMetricsHistory.ts:36-54 | a new agent starts a history of the one stamped point; an existing history gets the stamped point appended and, when that makes it longer than the limit, its oldest point dropped |
| MetricsHistory.TickEntry | frontend/src/hooks/useMetricsHistory.ts:35-54 | an agent without a latest point keeps its history; one with a latest point and no history starts one with that point stamped now; an existing history keeps its agent and limit and ends with the stamped point |
| MetricsHistory.Tick | frontend/src/hooks/useMetricsHistory.ts:27-59 | the latest points are kept; with none nothing changes; afterwards every agent with a latest point has a history, and the other histories are untouched |
| MetricsHistory.TickEntryOf | frontend/src/hooks/useMetricsHistory.ts:35-54 | each agent with a latest point gets its history extended by it |
| MetricsHistory.TickWithRoom | frontend/src/hooks/useMetricsHistory.ts:39-47 | a history below the limit grows by exactly the stamped latest point |
| MetricsHistory.TickAppendsLatest | frontend/src/hooks/useMetricsHistory.ts:35-54 | after a tick an agent's history ends with its latest point stamped now, and is not empty for a limit of one or more |
| MetricsHistory.TickStaysBounded | frontend/src/hooks/useMetricsHistory.ts:40-43 | no history grows beyond the limit |
| MetricsHistory.FullHistorySlides | frontend/src/hooks/useMetricsHistory.ts:40-43 | a full history drops its oldest point and appends the new one |
| MetricsHistory.TickRepeatsLatest | frontend/src/hooks/useMetricsHistory.ts:27-59 | without new data two ticks append the same point twice, with the two times |
| MetricsHistory.GetHistory | frontend/src/hooks/useMetricsHistory.ts:92-94 | the agent's points, or none for an agent without a history |
| MetricsHistory.SnapshotShownAfterTick | frontend/src/hooks/useMetricsHistory.ts:27-94 | an online snapshot is the last point of its agent's history after the next tick: its cpu, memory, disk and temperature, the rate fallback, and the tick's time |
| MetricsHistory.ClearHistory | frontend/src/hooks/useMetricsHistory.ts:96-103 | the agent's history and latest point are removed and every other agent's are kept |
| MetricsHistory.ClearedStaysCleared | frontend/src/hooks/useMetricsHistory.ts:96-103 | a cleared agent stays without history through the next tick |
| MetricsHistory.ClearAll | frontend/src/hooks/useMetricsHistory.ts:105-108 | both the history map and the latest-point map are empty |
| MetricsHistory.ClearedAllIsQuiet | frontend/src/hooks/useMetricsHistory.ts:30 | after clearing everything a tick changes nothing |
| AgentCard.Parts | frontend/src/components/AgentCard.tsx:31-33 | the days, hours of the day and minutes of the hour of an uptime, fixed by bounds instead of division: hours below 24, minutes below 60, and the uptime inside the minute the parts start |
| AgentCard.PartsUnique | frontend/src/components/AgentCard.tsx:31-33 | any split meeting those bounds is the one computed, so the three floor divisions determine the parts |
| AgentCard.FormatUptime | frontend/src/components/AgentCard.tsx:29-37 | "-" exactly when the uptime is unknown; "{d}d {h}h" once a day has passed, "{h}h {m}m" once an hour has, "{m}m" otherwise |
| AgentCard.DaysTextFields | frontend/src/components/AgentCard.tsx:34 | past one day the text is exactly two space-separated fields, the days and the hours |
| AgentCard.DaysTextReadsBack | frontend/src/components/AgentCard.tsx:34 | reading both numbers back from "{d}d {h}h" gives hours below 24 and places the uptime within the hour those numbers name |
| AgentCard.SeverityOf | frontend/src/components/AgentCard.tsx:39-49 | the shared thresholds: critical from 90, warning from 70 below 90, normal below 70, each case an if-and-only-if |
| AgentCard.SeverityMonotone | frontend/src/components/AgentCard.tsx:39-49 | a higher usage is never shown as less alarming |
| AgentCard.UsageColor | frontend/src/components/AgentCard.tsx:39-43 | red, yellow or white text exactly for critical, warning or normal usage |
| AgentCard.UsageBarColor | frontend/src/components/AgentCard.tsx:45-49 | red, yellow or blue bar exactly for critical, warning or normal usage |
| AgentCard.ColoursAgree | frontend/src/components/AgentCard.tsx:39-49 | two usages get the same text colour if and only if they get the same bar colour |
| AgentCard.BarWidth | frontend/src/components/AgentCard.tsx:65 | the bar is the usage capped at 100: never above either, and equal to one of them |
| AgentCard.Visible | frontend/src/components/AgentCard.tsx:122-124 | the listed interfaces are exactly the ones whose name neither is nor starts with "lo", each as often as in the input |
| AgentCard.VisibleAppend | frontend/src/components/AgentCard.tsx:122-124 | the list keeps the interfaces' order: filtering a concatenation filters each part in turn |
| AgentCard.TotalCountsHiddenLoopback | frontend/src/components/AgentCard.tsx:119-124 | the header's download and upload totals are the listed interfaces' total plus the hidden loopback interfaces' total |
| AgentCard.Total | frontend/src/components/AgentCard.tsx:119-120 | the download or upload total: 0 for no interfaces, one interface's rate or 0 when null, never negative for non-negative rates |
| AgentCard.TotalAppend | frontend/src/components/AgentCard.tsx:119-120 | the total is additive over concatenation, so with the one-interface case it is the sum of all rates |
| AgentCard.VisibleIdempotent | frontend/src/components/AgentCard.tsx:122-124 | filtering the listed interfaces again removes nothing |
| AgentCard.AverageDiskUsage | frontend/src/components/AgentCard.tsx:126-128 | 0 when the disks' total size is 0, otherwise the used share of the total times 100 |
| AgentCard.UsedWithinTotal | frontend/src/components/AgentCard.tsx:126-127 | when no disk reports more used than its size, neither do the sums |
| AgentCard.AverageIsPercentage | frontend/src/components/AgentCard.tsx:126-128 | with consistent disks the average lies between 0 and 100 |

## Left out

- Transports: WebSocket and SSE writes, the HTTP clients, Redis and the JPA repositories are not modelled. Each appears as a value (a table, a map, a list of emitters) plus an input outcome: a write error, a set of failing emitters, an HTTP status and body.
- Concurrency: threads, futures, timeouts, scheduled executors and concurrent collections are not modelled. Each callback or tick is one atomic step, and a timeout or a disconnect while waiting is an explicit input event.
- Clocks and timers: the current time is a parameter in milliseconds. Cache and token lifetimes (Redis TTLs) are not modelled, except where the 60-second cache lifetime decides a branch.
- Randomness: UUID refresh tokens are inputs. Secure random key material and its Base64 encoding are a sequence of encoded draws, and only the 47-character key shape is stated.
- JSON: encoding and decoding with Jackson, `encoding/json` and `JSON.parse` are not modelled. Messages arrive as decoded records, and a parse failure is an explicit `None`.
- Floating point: the percentage is computed in exact integer hundredths with `Math.round`'s half-up rounding. CPU, load, temperatures and rates are exact reals, in the backend and in the dashboard models, that are only copied or summed; NaN is not modelled. The agent collector's rounding and averaging are not modelled.
- 64-bit overflow: sums of disk and network byte counts use unbounded integers, while the Java code adds `long` values that could wrap. `Long.parseLong`'s range and `Long.intValue`'s 32-bit wrap are modelled.
- Operating-system effects: PTYs, process execution, `ioctl` and daemonising in the agent are not modelled. A command's outcome is an input to `AgentClient.ResultFor`.
- Self-update file handling: binary download, replacement and the GitHub HTTP call in `agent/cmd/update.go` are not modelled. The release list is an input.
- Configuration file handling: paths, `StoreAuthConfig` and legacy migration in `agent/config/auth.go` are not modelled. The loaded file is an input to `AgentCommands.RunStatus`, `RunDeauth` and `GetAuthConfig`.
- Dashboard rendering: React components, `formatBytes`/`formatBytesPerSec` (which use `Math.log`), charts and the terminal views are not modelled. Only the arithmetic and filtering behind the agent card are.
- Security libraries: JWT handling, Spring Security filters and bean-validation annotations, including the IP address pattern, are not modelled.
- Metrics history in the database: `getMetricsHistory` and `deleteOldMetrics` (the nightly clean-up) are not modelled. The history table is only appended to by `MetricsCache.SaveInternal`.
- The `.env` file step of `agent/config/config.go` (`godotenv.Load`) is not modelled: the environment is an input, taken after any such file has been loaded.
- AgentCommands.RunAuthAsWritten: the model slices characters where Go's `key[:8]` slices bytes, so for a key with multi-byte characters the panic condition differs (three 3-byte characters do not panic in Go but do in the model); `AgentCommands.KeyPreview` shares this, and the keys the backend issues are ASCII, where the two agree.
- AgentConfig.Interval: Go's `time.ParseDuration` is a parameter rather than a definition.
- Text.ToLower: lower-cases only ASCII letters. Go's `strings.ToLower` is Unicode-aware, but the words `containsAuthError` looks for are ASCII.
- Text.ParseLong: accepts ASCII digits only. Java's `Long.parseLong` also accepts other Unicode decimal digits.
- MetricsStream.ProcessEvent: a "metrics" event whose data is an array notifies listeners but leaves the pending map unchanged. The dashboard stores such an array under the key `undefined`, which no card reads.
- MetricsHistory.Extend: for `maxPoints < 1` and an existing empty history the result may stay empty, and the contract then promises nothing about the last point. The same holds for `MetricsHistory.TickAppendsLatest`. The dashboard always passes a positive bound.
- CommandText.ExitCodeRecoverable: holds only for exit codes in the 64-bit range. JavaScript numbers outside it are not modelled.
- CommandText.Execute: an exit code absent from the response is not modelled. The backend always sends one.
- ClientKeys.CreateKey: the Java code draws new random values until one is unused, with no bound. The model takes a finite sequence of draws, so `KeySpaceExhausted` exists only in the model.
- PushClient.StartPushing: the ticker and the stop channel are replaced by a finite sequence of push outcomes. The loop ends when the outcomes run out.

## Findings

| source | as written | input that shows it | evidently intended | confidence | as-written member | corrected member |
|---|---|---|---|---|---|---|
| backend/src/main/java/com/horizon/backend/controller/AgentPushController.java:58 | `xForwardedFor.split(",")[0]` uses Java's default split, which drops trailing empty fields, so a header made only of commas gives an empty array and indexing it throws | `X-Forwarded-For: ,` | the first field, empty here, or a fall-through to the next header | not executed | PushController.ClientIpAsWritten, PushController.CommaOnlyHeaderFails | PushController.ClientIp, PushController.ClientIpAgreesWhereDefined |
| agent/cmd/commands.go:74 | after a successful validation and save, `auth` prints `key[:8]` and `key[len(key)-4:]`, which panics for keys shorter than eight characters | `horizon-agent auth abc` against a server that answers 200 | the preview shown only for keys long enough, as `status` already guards it | not executed | AgentCommands.RunAuthAsWritten, AgentCommands.ShortKeyPanics | AgentCommands.RunAuth, AgentCommands.RunAuthAgreesWithoutPanic |
| frontend/src/hooks/useMetricsStream.ts:103-104 | the event type and data are reset at the start of every read, so an event whose data line and blank line arrive in different reads is dropped | a read ending in `data: {...}\n`, followed by a read holding `\n` | the type and data carried across reads, as the buffer already is | not executed | MetricsStream.ReadAsWritten, MetricsStream.SplitEventLostAsWritten | MetricsStream.Feed, MetricsStream.SplitEventDeliveredWhenCarried, MetricsStream.ChunkingDoesNotMatter |

=== FILE: agent_card.dfy ===
/** The arithmetic and filtering behind an agent's card on the dashboard
    (`frontend/src/components/AgentCard.tsx`): the uptime text, the usage
    colour thresholds, the hiding of loopback interfaces and the average
    disk usage. JavaScript numbers are idealised: seconds and byte counts as
    integers, usage percentages and rates as reals. */
module AgentCard {
  import opened Base
  import opened Text

  // ---------------------------------------------------------------------------
  // Uptime

  const Minute: nat := 60
  const Hour: nat := 3600
  const Day: nat := 86400

  /** Whole days, hours of the day and minutes of the hour. */
  datatype Span = Span(days: nat, hours: nat, minutes: nat)

  /** The seconds a span covers at its start. */
  function SpanStart(u: Span): nat {
    u.days * Day + u.hours * Hour + u.minutes * Minute
  }

  lemma MulLe(a: nat, c: nat, b: nat)
    requires a <= c
    ensures a * b <= c * b
  {
    assert c * b == a * b + (c - a) * b;
  }

  /** Euclidean division has one quotient. */
  lemma DivUnique(n: nat, b: nat, q: nat)
    requires b > 0 && q * b <= n < q * b + b
    ensures n / b == q
  {
    var p := n / b;
    assert n == p * b + n % b;
    if p > q {
      MulLe(q + 1, p, b);
      assert false;
    } else if p < q {
      MulLe(p + 1, q, b);
      assert false;
    }
  }

  /** A remainder of a remainder by a multiple of the divisor. */
  lemma ModOfMod(n: nat)
    ensures (n % Day) % Hour == n % Hour
  {
    var d := n / Day;
    var h := (n % Day) / Hour;
    var m := (n % Day) % Hour;
    assert n == d * Day + h * Hour + m;
    assert n == (d * 24 + h) * Hour + m;
    DivUnique(n, Hour, d * 24 + h);
  }

  /** The parts `formatUptime` computes, characterised without division: the
      span starts at most a minute before `seconds`, with fewer than 24 hours
      and 60 minutes. */
  function Parts(seconds: nat): (u: Span)
    ensures u.hours < 24 && u.minutes < 60
    ensures SpanStart(u) <= seconds < SpanStart(u) + Minute
  {
    var u := Span(seconds / Day, (seconds % Day) / Hour, (seconds % Hour) / Minute);
    ModOfMod(seconds);
    assert seconds % Day == u.hours * Hour + seconds % Hour;
    assert seconds % Hour == u.minutes * Minute + (seconds % Hour) % Minute;
    u
  }

  /** Those bounds determine the parts: any span meeting them is `Parts`. */
  lemma PartsUnique(seconds: nat, u: Span)
    requires u.hours < 24 && u.minutes < 60
    requires SpanStart(u) <= seconds < SpanStart(u) + Minute
    ensures u == Parts(seconds)
  {
    var inDay := u.hours * Hour + u.minutes * Minute;
    assert inDay + Minute <= Day;
    DivUnique(seconds, Day, u.days);
    var r := seconds - u.days * Day;
    assert seconds % Day == r;
    DivUnique(r, Hour, u.hours);
    ModOfMod(seconds);
    var rm := r - u.hours * Hour;
    assert seconds % Hour == rm by {
      assert r % Hour == rm;
    }
    DivUnique(rm, Minute, u.minutes);
  }

  /** `formatUptime`: "-" when unknown; days and hours once a day has passed,
      hours and minutes once an hour has, otherwise minutes. */
  function FormatUptime(seconds: Option<nat>): (s: string)
    ensures seconds.None? <==> s == "-"
    ensures seconds.Some? ==>
      var u := Parts(seconds.value);
      (u.days > 0 ==> s == NatToString(u.days) + "d " + NatToString(u.hours) + "h")
      && (u.days == 0 && u.hours > 0 ==> s == NatToString(u.hours) + "h " + NatToString(u.minutes) + "m")
      && (u.days == 0 && u.hours == 0 ==> s == NatToString(u.minutes) + "m")
  {
    match seconds
    case None => "-"
    case Some(n) =>
      var u := Parts(n);
      if u.days > 0 then NatToString(u.days) + "d " + NatToString(u.hours) + "h"
      else if u.hours > 0 then NatToString(u.hours) + "h " + NatToString(u.minutes) + "m"
      else NatToString(u.minutes) + "m"
  }

  /** A number followed by a unit letter contains no space. */
  lemma NumberHasNoSpace(n: nat, unit: char)
    requires unit != ' '
    ensures ' ' !in NatToString(n) + [unit]
  {
    var digits := NatToString(n);
    var a := digits + [unit];
    forall k | 0 <= k < |a|
      ensures a[k] != ' '
    {
      if k < |digits| {
        assert a[k] == digits[k];
        assert IsDigit(digits[k]);
      }
    }
  }

  /** Once a day has passed the text is two space-separated fields. */
  lemma DaysTextFields(seconds: nat)
    requires seconds >= Day
    ensures var u := Parts(seconds);
      u.days > 0
      && Split(FormatUptime(Some(seconds)), ' ') == [NatToString(u.days) + "d", NatToString(u.hours) + "h"]
  {
    var u := Parts(seconds);
    assert u.days > 0 by {
      assert u.hours * Hour + u.minutes * Minute + Minute <= Day;
    }
    var a := NatToString(u.days) + "d";
    var b := NatToString(u.hours) + "h";
    NumberHasNoSpace(u.days, 'd');
    NumberHasNoSpace(u.hours, 'h');
    assert FormatUptime(Some(seconds)) == a + [' '] + b;
    SplitAtFirst(a, ' ', b);
    SplitWithoutSeparator(b, ' ');
  }

  /** Reading the two numbers back from "{days}d {hours}h" gives the
      whole days and the hours of the day the agent has been up. */
  lemma DaysTextReadsBack(seconds: nat)
    requires seconds >= Day
    ensures var parts := Split(FormatUptime(Some(seconds)), ' ');
      |parts| == 2 && EndsWith(parts[0], "d") && EndsWith(parts[1], "h")
      && AllDigits(parts[0][..|parts[0]| - 1]) && AllDigits(parts[1][..|parts[1]| - 1])
      && var d := DigitsValue(parts[0][..|parts[0]| - 1]);
         var h := DigitsValue(parts[1][..|parts[1]| - 1]);
         h < 24 && d * Day + h * Hour <= seconds < d * Day + h * Hour + Hour
  {
    var u := Parts(seconds);
    DaysTextFields(seconds);
    var a := NatToString(u.days) + "d";
    var b := NatToString(u.hours) + "h";
    assert a[..|a| - 1] == NatToString(u.days);
    assert b[..|b| - 1] == NatToString(u.hours);
    NatToStringRoundTrip(u.days);
    NatToStringRoundTrip(u.hours);
    assert u.minutes * Minute + Minute <= Hour;
  }

  // ---------------------------------------------------------------------------
  // Usage colours

  /** How alarming a usage percentage is. */
  datatype Severity = Normal | Warning | Critical

  function Rank(v: Severity): nat {
    match v
    case Normal => 0
    case Warning => 1
    case Critical => 2
  }

  /** The thresholds both colour functions share: 90 and above is critical,
      70 and above a warning. */
  function SeverityOf(usage: real): (v: Severity)
    ensures v == Critical <==> usage >= 90.0
    ensures v == Warning <==> 70.0 <= usage < 90.0
    ensures v == Normal <==> usage < 70.0
  {
    if usage >= 90.0 then Critical else if usage >= 70.0 then Warning else Normal
  }

  /** More usage is never shown as less alarming. */
  lemma SeverityMonotone(a: real, b: real)
    requires a <= b
    ensures Rank(SeverityOf(a)) <= Rank(SeverityOf(b))
  {
  }

  /** `getUsageColor`. */
  function UsageColor(usage: real): (c: string)
    ensures c == "text-red-400" <==> SeverityOf(usage) == Critical
    ensures c == "text-yellow-400" <==> SeverityOf(usage) == Warning
    ensures c == "text-white" <==> SeverityOf(usage) == Normal
  {
    if usage >= 90.0 then "text-red-400" else if usage >= 70.0 then "text-yellow-400" else "text-white"
  }

  /** `getUsageBarColor`. */
  function UsageBarColor(usage: real): (c: string)
    ensures c == "bg-red-500" <==> SeverityOf(usage) == Critical
    ensures c == "bg-yellow-500" <==> SeverityOf(usage) == Warning
    ensures c == "bg-blue-500" <==> SeverityOf(usage) == Normal
  {
    if usage >= 90.0 then "bg-red-500" else if usage >= 70.0 then "bg-yellow-500" else "bg-blue-500"
  }

  /** The figure and its bar always change colour together. */
  lemma ColoursAgree(a: real, b: real)
    ensures UsageColor(a) == UsageColor(b) <==> UsageBarColor(a) == UsageBarColor(b)
  {
  }

  /** The bar's width: the usage, capped at 100 percent. */
  function BarWidth(usage: real): (w: real)
    ensures w <= 100.0 && w <= usage
    ensures w == usage || w == 100.0
  {
    if usage < 100.0 then usage else 100.0
  }

  // ---------------------------------------------------------------------------
  // Interfaces

  /** A network interface with its rates; an absent rate is null. */
  datatype Interface = Interface(name: string, recvRate: Option<real>, sentRate: Option<real>)

  /** Names equal to or starting with "lo" are loopback. */
  predicate IsLoopback(name: string) {
    name == "lo" || StartsWith(name, "lo")
  }

  /** The interfaces listed on the card: the loopback ones removed, the rest
      in their order. */
  function Visible(ifaces: seq<Interface>): (r: seq<Interface>)
    decreases |ifaces|
    ensures forall i | i in r :: i in ifaces && !IsLoopback(i.name)
    ensures forall i | i in ifaces && !IsLoopback(i.name) :: i in r
    ensures forall i :: multiset(r)[i] == if IsLoopback(i.name) then 0 else multiset(ifaces)[i]
    ensures |r| <= |ifaces|
  {
    if |ifaces| == 0 then []
    else
      var rest := Visible(ifaces[1..]);
      assert ifaces == [ifaces[0]] + ifaces[1..];
      assert multiset(ifaces) == multiset{ifaces[0]} + multiset(ifaces[1..]);
      if IsLoopback(ifaces[0].name) then rest else [ifaces[0]] + rest
  }

  /** The list keeps the interfaces' order: filtering a concatenation filters
      each part in turn. */
  lemma {:induction false} VisibleAppend(a: seq<Interface>, b: seq<Interface>)
    decreases |a|
    ensures Visible(a + b) == Visible(a) + Visible(b)
  {
    if |a| > 0 {
      assert (a + b)[1..] == a[1..] + b;
      VisibleAppend(a[1..], b);
    } else {
      assert a + b == b;
    }
  }

  /** The loopback interfaces, in order. */
  function Loopback(ifaces: seq<Interface>): (r: seq<Interface>)
    decreases |ifaces|
  {
    if |ifaces| == 0 then []
    else
      var rest := Loopback(ifaces[1..]);
      if IsLoopback(ifaces[0].name) then [ifaces[0]] + rest else rest
  }

  /** An interface's received or sent rate as the header adds it: `rate || 0`. */
  function Rate(i: Interface, received: bool): real {
    (if received then i.recvRate else i.sentRate).GetOr(0.0)
  }

  /** The header's download (`received`) or upload total: every interface's
      rate, a null rate counting as 0. */
  function Total(ifaces: seq<Interface>, received: bool): (r: real)
    decreases |ifaces|
    ensures |ifaces| == 0 ==> r == 0.0
    ensures |ifaces| == 1 ==> r == Rate(ifaces[0], received)
    ensures (forall k | 0 <= k < |ifaces| :: Rate(ifaces[k], received) >= 0.0) ==> r >= 0.0
  {
    if |ifaces| == 0 then 0.0
    else
      assert forall k | 0 <= k < |ifaces| - 1 :: ifaces[1..][k] == ifaces[k + 1];
      Rate(ifaces[0], received) + Total(ifaces[1..], received)
  }

  /** The total is additive over concatenation; with the one-interface case
      this fixes it as the sum of all rates in the list. */
  lemma {:induction false} TotalAppend(a: seq<Interface>, b: seq<Interface>, received: bool)
    decreases |a|
    ensures Total(a + b, received) == Total(a, received) + Total(b, received)
  {
    if |a| > 0 {
      assert (a + b)[1..] == a[1..] + b;
      TotalAppend(a[1..], b, received);
    } else {
      assert a + b == b;
    }
  }

  /** The header totals are not taken over the listed interfaces: they also
      count the loopback traffic the list hides. */
  lemma {:induction false} TotalCountsHiddenLoopback(ifaces: seq<Interface>, received: bool)
    decreases |ifaces|
    ensures Total(ifaces, received) == Total(Visible(ifaces), received) + Total(Loopback(ifaces), received)
  {
    if |ifaces| > 0 {
      TotalCountsHiddenLoopback(ifaces[1..], received);
      var v := Visible(ifaces[1..]);
      var l := Loopback(ifaces[1..]);
      assert ([ifaces[0]] + v)[1..] == v;
      assert ([ifaces[0]] + l)[1..] == l;
    }
  }

  /** Listing is idempotent: no listed interface is loopback. */
  lemma {:induction false} VisibleIdempotent(ifaces: seq<Interface>)
    decreases |ifaces|
    ensures Visible(Visible(ifaces)) == Visible(ifaces)
  {
    if |ifaces| > 0 {
      VisibleIdempotent(ifaces[1..]);
      var v := Visible(ifaces[1..]);
      assert ([ifaces[0]] + v)[0] == ifaces[0];
      assert ([ifaces[0]] + v)[1..] == v;
    }
  }

  // ---------------------------------------------------------------------------
  // Disks

  datatype Disk = Disk(usedBytes: nat, totalBytes: nat)

  function UsedSum(disks: seq<Disk>): nat
    decreases |disks|
  {
    if |disks| == 0 then 0 else disks[0].usedBytes + UsedSum(disks[1..])
  }

  function TotalSum(disks: seq<Disk>): nat
    decreases |disks|
  {
    if |disks| == 0 then 0 else disks[0].totalBytes + TotalSum(disks[1..])
  }

  /** The average usage shown on the card: the used share of all disks'
      space, in percent, and 0 when there is no space at all. */
  function AverageDiskUsage(disks: seq<Disk>): (pct: real)
    ensures TotalSum(disks) == 0 ==> pct == 0.0
    ensures TotalSum(disks) > 0 ==> pct * (TotalSum(disks) as real) == (UsedSum(disks) as real) * 100.0
  {
    var used := UsedSum(disks);
    var total := TotalSum(disks);
    if total > 0 then (used as real / total as real) * 100.0 else 0.0
  }

  /** No disk holds more than its size, so neither do all of them. */
  lemma {:induction false} UsedWithinTotal(disks: seq<Disk>)
    decreases |disks|
    requires forall k | 0 <= k < |disks| :: disks[k].usedBytes <= disks[k].totalBytes
    ensures UsedSum(disks) <= TotalSum(disks)
  {
    if |disks| > 0 {
      assert forall k | 0 <= k < |disks[1..]| :: disks[1..][k] == disks[k + 1];
      UsedWithinTotal(disks[1..]);
    }
  }

  /** When every disk reports consistent sizes the average is a percentage. */
  lemma AverageIsPercentage(disks: seq<Disk>)
    requires forall k | 0 <= k < |disks| :: disks[k].usedBytes <= disks[k].totalBytes
    ensures 0.0 <= AverageDiskUsage(disks) <= 100.0
  {
    UsedWithinTotal(disks);
    var used := UsedSum(disks) as real;
    var total := TotalSum(disks) as real;
    if total > 0.0 {
      QuotientAtMostOne(used, total);
    }
  }

  /** A share of a positive whole lies between 0 and 1. */
  lemma QuotientAtMostOne(part: real, whole: real)
    requires 0.0 <= part <= whole && whole > 0.0
    ensures 0.0 <= part / whole <= 1.0
  {
    var q := part / whole;
    assert q * whole == part;
  }
}

=== FILE: agent_commands.dfy ===
/** The agent's `auth` and `status` commands and the choice of credentials
    for `run` (`agent/cmd/commands.go`). The key check against the server is
    the push client's validation of one exchange; reading and writing the
    configuration file are inputs. */
module AgentCommands {
  import opened Base
  import opened Text
  import PushClient
  import ClientKeys
  import AgentConfig

  const DefaultServerUrl: string := "http://localhost:8080"

  /** The stored credentials (`config.AuthConfig`). */
  datatype AuthConfig = AuthConfig(key: string, serverUrl: string, nodeId: string, registered: bool)

  /** `RunAuth`'s server address: the default, replaced by the second
      argument, replaced by `HORIZON_SERVER_URL`; then one trailing '/'
      removed. */
  function AuthServerUrl(args: seq<string>, env: AgentConfig.Env): (url: string)
    ensures var chosen := if AgentConfig.Getenv(env, "HORIZON_SERVER_URL") != "" then AgentConfig.Getenv(env, "HORIZON_SERVER_URL")
                          else if |args| > 1 then args[1] else DefaultServerUrl;
      url == TrimSuffix(chosen, "/")
  {
    var url := if |args| > 1 then args[1] else DefaultServerUrl;
    var envUrl := AgentConfig.Getenv(env, "HORIZON_SERVER_URL");
    TrimSuffix(if envUrl != "" then envUrl else url, "/")
  }

  datatype AuthError =
    | MissingKey
    | AuthenticationFailed(cause: PushClient.Failure)
    | SaveFailed
    | SlicePanic

  /** A successful `auth`: the configuration written and the key as shown. */
  datatype Authenticated = Authenticated(serverUrl: string, key: string, shown: Option<string>)

  /** The key shown after authenticating: first eight characters, "...",
      last four. Go slices bytes where this slices characters; the two agree
      on the ASCII keys the backend issues ("hzn_" and base64url text). */
  function KeyPreview(key: string): (s: string)
    requires |key| >= 8
    ensures |s| == 15 && StartsWith(s, key[..8]) && EndsWith(s, key[|key| - 4..])
  {
    var s := key[..8] + "..." + key[|key| - 4..];
    assert s[..8] == key[..8];
    assert s[11..] == key[|key| - 4..];
    s
  }

  /** The agent shows a key exactly as the dashboard masks it. */
  lemma PreviewMatchesDashboardMask(key: string)
    requires |key| >= 8
    ensures KeyPreview(key) == ClientKeys.MaskKey(Some(key))
  {
  }

  /** `RunAuth` as written: a missing key, a rejected key and a failed save
      are errors; otherwise the key is printed as `key[:8]` and
      `key[len-4:]`, which panics for a key shorter than eight characters,
      after the configuration has been saved. */
  function RunAuthAsWritten(args: seq<string>, env: AgentConfig.Env, validation: PushClient.Exchange, saveFails: bool)
    : (r: Result<Authenticated, AuthError>)
    ensures |args| == 0 <==> r == Err(MissingKey)
    ensures |args| > 0 && PushClient.ValidateKey(validation).Err? ==>
      r == Err(AuthenticationFailed(PushClient.ValidateKey(validation).error))
    ensures r == Err(SlicePanic) <==>
      |args| > 0 && PushClient.ValidateKey(validation).Ok? && !saveFails && |args[0]| < 8
    ensures r.Ok? ==> |args| > 0 && |args[0]| >= 8
                      && r.value == Authenticated(AuthServerUrl(args, env), args[0], Some(KeyPreview(args[0])))
  {
    if |args| < 1 then Err(MissingKey)
    else
      var key := args[0];
      var url := AuthServerUrl(args, env);
      match PushClient.ValidateKey(validation)
      case Err(e) => Err(AuthenticationFailed(e))
      case Ok(_) =>
        if saveFails then Err(SaveFailed)
        else if |key| < 8 then Err(SlicePanic)
        else Ok(Authenticated(url, key, Some(KeyPreview(key))))
  }

  /** The failing input: a three-character key the server answers with 200
      makes the command crash after saving it. */
  lemma ShortKeyPanics(env: AgentConfig.Env, body: string)
    ensures RunAuthAsWritten(["abc"], env, PushClient.Reply(200, body), false) == Err(SlicePanic)
  {
  }

  /** `RunAuth` corrected the way `RunStatus` guards the same printing: the
      preview is shown only when the key is long enough for it. */
  function RunAuth(args: seq<string>, env: AgentConfig.Env, validation: PushClient.Exchange, saveFails: bool)
    : (r: Result<Authenticated, AuthError>)
    ensures r != Err(SlicePanic)
    ensures |args| == 0 <==> r == Err(MissingKey)
    ensures |args| > 0 && PushClient.ValidateKey(validation).Err? ==>
      r == Err(AuthenticationFailed(PushClient.ValidateKey(validation).error))
    ensures r.Ok? <==> |args| > 0 && PushClient.ValidateKey(validation).Ok? && !saveFails
    ensures r.Ok? ==> r.value.serverUrl == AuthServerUrl(args, env) && r.value.key == args[0]
    ensures r.Ok? ==> (r.value.shown.Some? <==> |args[0]| >= 8)
  {
    if |args| < 1 then Err(MissingKey)
    else
      var key := args[0];
      match PushClient.ValidateKey(validation)
      case Err(e) => Err(AuthenticationFailed(e))
      case Ok(_) =>
        if saveFails then Err(SaveFailed)
        else Ok(Authenticated(AuthServerUrl(args, env), key, if |key| >= 8 then Some(KeyPreview(key)) else None))
  }

  /** The correction changes nothing where the code as written does not
      crash. */
  lemma RunAuthAgreesWithoutPanic(args: seq<string>, env: AgentConfig.Env, validation: PushClient.Exchange,
                                  saveFails: bool)
    requires RunAuthAsWritten(args, env, validation, saveFails) != Err(SlicePanic)
    ensures RunAuth(args, env, validation, saveFails) == RunAuthAsWritten(args, env, validation, saveFails)
  {
  }

  datatype Status = NotAuthenticated | AuthenticatedAs(serverUrl: string, shownKey: Option<string>)

  /** `RunStatus`. `file` is what loading the configuration file gives: an
      error, nothing, or the stored credentials. A missing or unregistered
      configuration is not authenticated; otherwise the server is shown, and
      the key preview only for keys longer than twelve characters. */
  function RunStatus(file: Result<Option<AuthConfig>, string>): (r: Result<Status, string>)
    ensures file.Err? <==> r.Err?
    ensures file.Err? ==> r.error == file.error
    ensures r.Ok? ==> (r.value.NotAuthenticated? <==> file.value.None? || !file.value.value.registered)
    ensures r.Ok? && r.value.AuthenticatedAs? ==>
      r.value.serverUrl == file.value.value.serverUrl
      && (r.value.shownKey.Some? <==> |file.value.value.key| > 12)
      && (r.value.shownKey.Some? ==> r.value.shownKey.value == KeyPreview(file.value.value.key))
  {
    match file
    case Err(e) => Err(e)
    case Ok(None) => Ok(NotAuthenticated)
    case Ok(Some(c)) =>
      if !c.registered then Ok(NotAuthenticated)
      else Ok(AuthenticatedAs(c.serverUrl, if |c.key| > 12 then Some(KeyPreview(c.key)) else None))
  }

  datatype Deauth = NothingToRemove | Removed

  /** `RunDeauth`: a load error or a failed removal is an error; with no
      configuration there is nothing to remove. */
  function RunDeauth(file: Result<Option<AuthConfig>, string>, deleteError: Option<string>)
    : (r: Result<Deauth, string>)
    ensures file.Err? ==> r == Err(file.error)
    ensures file == Ok(None) ==> r == Ok(NothingToRemove)
    ensures r == Ok(Removed) <==> file.Ok? && file.value.Some? && deleteError.None?
    ensures file.Ok? && file.value.Some? && deleteError.Some? ==> r == Err(deleteError.value)
  {
    match file
    case Err(e) => Err(e)
    case Ok(None) => Ok(NothingToRemove)
    case Ok(Some(_)) => if deleteError.Some? then Err(deleteError.value) else Ok(Removed)
  }

  /** A configuration that `status` reports as not authenticated is handed to
      `run` as none at all, and one it reports as authenticated is handed on
      with the same server, unless the environment overrides it. */
  lemma StatusAgreesWithRun(file: Result<Option<AuthConfig>, string>)
    requires file.Ok?
    ensures RunStatus(file).value.NotAuthenticated? <==> GetAuthConfig(map[], file) == Ok(None)
    ensures RunStatus(file).value.AuthenticatedAs? ==>
      GetAuthConfig(map[], file).value.value.serverUrl == RunStatus(file).value.serverUrl
  {
  }

  /** `GetAuthConfig`. `file` is what loading the configuration file gives:
      an error, nothing, or the stored credentials. */
  function GetAuthConfig(env: AgentConfig.Env, file: Result<Option<AuthConfig>, string>)
    : (r: Result<Option<AuthConfig>, string>)
    ensures AgentConfig.Getenv(env, "HORIZON_KEY") != "" ==>
      r == Ok(Some(AuthConfig(AgentConfig.Getenv(env, "HORIZON_KEY"),
                              if AgentConfig.Getenv(env, "HORIZON_SERVER_URL") != ""
                              then AgentConfig.Getenv(env, "HORIZON_SERVER_URL") else DefaultServerUrl,
                              "", true)))
    ensures AgentConfig.Getenv(env, "HORIZON_KEY") == "" && file.Err? ==> r == file
    ensures (AgentConfig.Getenv(env, "HORIZON_KEY") == "" && file.Ok? &&
             (file.value.None? || !file.value.value.registered)) ==> r == Ok(None)
    ensures AgentConfig.Getenv(env, "HORIZON_KEY") == "" && file.Ok? && file.value.Some? && file.value.value.registered ==>
      r == Ok(Some(if AgentConfig.Getenv(env, "HORIZON_SERVER_URL") != ""
                   then file.value.value.(serverUrl := AgentConfig.Getenv(env, "HORIZON_SERVER_URL"))
                   else file.value.value))
  {
    var envKey := AgentConfig.Getenv(env, "HORIZON_KEY");
    var envServer := AgentConfig.Getenv(env, "HORIZON_SERVER_URL");
    if envKey != "" then
      Ok(Some(AuthConfig(envKey, if envServer != "" then envServer else DefaultServerUrl, "", true)))
    else
      match file
      case Err(e) => Err(e)
      case Ok(None) => Ok(None)
      case Ok(Some(c)) =>
        if !c.registered then Ok(None)
        else Ok(Some(if envServer != "" then c.(serverUrl := envServer) else c))
  }

  /** With `HORIZON_KEY` set the file is never consulted: whatever it holds,
      even a read error, the result is the same. */
  lemma EnvironmentKeyIgnoresFile(env: AgentConfig.Env, f1: Result<Option<AuthConfig>, string>,
                                  f2: Result<Option<AuthConfig>, string>)
    requires AgentConfig.Getenv(env, "HORIZON_KEY") != ""
    ensures GetAuthConfig(env, f1) == GetAuthConfig(env, f2)
  {
  }

  /** Whatever the source, the credentials handed to `run` are registered
      and keep the stored key. */
  lemma CredentialsAreRegistered(env: AgentConfig.Env, file: Result<Option<AuthConfig>, string>)
    requires GetAuthConfig(env, file).Ok? && GetAuthConfig(env, file).value.Some?
    ensures GetAuthConfig(env, file).value.value.registered
    ensures AgentConfig.Getenv(env, "HORIZON_KEY") == "" ==>
      GetAuthConfig(env, file).value.value.key == file.value.value.key
  {
  }
}

=== FILE: agent_config.dfy ===
/** The agent's runtime settings (`agent/config/config.go`), read from the
    environment with defaults. The environment is a map (an unset variable
    reads as ""); the host name lookup and Go's duration grammar are inputs. */
module AgentConfig {
  import opened Base
  import opened Text

  const DefaultPort: int := 9090
  const Millisecond: int := 1_000_000
  const Second: int := 1_000_000_000
  const DefaultCacheInterval: int := 100 * Millisecond
  const DefaultPushInterval: int := Second
  const UnknownNode: string := "unknown"

  type Env = map<string, string>

  /** `os.Getenv`. */
  function Getenv(env: Env, name: string): string {
    if name in env then env[name] else ""
  }

  /** Durations are in nanoseconds. */
  datatype Config = Config(
    port: int,
    nodeId: string,
    cacheInterval: int,
    backendUrl: string,
    pushInterval: int,
    pushEnabled: bool)

  /** `AGENT_PORT` when it parses as a positive integer, else 9090. */
  function Port(env: Env): (p: int)
    ensures p > 0
    ensures p != DefaultPort ==> ParseLong(Getenv(env, "AGENT_PORT")) == Some(p)
    ensures ParseLong(Getenv(env, "AGENT_PORT")).Some? && ParseLong(Getenv(env, "AGENT_PORT")).value > 0 ==>
      p == ParseLong(Getenv(env, "AGENT_PORT")).value
  {
    var s := Getenv(env, "AGENT_PORT");
    if s != "" && ParseLong(s).Some? && ParseLong(s).value > 0 then ParseLong(s).value else DefaultPort
  }

  /** `NODE_ID`, else the host name, else "unknown" when the host name cannot
      be read. */
  function NodeId(env: Env, hostname: Option<string>): (n: string)
    ensures Getenv(env, "NODE_ID") != "" ==> n == Getenv(env, "NODE_ID")
    ensures Getenv(env, "NODE_ID") == "" && hostname.Some? ==> n == hostname.value
    ensures Getenv(env, "NODE_ID") == "" && hostname.None? ==> n == UnknownNode
  {
    var id := Getenv(env, "NODE_ID");
    if id != "" then id else hostname.GetOr(UnknownNode)
  }

  /** An interval variable overrides the default only when it parses. */
  function Interval(env: Env, name: string, default: int, parseDuration: string -> Option<int>): (d: int)
    ensures Getenv(env, name) != "" && parseDuration(Getenv(env, name)).Some? ==>
      d == parseDuration(Getenv(env, name)).value
    ensures Getenv(env, name) == "" || parseDuration(Getenv(env, name)).None? ==> d == default
  {
    var s := Getenv(env, name);
    if s != "" && parseDuration(s).Some? then parseDuration(s).value else default
  }

  /** Pushing is on when `PUSH_ENABLED` says "true" or "1", or whenever a
      backend address is configured. */
  function PushEnabled(env: Env): (on: bool)
    ensures on <==> Getenv(env, "PUSH_ENABLED") in {"true", "1"} || Getenv(env, "BACKEND_URL") != ""
  {
    var s := Getenv(env, "PUSH_ENABLED");
    var explicit := if s != "" then s == "true" || s == "1" else false;
    if Getenv(env, "BACKEND_URL") != "" && !explicit then true else explicit
  }

  /** `Load`. */
  function Load(env: Env, hostname: Option<string>, parseDuration: string -> Option<int>): (c: Config)
    ensures c.port == Port(env) && c.nodeId == NodeId(env, hostname)
    ensures c.cacheInterval == Interval(env, "CACHE_INTERVAL", DefaultCacheInterval, parseDuration)
    ensures c.pushInterval == Interval(env, "PUSH_INTERVAL", DefaultPushInterval, parseDuration)
    ensures c.backendUrl == Getenv(env, "BACKEND_URL") && c.pushEnabled == PushEnabled(env)
  {
    Config(Port(env), NodeId(env, hostname),
           Interval(env, "CACHE_INTERVAL", DefaultCacheInterval, parseDuration),
           Getenv(env, "BACKEND_URL"),
           Interval(env, "PUSH_INTERVAL", DefaultPushInterval, parseDuration),
           PushEnabled(env))
  }

  /** With an empty environment every default applies. */
  lemma EmptyEnvironmentDefaults(hostname: string, parseDuration: string -> Option<int>)
    ensures Load(map[], Some(hostname), parseDuration)
            == Config(DefaultPort, hostname, DefaultCacheInterval, "", DefaultPushInterval, false)
  {
  }

  /** A port that is zero, negative or not a number falls back to 9090. */
  lemma BadPortFallsBack(env: Env)
    requires ParseLong(Getenv(env, "AGENT_PORT")).None? || ParseLong(Getenv(env, "AGENT_PORT")).value <= 0
    ensures Port(env) == DefaultPort
  {
  }

  /** A backend address turns pushing on even against an explicit "false". */
  lemma BackendUrlForcesPush(env: Env, url: string)
    requires url != ""
    ensures PushEnabled(env["BACKEND_URL" := url]["PUSH_ENABLED" := "false"])
  {
    var e := env["BACKEND_URL" := url]["PUSH_ENABLED" := "false"];
    assert Getenv(e, "BACKEND_URL") == url;
  }
}

=== FILE: agent_entity.dfy ===
/** The `agents` table and the repository queries the services use. Rows are
    kept in repository order; ids are database identities. Times are
    milliseconds. */
module AgentEntity {
  import opened Base

  /** A row of the `agents` table. The services read both the push-registration
      columns (`agentIp`, `agentPort`) and the polling columns (`ip`, `port`,
      `pollingInterval`), so the record carries both. */
  datatype Agent = Agent(
    id: nat,
    userId: Option<int>,
    clientKeyId: Option<int>,
    name: string,
    nodeId: Option<string>,
    hostname: Option<string>,
    os: Option<string>,
    platform: Option<string>,
    enabled: bool,
    lastSeenAt: Option<int>,
    agentIp: Option<string>,
    agentPort: Option<int>,
    ip: Option<string>,
    port: Option<int>,
    pollingInterval: Option<int>)

  type Table = seq<Agent>

  predicate HasId(t: Table, id: nat) {
    exists k | 0 <= k < |t| :: t[k].id == id
  }

  /** No two rows share an id (the primary key). */
  predicate UniqueIds(t: Table) {
    forall i, j | 0 <= i < j < |t| :: t[i].id != t[j].id
  }

  function Ids(t: Table): set<nat> {
    set k | 0 <= k < |t| :: t[k].id
  }

  /** `findById`. */
  function FindById(t: Table, id: nat): (r: Option<Agent>)
    ensures r.Some? ==> r.value in t && r.value.id == id
    ensures r.None? <==> !HasId(t, id)
  {
    if |t| == 0 then None
    else if t[0].id == id then Some(t[0])
    else
      var r := FindById(t[1..], id);
      assert forall k | 1 <= k < |t| :: t[k] == t[1..][k - 1];
      r
  }

  /** `existsByName`. */
  predicate ExistsByName(t: Table, name: string) {
    exists k | 0 <= k < |t| :: t[k].name == name
  }

  /** `existsByIp`. */
  predicate ExistsByIp(t: Table, ip: string) {
    exists k | 0 <= k < |t| :: t[k].ip == Some(ip)
  }

  /** `findByClientKeyIdAndNodeId`; an absent node id matches rows whose node id is absent. */
  function FindByClientKeyAndNode(t: Table, clientKeyId: int, nodeId: Option<string>): (r: Option<Agent>)
    ensures r.Some? ==> r.value in t && r.value.clientKeyId == Some(clientKeyId) && r.value.nodeId == nodeId
    ensures r.None? ==>
      forall k | 0 <= k < |t| :: !(t[k].clientKeyId == Some(clientKeyId) && t[k].nodeId == nodeId)
  {
    if |t| == 0 then None
    else if t[0].clientKeyId == Some(clientKeyId) && t[0].nodeId == nodeId then Some(t[0])
    else
      var r := FindByClientKeyAndNode(t[1..], clientKeyId, nodeId);
      assert forall k | 1 <= k < |t| :: t[k] == t[1..][k - 1];
      r
  }

  /** `findByEnabled(true)`: the enabled rows in repository order. */
  function FindEnabled(t: Table): (r: Table)
    ensures forall a :: a in r <==> a in t && a.enabled
    ensures forall a :: multiset(r)[a] == if a.enabled then multiset(t)[a] else 0
    ensures |r| <= |t|
  {
    if |t| == 0 then []
    else
      var rest := FindEnabled(t[1..]);
      assert t == [t[0]] + t[1..];
      assert multiset(t) == multiset{t[0]} + multiset(t[1..]);
      if t[0].enabled then [t[0]] + rest else rest
  }

  /** The query keeps repository order: filtering a concatenation filters each
      part in turn. */
  lemma {:induction false} FindEnabledAppend(t1: Table, t2: Table)
    ensures FindEnabled(t1 + t2) == FindEnabled(t1) + FindEnabled(t2)
  {
    if |t1| > 0 {
      assert (t1 + t2)[1..] == t1[1..] + t2;
      FindEnabledAppend(t1[1..], t2);
    } else {
      assert t1 + t2 == t2;
    }
  }

  /** A table whose every row is enabled is returned whole, in order. */
  lemma {:induction false} FindEnabledAllEnabled(t: Table)
    requires forall k | 0 <= k < |t| :: t[k].enabled
    ensures FindEnabled(t) == t
  {
    if |t| > 0 {
      assert forall k | 0 <= k < |t| - 1 :: t[1..][k] == t[k + 1];
      FindEnabledAllEnabled(t[1..]);
      assert t == [t[0]] + t[1..];
    }
  }

  /** `save` of an existing row: the row with that id is replaced in place. */
  function Replace(t: Table, a: Agent): (r: Table)
    ensures |r| == |t|
    ensures forall k | 0 <= k < |t| :: r[k] == if t[k].id == a.id then a else t[k]
  {
    seq(|t|, k requires 0 <= k < |t| => if t[k].id == a.id then a else t[k])
  }

  /** Saving an existing row reads back: `findById` of its id finds the saved
      row, and every other id finds what it found before. */
  lemma {:induction false} ReplaceThenFind(t: Table, a: Agent, id: nat)
    decreases |t|
    ensures FindById(Replace(t, a), id) == if id == a.id && HasId(t, id) then Some(a) else FindById(t, id)
  {
    if |t| > 0 {
      var r := Replace(t, a);
      assert r[1..] == Replace(t[1..], a);
      ReplaceThenFind(t[1..], a, id);
      assert HasId(t, id) <==> t[0].id == id || HasId(t[1..], id) by {
        assert forall k | 1 <= k < |t| :: t[k] == t[1..][k - 1];
        assert forall k | 0 <= k < |t| - 1 :: t[1..][k] == t[k + 1];
      }
    }
  }

  /** `delete`: every row with that id is removed. */
  function Remove(t: Table, id: nat): (r: Table)
    ensures forall a :: a in r <==> a in t && a.id != id
    ensures |r| <= |t|
  {
    if |t| == 0 then []
    else
      var rest := Remove(t[1..], id);
      assert t == [t[0]] + t[1..];
      if t[0].id == id then rest else [t[0]] + rest
  }
}

=== FILE: agent_push.dfy ===
/** `AgentPushServiceImpl`: registration of a pushing agent under a client
    key, and ingestion of the metrics it pushes. The key and node id are
    present (request validation rejects blank ones before the service runs). */
module AgentPush {
  import opened Base
  import opened Text
  import opened AgentEntity
  import opened Payload
  import opened ClientKeys
  import AgentService
  import MetricsCache
  import SseHub

  datatype PushError = InvalidKey | NotRegistered

  datatype RegisterRequest = RegisterRequest(
    key: string,
    nodeId: string,
    hostname: Option<string>,
    os: Option<string>,
    platform: Option<string>,
    port: Option<int>)

  /** What the registration returns to the agent. */
  datatype Registered = Registered(
    id: nat, nodeId: Option<string>, hostname: Option<string>, os: Option<string>, platform: Option<string>)

  datatype Registration = Registration(agents: Table, keys: Keys, response: Registered)

  // ---------------------------------------------------------------------------
  // The unique-name search

  /** The n-th name tried: the base itself, then base-1, base-2, ... */
  function Candidate(base: string, n: nat): (name: string)
    ensures n == 0 ==> name == base
    ensures n > 0 ==> StartsWith(name, base + "-") && name[|base| + 1..] == NatToString(n)
  {
    if n == 0 then base else base + "-" + NatToString(n)
  }

  /** Different counters give different names. */
  lemma CandidateInjective(base: string, m: nat, n: nat)
    ensures Candidate(base, m) == Candidate(base, n) ==> m == n
  {
    if m > 0 && n > 0 && Candidate(base, m) == Candidate(base, n) {
      NatToStringInjective(m, n);
    }
  }

  /** The names tried before the n-th. */
  function Tried(base: string, n: nat): (s: set<string>)
    ensures forall j | 0 <= j < n :: Candidate(base, j) in s
  {
    if n == 0 then {} else Tried(base, n - 1) + {Candidate(base, n - 1)}
  }

  /** No name from the m-th on was tried before the n-th. */
  lemma {:induction false} NotYetTried(base: string, n: nat, m: nat)
    requires n <= m
    ensures Candidate(base, m) !in Tried(base, n)
  {
    if n > 0 {
      NotYetTried(base, n - 1, m);
      CandidateInjective(base, n - 1, m);
    }
  }

  function Names(t: Table): set<string> {
    set k | 0 <= k < |t| :: t[k].name
  }

  /** How many names of the table the search has not tried yet. */
  function Untried(t: Table, base: string, n: nat): nat {
    |Names(t) - Tried(base, n)|
  }

  /** Every candidate before the n-th names an agent. */
  predicate Taken(t: Table, base: string, n: nat) {
    forall j | 0 <= j < n :: ExistsByName(t, Candidate(base, j))
  }

  /** Candidates that name agents are names of the table. */
  lemma {:induction false} TakenAreNames(t: Table, base: string, n: nat)
    requires Taken(t, base, n)
    ensures Tried(base, n) <= Names(t)
  {
    if n > 0 {
      TakenAreNames(t, base, n - 1);
      var c := Candidate(base, n - 1);
      var k :| 0 <= k < |t| && t[k].name == c;
      assert c in Names(t);
    }
  }

  /** One more taken candidate shrinks the set of names not yet tried. */
  lemma TriedStep(t: Table, base: string, n: nat)
    requires Taken(t, base, n) && ExistsByName(t, Candidate(base, n))
    ensures Taken(t, base, n + 1)
    ensures Untried(t, base, n + 1) < Untried(t, base, n)
  {
    TakenAreNames(t, base, n + 1);
    var c := Candidate(base, n);
    NotYetTried(base, n, n);
    assert Names(t) - Tried(base, n + 1) == (Names(t) - Tried(base, n)) - {c};
  }

  /** The search loop: the first candidate no agent is named. It ends because
      every name it skips is a distinct name already in the finite table. */
  method UniqueName(t: Table, base: string) returns (name: string, n: nat)
    ensures name == Candidate(base, n)
    ensures !ExistsByName(t, name)
    ensures forall j | 0 <= j < n :: ExistsByName(t, Candidate(base, j))
  {
    n := 0;
    while ExistsByName(t, Candidate(base, n))
      invariant Taken(t, base, n)
      decreases Untried(t, base, n)
    {
      TriedStep(t, base, n);
      n := n + 1;
    }
    name := Candidate(base, n);
  }

  // ---------------------------------------------------------------------------
  // Registration

  /** The row a re-registration writes: identity, name and ownership kept. */
  function Refreshed(a: Agent, req: RegisterRequest, ipAddress: string, now: int): (b: Agent)
    ensures b.id == a.id && b.name == a.name && b.clientKeyId == a.clientKeyId && b.nodeId == a.nodeId
    ensures b.enabled == a.enabled && b.userId == a.userId
    ensures b.hostname == req.hostname && b.os == req.os && b.platform == req.platform
    ensures b.agentIp == Some(ipAddress) && b.agentPort == req.port && b.lastSeenAt == Some(now)
  {
    a.(hostname := req.hostname, os := req.os, platform := req.platform,
       agentIp := Some(ipAddress), agentPort := req.port, lastSeenAt := Some(now))
  }

  /** Refreshing a row in place keeps every row's name when ids are unique. */
  lemma RefreshKeepsNames(t: Table, e: Agent, b: Agent)
    requires UniqueIds(t) && e in t && b.id == e.id && b.name == e.name
    ensures AgentService.UniqueNames(t) ==> AgentService.UniqueNames(Replace(t, b))
  {
    var m :| 0 <= m < |t| && t[m] == e;
    assert forall k | 0 <= k < |t| :: Replace(t, b)[k].name == t[k].name;
  }

  /** Appending a row under a name no row has keeps names unique. */
  lemma NewNameKeepsUnique(t: Table, a: Agent)
    requires !ExistsByName(t, a.name)
    ensures AgentService.UniqueNames(t) ==> AgentService.UniqueNames(t + [a])
  {
  }

  /** `registerAgent`. An invalid or expired key fails before anything is
      written. Otherwise the key is stamped as used; an agent already
      registered under this key and node id is refreshed in place, and any
      other node becomes a new enabled agent owned by the key's user, named
      by the first free candidate of its host name (its node id when the host
      name is absent). `freshId` is the identity the database assigns. */
  method RegisterAgent(t: Table, keys: Keys, req: RegisterRequest, ipAddress: string, now: int, freshId: nat)
    returns (r: Result<Registration, PushError>)
    requires !HasId(t, freshId)
    ensures r.Err? <==> FindValid(keys, Some(req.key), now).None?
    ensures r.Err? ==> r.error == InvalidKey
    ensures r.Ok? ==> r.value.keys == UpdateLastUsed(keys, Some(req.key), now)
    ensures r.Ok? ==>
      var ck := FindValid(keys, Some(req.key), now).value;
      var existing := FindByClientKeyAndNode(t, ck.id, Some(req.nodeId));
      (existing.Some? ==>
         r.value.agents == Replace(t, Refreshed(existing.value, req, ipAddress, now))
         && r.value.response.id == existing.value.id)
      && (existing.None? ==>
         |r.value.agents| == |t| + 1 && r.value.agents[..|t|] == t
         && var a := r.value.agents[|t|];
            a.id == freshId == r.value.response.id && a.enabled
            && a.userId == Some(ck.userId) && a.clientKeyId == Some(ck.id) && a.nodeId == Some(req.nodeId)
            && a.hostname == req.hostname && a.agentIp == Some(ipAddress) && a.lastSeenAt == Some(now)
            && !ExistsByName(t, a.name)
            && exists n: nat :: a.name == Candidate(req.hostname.GetOr(req.nodeId), n)
                 && forall j | 0 <= j < n :: ExistsByName(t, Candidate(req.hostname.GetOr(req.nodeId), j)))
    ensures r.Ok? && UniqueIds(t) && AgentService.UniqueNames(t) ==> AgentService.UniqueNames(r.value.agents)
  {
    var found := FindValid(keys, Some(req.key), now);
    if found.None? {
      return Err(InvalidKey);
    }
    var ck := found.value;
    var keys' := UpdateLastUsed(keys, Some(req.key), now);
    var existing := FindByClientKeyAndNode(t, ck.id, Some(req.nodeId));
    if existing.Some? {
      var b := Refreshed(existing.value, req, ipAddress, now);
      var t' := Replace(t, b);
      if UniqueIds(t) {
        RefreshKeepsNames(t, existing.value, b);
      }
      return Ok(Registration(t', keys', Registered(b.id, b.nodeId, b.hostname, b.os, b.platform)));
    }
    var base := req.hostname.GetOr(req.nodeId);
    var name, n := UniqueName(t, base);
    var a := Agent(freshId, Some(ck.userId), Some(ck.id), name, Some(req.nodeId), req.hostname, req.os,
                   req.platform, true, Some(now), Some(ipAddress), req.port, None, None, None);
    var t' := t + [a];
    assert t'[..|t|] == t;
    NewNameKeepsUnique(t, a);
    r := Ok(Registration(t', keys', Registered(a.id, a.nodeId, a.hostname, a.os, a.platform)));
  }

  // ---------------------------------------------------------------------------
  // Pushed metrics

  /** `convertToMetricsRequest` of a pushed report: absent entries in the
      disk and interface lists are skipped, absent lists sum to 0, absent cpu
      and memory figures become 0, and the process count is narrowed to 32
      bits. */
  function ConvertPushed(rep: Report): (m: MetricsCache.Reading)
    ensures m.cpuUsage == Some(rep.cpu.GetOr(0.0))
    ensures m.memoryTotal == Some(rep.memoryTotal.GetOr(0)) && m.memoryUsed == Some(rep.memoryUsed.GetOr(0))
    ensures m.diskTotal == Some(SumPresent(DiskTotals(rep.disks.GetOr([]))))
    ensures m.diskUsed == Some(SumPresent(DiskUsed(rep.disks.GetOr([]))))
    ensures m.networkRxBytes == Some(SumPresent(Received(rep.interfaces.GetOr([]))))
    ensures m.networkTxBytes == Some(SumPresent(Sent(rep.interfaces.GetOr([]))))
    ensures m.networkRxRate == Some(SumPresentReal(ReceiveRates(rep.interfaces.GetOr([]))))
    ensures m.networkTxRate == Some(SumPresentReal(SendRates(rep.interfaces.GetOr([]))))
    ensures m.uptimeSeconds == rep.uptimeSeconds
    ensures rep.processCount.Some? <==> m.processCount.Some?
    ensures rep.processCount.Some? ==> m.processCount == Some(ToInt32(rep.processCount.value))
  {
    var disks := rep.disks.GetOr([]);
    var ifs := rep.interfaces.GetOr([]);
    MetricsCache.Reading(
      Some(rep.cpu.GetOr(0.0)),
      Some(rep.memoryTotal.GetOr(0)),
      Some(rep.memoryUsed.GetOr(0)),
      Some(SumPresent(DiskTotals(disks))),
      Some(SumPresent(DiskUsed(disks))),
      Some(SumPresent(Received(ifs))),
      Some(SumPresent(Sent(ifs))),
      None, None, None,
      if rep.processCount.Some? then Some(ToInt32(rep.processCount.value)) else None,
      rep.uptimeSeconds,
      Some(SumPresentReal(ReceiveRates(ifs))),
      Some(SumPresentReal(SendRates(ifs))))
  }

  /** A pushed reading can always be stored: every figure the percentages
      unbox is present. */
  lemma PushedReadingStores(rep: Report)
    ensures MetricsCache.UsageOf(ConvertPushed(rep)).Ok?
  {
  }

  /** Where the pulled conversion succeeds and cpu and memory are reported,
      the pushed conversion computes the same figures. */
  lemma PushAndPollAgree(rep: Report, pulled: MetricsCache.Reading)
    requires rep.cpu.Some? && rep.memoryTotal.Some? && rep.memoryUsed.Some?
    requires (rep.disks.Some? ==> SumAll(DiskTotals(rep.disks.value)).Some? && SumAll(DiskUsed(rep.disks.value)).Some?)
    requires (rep.interfaces.Some? ==>
                SumAll(Received(rep.interfaces.value)).Some? && SumAll(Sent(rep.interfaces.value)).Some?)
    requires pulled.cpuUsage == rep.cpu && pulled.memoryTotal == rep.memoryTotal
             && pulled.memoryUsed == rep.memoryUsed
    requires pulled.diskTotal == Some(if rep.disks.Some? then SumAll(DiskTotals(rep.disks.value)).value else 0)
    requires pulled.diskUsed == Some(if rep.disks.Some? then SumAll(DiskUsed(rep.disks.value)).value else 0)
    requires pulled.networkRxBytes == Some(if rep.interfaces.Some? then SumAll(Received(rep.interfaces.value)).value else 0)
    requires pulled.networkTxBytes == Some(if rep.interfaces.Some? then SumAll(Sent(rep.interfaces.value)).value else 0)
    ensures var pushed := ConvertPushed(rep);
      pushed.cpuUsage == pulled.cpuUsage && pushed.memoryTotal == pulled.memoryTotal
      && pushed.memoryUsed == pulled.memoryUsed
      && pushed.diskTotal == pulled.diskTotal && pushed.diskUsed == pulled.diskUsed
      && pushed.networkRxBytes == pulled.networkRxBytes && pushed.networkTxBytes == pulled.networkTxBytes
  {
    SumAllIsSumPresent(DiskTotals(rep.disks.GetOr([])));
    SumAllIsSumPresent(DiskUsed(rep.disks.GetOr([])));
    SumAllIsSumPresent(Received(rep.interfaces.GetOr([])));
    SumAllIsSumPresent(Sent(rep.interfaces.GetOr([])));
  }

  datatype PushState = PushState(
    agents: Table,
    keys: Keys,
    cache: MetricsCache.Cache,
    history: seq<MetricsCache.HistoryRow>,
    hub: SseHub.Hub)

  /** The agent a push is for: registered under the key's id and the
      report's node id. */
  function PushTarget(s: PushState, key: string, rep: Report, now: int): (r: Result<Agent, PushError>)
    ensures r.Err? <==>
      FindValid(s.keys, Some(key), now).None?
      || FindByClientKeyAndNode(s.agents, FindValid(s.keys, Some(key), now).value.id, rep.nodeId).None?
    ensures r.Err? ==> (r.error == InvalidKey <==> FindValid(s.keys, Some(key), now).None?)
    ensures r.Ok? ==> r.value in s.agents && r.value.nodeId == rep.nodeId
    ensures r.Ok? ==> r.value.clientKeyId == Some(FindValid(s.keys, Some(key), now).value.id)
  {
    match FindValid(s.keys, Some(key), now)
    case None => Err(InvalidKey)
    case Some(ck) =>
      match FindByClientKeyAndNode(s.agents, ck.id, rep.nodeId)
      case None => Err(NotRegistered)
      case Some(a) => Ok(a)
  }

  /** `pushMetrics`: after the key and registration checks, the agent's
      last-seen time and the key's last use are stamped, the converted
      reading is stored, and the agent's fresh snapshot goes to every stream
      that wants it. */
  function PushMetrics(s: PushState, key: string, rep: Report, now: int, failing: set<SseHub.Emitter>)
    : (r: Result<PushState, PushError>)
    ensures r.Err? <==> PushTarget(s, key, rep, now).Err?
    ensures r.Err? ==> r.error == PushTarget(s, key, rep, now).error
    ensures r.Ok? ==>
      var a := PushTarget(s, key, rep, now).value;
      var agents := Replace(s.agents, a.(lastSeenAt := Some(now)));
      var saved := MetricsCache.SaveMetrics(agents, s.cache, s.history, a.id, ConvertPushed(rep), now);
      saved.Ok?
      && r.value == PushState(agents, UpdateLastUsed(s.keys, Some(key), now), saved.value.cache,
                              saved.value.history, SseHub.SendToAll(s.hub, a.id, failing))
  {
    match PushTarget(s, key, rep, now)
    case Err(e) => Err(e)
    case Ok(a) =>
      var agents := Replace(s.agents, a.(lastSeenAt := Some(now)));
      var m := ConvertPushed(rep);
      StampedAgentStillExists(s.agents, a, now);
      PushedReadingStores(rep);
      var saved := MetricsCache.SaveMetrics(agents, s.cache, s.history, a.id, m, now).value;
      MetricsCache.SaveThenGetRealtime(agents, s.cache, s.history, a.id, m, now);
      var snap := MetricsCache.GetRealtime(agents, saved.cache, a.id, now).value;
      Ok(PushState(agents, UpdateLastUsed(s.keys, Some(key), now), saved.cache, saved.history,
                   SseHub.SendToAll(s.hub, snap.agentId, failing)))
  }

  /** Stamping the last-seen time keeps the agent's row. */
  lemma StampedAgentStillExists(t: Table, a: Agent, now: int)
    requires a in t
    ensures HasId(Replace(t, a.(lastSeenAt := Some(now))), a.id)
  {
    var k :| 0 <= k < |t| && t[k] == a;
    assert Replace(t, a.(lastSeenAt := Some(now)))[k].id == a.id;
  }

  /** `validateKey`. */
  function ValidateKey(keys: Keys, key: Option<string>, now: int): (ok: bool)
    ensures ok <==> exists k | k in keys :: key == Some(k.keyValue) && Accepted(k, now)
  {
    var r := FindValid(keys, key, now);
    if r.Some? then assert key == Some(r.value.keyValue); true else false
  }
}

=== FILE: agent_registry.dfy ===
/** The backend's agent WebSocket endpoint (`AgentWebSocketHandler`): the table
    of live agent sessions, the slot of the caller waiting for an agent's
    command result, and the frontend terminals observing each agent's shell.
    Every callback is one atomic transition of an immutable `Registry`; the
    outcome of a WebSocket write is an input (`writeError`). */
module AgentRegistry {
  import opened Base
  import opened Text

  type AgentId = string

  /** A frontend terminal session that observes an agent's shell. */
  type ObserverId = string

  /** An agent's WebSocket session: its identity and whether it is still open. */
  datatype Conn = Conn(sessionId: string, open: bool)

  /** A caller blocked in `sendCommandAndWait`, told apart by a request number. */
  datatype Slot = Slot(request: nat)

  datatype CommandResult = CommandResult(output: string, error: string, exitCode: int)

  datatype Registry = Registry(
    sessions: map<AgentId, Conn>,
    pending: map<AgentId, Slot>,
    listeners: map<AgentId, set<ObserverId>>)

  const Empty: Registry := Registry(map[], map[], map[])

  /** Why a registry call threw. */
  datatype Failure =
    | NotConnected(agentId: AgentId)
    | TimedOut(seconds: int)
    | Disconnected
    | WriteFailed(message: string)

  /** The exception message the caller sees. A disconnect completes the future
      exceptionally, so the waiting caller receives an `ExecutionException`
      whose message is the wrapped `IOException` rendered by `toString`. */
  function FailureMessage(f: Failure): string {
    match f
    case NotConnected(id) => "Agent " + id + " is not connected"
    case TimedOut(t) => "Command timeout after " + IntToString(t) + " seconds"
    case Disconnected => "java.io.IOException: Agent disconnected"
    case WriteFailed(m) => m
  }

  /** Whether the failure reaches callers as a `java.io.IOException`. */
  predicate IsIOException(f: Failure) {
    !f.Disconnected?
  }

  /** `m1` and `m2` agree on every key other than `id`. */
  predicate SameExcept<V(==)>(m1: map<AgentId, V>, m2: map<AgentId, V>, id: AgentId) {
    (forall a | a in m1 && a != id :: a in m2 && m2[a] == m1[a])
    && (forall a | a in m2 && a != id :: a in m1)
  }

  predicate IsConnected(r: Registry, id: AgentId) {
    id in r.sessions && r.sessions[id].open
  }

  /** The observers registered for `id`, empty when the agent has no set. */
  function Listeners(r: Registry, id: AgentId): set<ObserverId> {
    if id in r.listeners then r.listeners[id] else {}
  }

  // ---------------------------------------------------------------------------
  // Identifying the agent of a session

  const AgentIdParam: string := "agentId="

  /** The value of the first parameter that starts with `agentId=`. */
  function FirstAgentIdParam(params: seq<string>): (r: Option<AgentId>)
    ensures r.Some? <==> exists k | 0 <= k < |params| :: StartsWith(params[k], AgentIdParam)
    ensures r.Some? ==>
      exists k | 0 <= k < |params| ::
        params[k] == AgentIdParam + r.value
        && forall j | 0 <= j < k :: !StartsWith(params[j], AgentIdParam)
  {
    if |params| == 0 then None
    else if StartsWith(params[0], AgentIdParam) then
      var v := params[0][|AgentIdParam|..];
      assert params[0] == AgentIdParam + v;
      Some(v)
    else
      var r := FirstAgentIdParam(params[1..]);
      assert forall k | 0 <= k < |params| - 1 :: params[1..][k] == params[k + 1];
      if r.Some? then
        var k :| 0 <= k < |params| - 1 && params[1..][k] == AgentIdParam + r.value
          && forall j | 0 <= j < k :: !StartsWith(params[1..][j], AgentIdParam);
        assert params[k + 1] == AgentIdParam + r.value;
        assert forall j | 0 <= j < k + 1 :: !StartsWith(params[j], AgentIdParam) by {
          forall j | 0 <= j < k + 1
            ensures !StartsWith(params[j], AgentIdParam)
          {
            if j > 0 {
              assert params[j] == params[1..][j - 1];
            }
          }
        }
        r
      else
        r
  }

  /** The agent id carried by a session URI's query string; `None` when the URI
      has no query or no `agentId=` parameter. */
  function ExtractAgentId(query: Option<string>): (r: Option<AgentId>)
    ensures query.None? ==> r.None?
    ensures query.Some? && '&' !in query.value ==>
      (r.Some? <==> StartsWith(query.value, AgentIdParam))
  {
    match query
    case None => None
    case Some(q) => FirstAgentIdParam(JavaSplit(q, '&'))
  }

  /** The query the agent puts on its connection URL names it back to the backend. */
  lemma ExtractAgentIdOfAgentQuery(id: AgentId)
    requires '&' !in id
    ensures ExtractAgentId(Some(AgentIdParam + id)) == Some(id)
  {
    var q := AgentIdParam + id;
    assert forall k | 0 <= k < |q| :: q[k] == '&' ==> k >= |AgentIdParam| && id[k - |AgentIdParam|] == '&';
    assert '&' !in q;
    assert JavaSplit(q, '&') == [q];
    assert StartsWith(q, AgentIdParam);
    assert q[|AgentIdParam|..] == id;
  }

  // ---------------------------------------------------------------------------
  // Session lifecycle

  /** A new agent session is stored under its id, replacing any earlier one. */
  function Connect(r: Registry, agentId: Option<AgentId>, conn: Conn): (r': Registry)
    ensures agentId.None? ==> r' == r
    ensures agentId.Some? ==>
      agentId.value in r'.sessions && r'.sessions[agentId.value] == conn
      && (IsConnected(r', agentId.value) <==> conn.open)
      && SameExcept(r.sessions, r'.sessions, agentId.value)
    ensures r'.pending == r.pending && r'.listeners == r.listeners
  {
    match agentId
    case None => r
    case Some(id) => r.(sessions := r.sessions[id := conn])
  }

  datatype Closed = Closed(reg: Registry, failed: Option<Slot>)

  /** `afterConnectionClosed`: the session and the pending slot stored under the
      closing session's agent id are removed, whichever session they belong
      to; the removed slot, if any, is failed with "Agent disconnected". */
  function Close(r: Registry, agentId: Option<AgentId>): (c: Closed)
    ensures agentId.None? ==> c == Closed(r, None)
    ensures agentId.Some? ==>
      var id := agentId.value;
      !IsConnected(c.reg, id) && id !in c.reg.sessions && id !in c.reg.pending
      && (c.failed.Some? <==> id in r.pending)
      && (c.failed.Some? ==> c.failed.value == r.pending[id])
      && SameExcept(r.sessions, c.reg.sessions, id)
      && SameExcept(r.pending, c.reg.pending, id)
    ensures c.reg.listeners == r.listeners
  {
    match agentId
    case None => Closed(r, None)
    case Some(id) =>
      var failed := if id in r.pending then Some(r.pending[id]) else None;
      Closed(Registry(r.sessions - {id}, r.pending - {id}, r.listeners), failed)
  }

  /** A second close of the same agent fails no slot and changes nothing. */
  lemma CloseIsIdempotent(r: Registry, agentId: Option<AgentId>)
    ensures Close(Close(r, agentId).reg, agentId) == Closed(Close(r, agentId).reg, None)
  {
    if agentId.Some? {
      var id := agentId.value;
      var c := Close(r, agentId).reg;
      assert c.sessions - {id} == c.sessions;
      assert c.pending - {id} == c.pending;
    }
  }

  /** Removal by key: when an agent reconnects before its old session's close
      callback runs, that late callback removes the new, open session. */
  lemma LateCloseEvictsReconnectedSession(r: Registry, id: AgentId, earlier: Conn, later: Conn)
    requires later.open
    ensures var r1 := Connect(Connect(r, Some(id), earlier), Some(id), later);
      IsConnected(r1, id) && !IsConnected(Close(r1, Some(id)).reg, id)
  {
  }

  // ---------------------------------------------------------------------------
  // Agent frames

  /** A decoded agent frame; JSON fields that are absent are `None`. */
  datatype AgentFrame = AgentFrame(
    kind: Option<string>,
    output: Option<string>,
    error: Option<string>,
    code: Option<int>)

  datatype Reaction =
    | Ignored
    | Completed(slot: Slot, result: CommandResult)
    | Forwarded(agentId: AgentId)

  datatype Handled = Handled(reg: Registry, reaction: Reaction)

  /** The result carried by a `command_result` frame, with absent fields
      defaulted to "", "" and 0. */
  function ResultOf(f: AgentFrame): CommandResult {
    CommandResult(f.output.GetOr(""), f.error.GetOr(""), f.code.GetOr(0))
  }

  /** `handleTextMessage`. `frame` is `None` when the payload is not JSON. An
      absent agent id makes the map lookups throw, which the handler catches,
      so nothing happens. */
  function HandleMessage(r: Registry, agentId: Option<AgentId>, frame: Option<AgentFrame>): (h: Handled)
    ensures h.reg.sessions == r.sessions && h.reg.listeners == r.listeners
    ensures h.reaction.Completed? <==>
      agentId.Some? && agentId.value in r.pending
      && frame.Some? && frame.value.kind == Some("command_result")
    ensures h.reaction.Completed? ==>
      h.reaction.slot == r.pending[agentId.value]
      && h.reaction.result == ResultOf(frame.value)
      && h.reg.pending == r.pending - {agentId.value}
    ensures !h.reaction.Completed? ==> h.reg == r
    ensures h.reaction.Forwarded? <==>
      agentId.Some? && frame.Some?
      && frame.value.kind in {Some("shell_output"), Some("shell_exit")}
    ensures h.reaction.Forwarded? ==> h.reaction.agentId == agentId.value
  {
    match frame
    case None => Handled(r, Ignored)
    case Some(f) =>
      var kind := f.kind.GetOr("");
      if kind == "command_result" then
        match agentId
        case None => Handled(r, Ignored)
        case Some(id) =>
          if id in r.pending then
            Handled(r.(pending := r.pending - {id}), Completed(r.pending[id], ResultOf(f)))
          else Handled(r, Ignored)
      else if kind == "shell_output" || kind == "shell_exit" then
        match agentId
        case None => Handled(r, Ignored)
        case Some(id) => Handled(r, Forwarded(id))
      else Handled(r, Ignored)
  }

  /** `forwardToShellListeners`: the payload is written to every open listener
      of the agent in turn; a failed write is logged and neither stops the
      loop nor removes the listener. Returns the listeners that received it. */
  method Forward(r: Registry, id: AgentId, open: set<ObserverId>, failing: set<ObserverId>)
    returns (delivered: set<ObserverId>)
    ensures delivered == (Listeners(r, id) * open) - failing
    ensures forall o | o in delivered :: o in Listeners(r, id) && o in open && o !in failing
  {
    delivered := {};
    var rest := Listeners(r, id);
    while rest != {}
      invariant rest <= Listeners(r, id)
      invariant delivered == ((Listeners(r, id) - rest) * open) - failing
      decreases |rest|
    {
      var o :| o in rest;
      if o in open && o !in failing {
        delivered := delivered + {o};
      }
      rest := rest - {o};
    }
  }

  // ---------------------------------------------------------------------------
  // Commands

  datatype Started = Waiting(reg: Registry) | Failed(reg: Registry, failure: Failure)

  /** `sendCommandAndWait` up to the point where the caller blocks: the slot is
      stored under the agent id, overwriting any slot already pending for that
      agent, and the command is written; a failed write removes the key again. */
  function StartCommand(r: Registry, id: AgentId, slot: Slot, writeError: Option<string>): (s: Started)
    ensures !IsConnected(r, id) ==> s == Failed(r, NotConnected(id))
    ensures IsConnected(r, id) && writeError.None? ==>
      s.Waiting? && id in s.reg.pending && s.reg.pending[id] == slot
    ensures IsConnected(r, id) && writeError.Some? ==>
      s.Failed? && s.failure == WriteFailed(writeError.value) && id !in s.reg.pending
    ensures IsConnected(r, id) ==> SameExcept(r.pending, s.reg.pending, id)
    ensures s.reg.sessions == r.sessions && s.reg.listeners == r.listeners
  {
    if !IsConnected(r, id) then Failed(r, NotConnected(id))
    else
      var r1 := r.(pending := r.pending[id := slot]);
      match writeError
      case Some(m) => Failed(r1.(pending := r1.pending - {id}), WriteFailed(m))
      case None => Waiting(r1)
  }

  /** The waiting caller gives up (timeout or a rethrown failure): it removes
      whatever slot is now stored under the agent id. */
  function AbandonCommand(r: Registry, id: AgentId): (r': Registry)
    ensures id !in r'.pending && SameExcept(r.pending, r'.pending, id)
    ensures r'.sessions == r.sessions && r'.listeners == r.listeners
  {
    r.(pending := r.pending - {id})
  }

  /** What happens while the caller waits: the agent answers with a
      `command_result` frame, stays silent past the timeout, or disconnects. */
  datatype WaitEvent =
    | Reply(output: Option<string>, error: Option<string>, code: Option<int>)
    | Silence
    | AgentClosed

  datatype Call = Call(reg: Registry, outcome: Result<CommandResult, Failure>)

  /** One complete `sendCommandAndWait` with no other caller interleaved. */
  function SendCommandAndWait(r: Registry, id: AgentId, slot: Slot, timeoutSeconds: int,
                              writeError: Option<string>, event: WaitEvent): (c: Call)
    ensures !IsConnected(r, id) ==> c == Call(r, Err(NotConnected(id)))
    ensures IsConnected(r, id) ==> id !in c.reg.pending && SameExcept(r.pending, c.reg.pending, id)
    ensures IsConnected(r, id) && writeError.Some? ==> c.outcome == Err(WriteFailed(writeError.value))
    ensures IsConnected(r, id) && writeError.None? ==>
      match event
      case Reply(o, e, k) => c.outcome == Ok(CommandResult(o.GetOr(""), e.GetOr(""), k.GetOr(0)))
      case Silence => c.outcome == Err(TimedOut(timeoutSeconds))
      case AgentClosed => c.outcome == Err(Disconnected) && !IsConnected(c.reg, id)
    ensures c.reg.listeners == r.listeners
  {
    match StartCommand(r, id, slot, writeError)
    case Failed(r1, f) => Call(r1, Err(f))
    case Waiting(r1) =>
      match event
      case Reply(o, e, k) =>
        var h := HandleMessage(r1, Some(id), Some(AgentFrame(Some("command_result"), o, e, k)));
        Call(h.reg, Ok(h.reaction.result))
      case Silence =>
        Call(AbandonCommand(r1, id), Err(TimedOut(timeoutSeconds)))
      case AgentClosed =>
        var closed := Close(r1, Some(id));
        Call(AbandonCommand(closed.reg, id), Err(Disconnected))
  }

  /** Two overlapping commands to one agent share a single slot: the reply
      completes only the later caller, and the earlier caller's timeout then
      removes the later caller's slot. */
  lemma OverlappingCommandsShareOneSlot(r: Registry, id: AgentId, first: Slot, second: Slot, f: AgentFrame)
    requires IsConnected(r, id) && first != second
    requires f.kind == Some("command_result")
    ensures var r1 := StartCommand(r, id, first, None).reg;
      var r2 := StartCommand(r1, id, second, None).reg;
      r2.pending[id] == second
      && HandleMessage(r2, Some(id), Some(f)).reaction == Completed(second, ResultOf(f))
      && id !in AbandonCommand(r2, id).pending
  {
  }

  // ---------------------------------------------------------------------------
  // Interactive shells

  /** A control frame sent to the agent's shell. */
  datatype ShellMessage = ShellMessage(kind: string, data: string, cols: int, rows: int)

  /** The registry after a shell call, the frame written to the agent, and the
      exception the call threw. */
  datatype Step = Step(reg: Registry, sent: Option<ShellMessage>, failure: Option<Failure>)

  /** Writes `m` to the agent's session, whose write may fail. */
  function Write(r: Registry, m: ShellMessage, writeError: Option<string>): Step {
    match writeError
    case Some(e) => Step(r, None, Some(WriteFailed(e)))
    case None => Step(r, Some(m), None)
  }

  /** The same listener sets, with `obs` added to or removed from `id`'s. */
  function WithListener(r: Registry, id: AgentId, obs: ObserverId, add: bool): (r': Registry)
    ensures Listeners(r', id) == if add then Listeners(r, id) + {obs} else Listeners(r, id) - {obs}
    ensures forall a | a != id :: Listeners(r', a) == Listeners(r, a)
    ensures r'.sessions == r.sessions && r'.pending == r.pending
  {
    if add then r.(listeners := r.listeners[id := Listeners(r, id) + {obs}])
    else if id in r.listeners then r.(listeners := r.listeners[id := r.listeners[id] - {obs}])
    else r
  }

  /** `startShell`: needs an open agent session; registers the observer (the
      registration stays even if the following write fails) and sends
      `shell_start` with the terminal size. */
  function StartShell(r: Registry, id: AgentId, obs: ObserverId, cols: int, rows: int,
                      writeError: Option<string>): (s: Step)
    ensures !IsConnected(r, id) ==> s == Step(r, None, Some(NotConnected(id)))
    ensures IsConnected(r, id) ==>
      Listeners(s.reg, id) == Listeners(r, id) + {obs}
      && (s.failure.None? <==> writeError.None?)
      && (writeError.None? ==> s.sent == Some(ShellMessage("shell_start", "", cols, rows)))
    ensures forall a | a != id :: Listeners(s.reg, a) == Listeners(r, a)
    ensures s.reg.sessions == r.sessions && s.reg.pending == r.pending
  {
    if !IsConnected(r, id) then Step(r, None, Some(NotConnected(id)))
    else Write(WithListener(r, id, obs, true), ShellMessage("shell_start", "", cols, rows), writeError)
  }

  /** `sendShellInput`: needs an open agent session; the input is sent verbatim. */
  function ShellInput(r: Registry, id: AgentId, input: string, writeError: Option<string>): (s: Step)
    ensures s.reg == r
    ensures !IsConnected(r, id) ==> s.failure == Some(NotConnected(id)) && s.sent.None?
    ensures IsConnected(r, id) && writeError.None? ==>
      s.failure.None? && s.sent == Some(ShellMessage("shell_input", input, 0, 0))
    ensures IsConnected(r, id) && writeError.Some? ==>
      s.failure == Some(WriteFailed(writeError.value)) && s.sent.None?
  {
    if !IsConnected(r, id) then Step(r, None, Some(NotConnected(id)))
    else Write(r, ShellMessage("shell_input", input, 0, 0), writeError)
  }

  /** `resizeShell`: needs an open agent session. */
  function ResizeShell(r: Registry, id: AgentId, cols: int, rows: int, writeError: Option<string>): (s: Step)
    ensures s.reg == r
    ensures !IsConnected(r, id) ==> s.failure == Some(NotConnected(id)) && s.sent.None?
    ensures IsConnected(r, id) && writeError.None? ==>
      s.failure.None? && s.sent == Some(ShellMessage("shell_resize", "", cols, rows))
    ensures IsConnected(r, id) && writeError.Some? ==>
      s.failure == Some(WriteFailed(writeError.value)) && s.sent.None?
  {
    if !IsConnected(r, id) then Step(r, None, Some(NotConnected(id)))
    else Write(r, ShellMessage("shell_resize", "", cols, rows), writeError)
  }

  /** `stopShell`: removes this observer only, then sends `shell_stop` whenever
      the agent is connected, even if other observers remain. */
  function StopShell(r: Registry, id: AgentId, obs: ObserverId, writeError: Option<string>): (s: Step)
    ensures Listeners(s.reg, id) == Listeners(r, id) - {obs}
    ensures forall a | a != id :: Listeners(s.reg, a) == Listeners(r, a)
    ensures s.reg.sessions == r.sessions && s.reg.pending == r.pending
    ensures !IsConnected(r, id) ==> s.sent.None? && s.failure.None?
    ensures IsConnected(r, id) && writeError.None? ==>
      s.sent == Some(ShellMessage("shell_stop", "", 0, 0)) && s.failure.None?
    ensures IsConnected(r, id) && writeError.Some? ==>
      s.failure == Some(WriteFailed(writeError.value)) && s.sent.None?
  {
    var r1 := WithListener(r, id, obs, false);
    if IsConnected(r, id) then Write(r1, ShellMessage("shell_stop", "", 0, 0), writeError)
    else Step(r1, None, None)
  }

  /** `removeShellListener`: removes this observer only and sends nothing. */
  function RemoveShellListener(r: Registry, id: AgentId, obs: ObserverId): (r': Registry)
    ensures Listeners(r', id) == Listeners(r, id) - {obs}
    ensures forall a | a != id :: Listeners(r', a) == Listeners(r, a)
    ensures r'.sessions == r.sessions && r'.pending == r.pending
  {
    WithListener(r, id, obs, false)
  }

  /** Observing and then leaving an agent's shell restores its listener set
      when the observer was not registered before. */
  lemma StartThenRemoveRestoresListeners(r: Registry, id: AgentId, obs: ObserverId, cols: int, rows: int,
                                         writeError: Option<string>)
    requires IsConnected(r, id) && obs !in Listeners(r, id)
    ensures Listeners(RemoveShellListener(StartShell(r, id, obs, cols, rows, writeError).reg, id, obs), id)
            == Listeners(r, id)
  {
  }
}

=== FILE: agent_service.dfy ===
/** `AgentServiceImpl`: the administrator's create / update / delete of
    polled agents over the agents table. Every failing call throws inside a
    transaction, so a failure leaves the table as it was. */
module AgentService {
  import opened Base
  import opened AgentEntity

  const DefaultPort: int := 9090
  const DefaultPollingInterval: int := 1000

  datatype ServiceError =
    | DuplicateName(name: string)
    | DuplicateIp(ip: string)
    | NotFound(id: nat)

  datatype CreateRequest = CreateRequest(name: string, ip: string, port: Option<int>, pollingInterval: Option<int>)

  datatype UpdateRequest = UpdateRequest(
    name: Option<string>,
    ip: Option<string>,
    port: Option<int>,
    pollingInterval: Option<int>,
    enabled: Option<bool>)

  /** The table after a successful call, and the saved row. */
  datatype Saved = Saved(table: Table, agent: Agent)

  /** No two rows share a name. */
  predicate UniqueNames(t: Table) {
    forall i, j | 0 <= i < j < |t| :: t[i].name != t[j].name
  }

  /** No two rows share a (present) polling ip. */
  predicate UniqueIps(t: Table) {
    forall i, j | 0 <= i < j < |t| :: t[i].ip.None? || t[i].ip != t[j].ip
  }

  /** `createAgent`. `freshId` is the identity the database assigns. The name
      check runs before the ip check. */
  function CreateAgent(t: Table, freshId: nat, req: CreateRequest): (r: Result<Saved, ServiceError>)
    requires !HasId(t, freshId)
    ensures ExistsByName(t, req.name) ==> r == Err(DuplicateName(req.name))
    ensures !ExistsByName(t, req.name) && ExistsByIp(t, req.ip) ==> r == Err(DuplicateIp(req.ip))
    ensures r.Ok? <==> !ExistsByName(t, req.name) && !ExistsByIp(t, req.ip)
    ensures r.Ok? ==>
      var a := r.value.agent;
      r.value.table == t + [a]
      && a.id == freshId && a.name == req.name && a.ip == Some(req.ip)
      && a.port == Some(req.port.GetOr(DefaultPort))
      && a.pollingInterval == Some(req.pollingInterval.GetOr(DefaultPollingInterval))
      && a.enabled
  {
    if ExistsByName(t, req.name) then Err(DuplicateName(req.name))
    else if ExistsByIp(t, req.ip) then Err(DuplicateIp(req.ip))
    else
      var a := Agent(freshId, None, None, req.name, None, None, None, None, true, None, None, None,
                     Some(req.ip), Some(req.port.GetOr(DefaultPort)),
                     Some(req.pollingInterval.GetOr(DefaultPollingInterval)));
      Ok(Saved(t + [a], a))
  }

  /** A successful create keeps ids, names and ips unique. */
  lemma CreatePreservesUniqueness(t: Table, freshId: nat, req: CreateRequest)
    requires !HasId(t, freshId)
    requires UniqueIds(t) && UniqueNames(t) && UniqueIps(t)
    requires CreateAgent(t, freshId, req).Ok?
    ensures var t' := CreateAgent(t, freshId, req).value.table;
      UniqueIds(t') && UniqueNames(t') && UniqueIps(t')
  {
  }

  /** The row an update produces from the stored row `a`, when neither
      duplicate check fails. */
  function Patch(a: Agent, req: UpdateRequest): (b: Agent)
    ensures b.id == a.id && b.nodeId == a.nodeId && b.clientKeyId == a.clientKeyId
    ensures b.name == req.name.GetOr(a.name)
    ensures b.ip == (if req.ip.Some? then req.ip else a.ip)
    ensures b.port == (if req.port.Some? then req.port else a.port)
    ensures b.pollingInterval == (if req.pollingInterval.Some? then req.pollingInterval else a.pollingInterval)
    ensures b.enabled == req.enabled.GetOr(a.enabled)
    ensures b.(name := a.name, ip := a.ip, port := a.port, pollingInterval := a.pollingInterval,
               enabled := a.enabled) == a
  {
    a.(name := req.name.GetOr(a.name),
       ip := if req.ip.Some? then req.ip else a.ip,
       port := if req.port.Some? then req.port else a.port,
       pollingInterval := if req.pollingInterval.Some? then req.pollingInterval else a.pollingInterval,
       enabled := req.enabled.GetOr(a.enabled))
  }

  /** The name changes, and is checked for duplicates, only when given and different. */
  predicate NameClash(t: Table, a: Agent, req: UpdateRequest) {
    req.name.Some? && req.name.value != a.name && ExistsByName(t, req.name.value)
  }

  /** The ip changes, and is checked for duplicates, only when given and different. */
  predicate IpClash(t: Table, a: Agent, req: UpdateRequest) {
    req.ip.Some? && req.ip != a.ip && ExistsByIp(t, req.ip.value)
  }

  /** `updateAgent`: a missing id, then a clashing name, then a clashing ip
      fail; otherwise the row is patched in place. */
  function UpdateAgent(t: Table, id: nat, req: UpdateRequest): (r: Result<Saved, ServiceError>)
    ensures !HasId(t, id) ==> r == Err(NotFound(id))
    ensures HasId(t, id) && NameClash(t, FindById(t, id).value, req) ==> r == Err(DuplicateName(req.name.value))
    ensures HasId(t, id) && !NameClash(t, FindById(t, id).value, req) && IpClash(t, FindById(t, id).value, req)
      ==> r == Err(DuplicateIp(req.ip.value))
    ensures r.Err? && r.error.DuplicateName? ==> NameClash(t, FindById(t, id).value, req)
    ensures r.Err? && r.error.DuplicateIp? ==>
      !NameClash(t, FindById(t, id).value, req) && IpClash(t, FindById(t, id).value, req)
    ensures r.Ok? <==>
      HasId(t, id) && !NameClash(t, FindById(t, id).value, req) && !IpClash(t, FindById(t, id).value, req)
    ensures r.Ok? ==>
      r.value.agent == Patch(FindById(t, id).value, req)
      && r.value.table == Replace(t, r.value.agent)
  {
    match FindById(t, id)
    case None => Err(NotFound(id))
    case Some(a) =>
      if NameClash(t, a, req) then Err(DuplicateName(req.name.value))
      else if IpClash(t, a, req) then Err(DuplicateIp(req.ip.value))
      else
        var b := Patch(a, req);
        Ok(Saved(Replace(t, b), b))
  }

  /** An update with every field absent saves the row unchanged. */
  lemma EmptyUpdateChangesNothing(t: Table, id: nat)
    requires HasId(t, id) && UniqueIds(t)
    ensures var r := UpdateAgent(t, id, UpdateRequest(None, None, None, None, None));
      r.Ok? && r.value.table == t
  {
    var a := FindById(t, id).value;
    var b := Patch(a, UpdateRequest(None, None, None, None, None));
    assert b == a;
    assert forall k | 0 <= k < |t| && t[k].id == id :: t[k] == a by {
      forall k | 0 <= k < |t| && t[k].id == id ensures t[k] == a {
        var m :| 0 <= m < |t| && t[m] == a;
      }
    }
  }

  /** A successful update touches only the row with that id. */
  lemma UpdateTouchesOnlyThatRow(t: Table, id: nat, req: UpdateRequest, k: nat)
    requires k < |t| && t[k].id != id
    requires UpdateAgent(t, id, req).Ok?
    ensures |UpdateAgent(t, id, req).value.table| == |t|
    ensures UpdateAgent(t, id, req).value.table[k] == t[k]
  {
  }

  /** A successful update keeps ids, names and ips unique. */
  lemma UpdatePreservesUniqueness(t: Table, id: nat, req: UpdateRequest)
    requires UniqueIds(t) && UniqueNames(t) && UniqueIps(t)
    requires UpdateAgent(t, id, req).Ok?
    ensures var t' := UpdateAgent(t, id, req).value.table;
      UniqueIds(t') && UniqueNames(t') && UniqueIps(t')
  {
    var a := FindById(t, id).value;
    var b := Patch(a, req);
    var t' := Replace(t, b);
    var m :| 0 <= m < |t| && t[m] == a;
    forall i, j | 0 <= i < j < |t'| ensures t'[i].id != t'[j].id && t'[i].name != t'[j].name
      && (t'[i].ip.None? || t'[i].ip != t'[j].ip)
    {
      if t[i].id == id {
        assert t'[j] == t[j];
        assert req.name.Some? && req.name.value != a.name ==> t'[i].name != t'[j].name;
      } else if t[j].id == id {
        assert t'[i] == t[i];
      }
    }
  }

  /** `deleteAgent`: a missing id fails; otherwise exactly that row goes. */
  function DeleteAgent(t: Table, id: nat): (r: Result<Table, ServiceError>)
    ensures r.Err? <==> !HasId(t, id)
    ensures r.Err? ==> r.error == NotFound(id)
    ensures r.Ok? ==> forall a :: a in r.value <==> a in t && a.id != id
  {
    if HasId(t, id) then Ok(Remove(t, id)) else Err(NotFound(id))
  }

  /** `getEnabledAgents`. */
  function EnabledAgents(t: Table): (r: Table)
    ensures forall a :: a in r <==> a in t && a.enabled
  {
    FindEnabled(t)
  }
}

=== FILE: agent_update.dfy ===
/** The agent's self-update command (`agent/cmd/update.go`): which release
    is wanted, whether the running version already is it, and which asset
    to download. The release list fetched from the hosting service is an
    input; downloading and replacing the binary are not modelled. */
module AgentUpdate {
  import opened Base
  import opened Text

  const ReleasePrefix: string := "agent-v"
  const BinaryName: string := "horizon-agent"

  datatype Asset = Asset(name: string, downloadUrl: string)
  datatype Release = Release(tag: string, assets: seq<Asset>)

  /** An agent release's tag begins with "agent-v". */
  predicate IsAgentRelease(r: Release)
    ensures IsAgentRelease(r) <==> ReleasePrefix <= r.tag
  {
    StartsWith(r.tag, ReleasePrefix)
  }

  /** The version a release tag names: the tag after "agent-v", or the whole
      tag when it lacks that prefix. */
  function TagVersion(r: Release): (v: string)
    ensures IsAgentRelease(r) ==> r.tag == ReleasePrefix + v
    ensures !IsAgentRelease(r) ==> v == r.tag
  {
    TrimPrefix(r.tag, ReleasePrefix)
  }

  /** A requested or running version without its optional leading "v": only
      one 'v' is dropped. */
  function Normalize(v: string): (n: string)
    ensures |v| > 0 && v[0] == 'v' ==> v == "v" + n
    ensures !(|v| > 0 && v[0] == 'v') ==> n == v
  {
    TrimPrefix(v, "v")
  }

  /** `getLatestRelease`: the first agent release in the list. */
  function LatestRelease(rs: seq<Release>): (i: Option<nat>)
    ensures i.Some? ==> i.value < |rs| && IsAgentRelease(rs[i.value])
    ensures i.Some? ==> forall k | 0 <= k < i.value :: !IsAgentRelease(rs[k])
    ensures i.None? <==> forall k | 0 <= k < |rs| :: !IsAgentRelease(rs[k])
  {
    if |rs| == 0 then None
    else if IsAgentRelease(rs[0]) then Some(0)
    else
      match LatestRelease(rs[1..])
      case None => None
      case Some(j) => Some(j + 1)
  }

  /** `getReleaseByVersion`: the first agent release whose tag names the
      requested version, one leading "v" ignored. */
  function ReleaseByVersion(rs: seq<Release>, version: string): (i: Option<nat>)
    ensures i.Some? ==> i.value < |rs| && IsAgentRelease(rs[i.value])
                        && TagVersion(rs[i.value]) == Normalize(version)
    ensures i.Some? ==> forall k | 0 <= k < i.value ::
                          !(IsAgentRelease(rs[k]) && TagVersion(rs[k]) == Normalize(version))
    ensures i.None? <==> forall k | 0 <= k < |rs| ::
                          !(IsAgentRelease(rs[k]) && TagVersion(rs[k]) == Normalize(version))
  {
    if |rs| == 0 then None
    else if IsAgentRelease(rs[0]) && TagVersion(rs[0]) == Normalize(version) then Some(0)
    else
      match ReleaseByVersion(rs[1..], version)
      case None => None
      case Some(j) => Some(j + 1)
  }

  /** Asking for the latest release's version by name finds that same
      release, with or without the leading "v". */
  lemma LatestIsFoundByItsVersion(rs: seq<Release>, v: string)
    requires LatestRelease(rs).Some? && TagVersion(rs[LatestRelease(rs).value]) == v
    requires !StartsWith(v, "v")
    ensures ReleaseByVersion(rs, v) == LatestRelease(rs)
    ensures ReleaseByVersion(rs, "v" + v) == LatestRelease(rs)
  {
    var i := LatestRelease(rs).value;
    assert Normalize(v) == v;
    assert ("v" + v)[..1] == "v";
    assert Normalize("v" + v) == v;
    FoundAtFirstAgentRelease(rs, v, i);
    FoundAtFirstAgentRelease(rs, "v" + v, i);
  }

  /** A matching release with no agent release before it is the one found. */
  lemma FoundAtFirstAgentRelease(rs: seq<Release>, version: string, i: nat)
    requires i < |rs| && IsAgentRelease(rs[i]) && TagVersion(rs[i]) == Normalize(version)
    requires forall k | 0 <= k < i :: !IsAgentRelease(rs[k])
    ensures ReleaseByVersion(rs, version) == Some(i)
  {
    var r := ReleaseByVersion(rs, version);
    assert r.Some?;
    assert !(r.value < i);
    assert !(r.value > i);
  }

  /** `getBinaryFileName`: `horizon-agent-<os>-<arch>`, with ".exe" only on
      Windows. */
  function BinaryFileName(goos: string, goarch: string): (name: string)
    ensures StartsWith(name, BinaryName + "-" + goos + "-" + goarch)
    ensures goos == "windows" ==> |name| == |BinaryName| + |goos| + |goarch| + 6 && EndsWith(name, ".exe")
    ensures goos != "windows" ==> |name| == |BinaryName| + |goos| + |goarch| + 2
  {
    var name := BinaryName + "-" + goos + "-" + goarch + (if goos == "windows" then ".exe" else "");
    assert name[..|BinaryName + "-" + goos + "-" + goarch|] == BinaryName + "-" + goos + "-" + goarch;
    name
  }

  /** The asset loop: the address of the first asset with exactly that
      name, "" when there is none. */
  function AssetUrl(assets: seq<Asset>, name: string): (url: string)
    ensures (forall k | 0 <= k < |assets| :: assets[k].name != name) ==> url == ""
    ensures forall i | 0 <= i < |assets| && assets[i].name == name
                       && (forall k | 0 <= k < i :: assets[k].name != name) :: url == assets[i].downloadUrl
  {
    if |assets| == 0 then ""
    else if assets[0].name == name then assets[0].downloadUrl
    else
      var tail := assets[1..];
      assert forall i | 0 <= i < |tail| :: tail[i] == assets[i + 1];
      AssetUrl(tail, name)
  }

  datatype UpdateError =
    | FetchFailed
    | NoAgentRelease
    | VersionNotFound(version: string)
    | NoBinary(goos: string, goarch: string)

  datatype Plan = UpToDate | Download(url: string, version: string) | Failed(error: UpdateError)

  /** `RunUpdate` up to the download: pick the release (the requested one,
      or the latest), stop when no target was named, the build is not a
      development build and the versions agree, otherwise download the
      first asset named for this platform, failing when there is none or its
      address is empty. */
  function PlanUpdate(current: string, target: string, fetched: Option<seq<Release>>, goos: string, goarch: string)
    : (p: Plan)
    ensures fetched.None? ==> p == Failed(FetchFailed)
    ensures fetched.Some? && target == "" && LatestRelease(fetched.value).None? ==> p == Failed(NoAgentRelease)
    ensures fetched.Some? && target != "" && ReleaseByVersion(fetched.value, target).None? ==>
      p == Failed(VersionNotFound(target))
    ensures p.UpToDate? ==>
      target == "" && current != "dev" && fetched.Some? && LatestRelease(fetched.value).Some?
      && Normalize(current) == TagVersion(fetched.value[LatestRelease(fetched.value).value])
    ensures p.Download? ==>
      fetched.Some? && p.url != ""
      && var i := if target == "" then LatestRelease(fetched.value) else ReleaseByVersion(fetched.value, target);
         i.Some? && p.version == TagVersion(fetched.value[i.value])
         && p.url == AssetUrl(fetched.value[i.value].assets, BinaryFileName(goos, goarch))
    ensures fetched.Some? ==>
      var i := if target == "" then LatestRelease(fetched.value) else ReleaseByVersion(fetched.value, target);
      i.Some? ==>
        var rel := fetched.value[i.value];
        (p.UpToDate? <==> target == "" && current != "dev" && Normalize(current) == TagVersion(rel))
        && (!p.UpToDate? && AssetUrl(rel.assets, BinaryFileName(goos, goarch)) == "" ==>
              p == Failed(NoBinary(goos, goarch)))
        && (!p.UpToDate? && AssetUrl(rel.assets, BinaryFileName(goos, goarch)) != "" ==> p.Download?)
  {
    match fetched
    case None => Failed(FetchFailed)
    case Some(rs) =>
      var found := if target == "" then LatestRelease(rs) else ReleaseByVersion(rs, target);
      if found.None? then
        if target == "" then Failed(NoAgentRelease) else Failed(VersionNotFound(target))
      else
        var release := rs[found.value];
        var latest := TagVersion(release);
        if target == "" && current != "dev" && Normalize(current) == latest then UpToDate
        else
          var url := AssetUrl(release.assets, BinaryFileName(goos, goarch));
          if url == "" then Failed(NoBinary(goos, goarch)) else Download(url, latest)
  }

  /** A development build, or an explicitly named target, always proceeds
      past the version comparison. */
  lemma DevOrTargetNeverUpToDate(current: string, target: string, fetched: Option<seq<Release>>,
                                 goos: string, goarch: string)
    requires current == "dev" || target != ""
    ensures !PlanUpdate(current, target, fetched, goos, goarch).UpToDate?
  {
  }

  /** The running version "v1.2.0" is up to date with the release tagged
      "agent-v1.2.0" when it is the latest. */
  lemma SameVersionIsUpToDate(rs: seq<Release>, v: string, goos: string, goarch: string)
    requires v != "dev" && !StartsWith(v, "v")
    requires LatestRelease(rs).Some? && TagVersion(rs[LatestRelease(rs).value]) == v
    ensures PlanUpdate("v" + v, "", Some(rs), goos, goarch) == UpToDate
    ensures PlanUpdate(v, "", Some(rs), goos, goarch) == UpToDate
  {
    assert ("v" + v)[..1] == "v";
    assert Normalize("v" + v) == v;
    assert Normalize(v) == v;
    assert "v" + v != "dev" by {
      if |v| == 2 {
        assert ("v" + v)[0] != "dev"[0];
      }
    }
  }
}

=== FILE: agent_ws_client.dfy ===
/** The agent's WebSocket client (`agent/websocket/client.go`): the URL it
    dials, the dispatch of server messages, the interactive-shell state and
    the shaping of command results. Starting a pseudo-terminal and running a
    command are inputs (their outcome); the process, terminal and socket
    effects are recorded as a list of actions. */
module AgentClient {
  import opened Base
  import opened Text
  import AgentRegistry

  const AgentPath: string := "/api/ws/agent?agentId="

  datatype Client = Client(serverUrl: string, agentId: string)

  /** `NewClient`: at most one trailing '/' is removed. */
  function NewClient(serverUrl: string, agentId: string): (c: Client)
    ensures c.agentId == agentId
    ensures serverUrl == c.serverUrl || serverUrl == c.serverUrl + "/"
    ensures EndsWith(serverUrl, "/") <==> serverUrl == c.serverUrl + "/"
  {
    Client(TrimSuffix(serverUrl, "/"), agentId)
  }

  /** A doubled slash loses only one of its slashes. */
  lemma NewClientStripsOneSlash(base: string, agentId: string)
    ensures NewClient(base + "//", agentId).serverUrl == base + "/"
  {
    assert (base + "//")[..|base| + 1] == base + "/";
  }

  /** `Connect`'s address: the first "http://" becomes "ws://", then the
      agent endpoint and id are appended. */
  function WsUrl(c: Client): (url: string)
    ensures EndsWith(url, AgentPath + c.agentId)
    ensures !Contains(c.serverUrl, "http://") ==> url == c.serverUrl + AgentPath + c.agentId
  {
    var head := ReplaceFirst(c.serverUrl, "http://", "ws://");
    var tail := AgentPath + c.agentId;
    EndsWithAppend(head, tail);
    assert head + AgentPath + c.agentId == head + tail;
    assert !Contains(c.serverUrl, "http://") ==> head == c.serverUrl;
    head + tail
  }

  /** A plain-HTTP server becomes a `ws://` address for the same host. */
  lemma HttpServerUrl(rest: string, agentId: string)
    requires |rest| > 0 && rest[|rest| - 1] != '/'
    ensures WsUrl(NewClient("http://" + rest, agentId)) == "ws://" + rest + AgentPath + agentId
  {
    var s := "http://" + rest;
    assert s[|s| - 1] == rest[|rest| - 1];
    assert TrimSuffix(s, "/") == s;
    assert s[..7] == "http://";
    assert OccursAt(s, "http://", 0);
    assert IndexOf(s, "http://") == Some(0);
    assert s[7..] == rest;
  }

  // ---------------------------------------------------------------------------
  // Dispatch

  /** A decoded server message; absent numbers decode as 0. */
  datatype Message = Message(kind: string, data: string, cols: int, rows: int)

  datatype Handler =
    | RunCommand(command: string)
    | StartShell(cols: int, rows: int)
    | ShellInput(data: string)
    | ShellResize(cols: int, rows: int)
    | StopShell
    | Ignore

  /** `listen`'s switch. */
  function Dispatch(m: Message): (h: Handler)
    ensures h.Ignore? <==> m.kind !in {"command", "shell_start", "shell_input", "shell_resize", "shell_stop"}
    ensures h.RunCommand? ==> h.command == m.data
    ensures h.ShellInput? ==> h.data == m.data
    ensures h.StartShell? || h.ShellResize? ==> h.cols == m.cols && h.rows == m.rows
  {
    match m.kind
    case "command" => RunCommand(m.data)
    case "shell_start" => StartShell(m.cols, m.rows)
    case "shell_input" => ShellInput(m.data)
    case "shell_resize" => ShellResize(m.cols, m.rows)
    case "shell_stop" => StopShell
    case _ => Ignore
  }

  // ---------------------------------------------------------------------------
  // The interactive shell

  /** `ptyFile != nil`, `ptyCmd != nil` and the `interactive` flag. */
  datatype Shell = Shell(terminal: bool, process: bool, interactive: bool)

  datatype Action =
    | SendOutput(data: string)
    | SendExit
    | WriteTerminal(data: string)
    | ResizeTerminal(cols: int, rows: int)
    | Terminate
    | CloseTerminal

  datatype Stepped = Stepped(shell: Shell, actions: seq<Action>)

  const StartErrorPrefix: string := "Error starting shell: "

  /** `startInteractiveShell`: a no-op while a terminal is open; a failed
      start reports the error to the server and leaves the state as it was;
      otherwise the shell runs and takes the initial size when both
      dimensions are positive. */
  function StartShellStep(s: Shell, cols: int, rows: int, startError: Option<string>): (r: Stepped)
    ensures s.terminal ==> r == Stepped(s, [])
    ensures !s.terminal && startError.Some? ==>
      r.shell == s && |r.actions| == 1 && r.actions[0].SendOutput?
      && StartsWith(r.actions[0].data, StartErrorPrefix)
    ensures !s.terminal && startError.None? ==>
      r.shell == Shell(true, true, true)
      && r.actions == (if cols > 0 && rows > 0 then [ResizeTerminal(cols, rows)] else [])
  {
    if s.terminal then Stepped(s, [])
    else if startError.Some? then Stepped(s, [SendOutput(StartErrorPrefix + startError.value + "\r\n")])
    else Stepped(Shell(true, true, true), if cols > 0 && rows > 0 then [ResizeTerminal(cols, rows)] else [])
  }

  /** `handleShellInput`: dropped when no terminal is open. */
  function InputStep(s: Shell, data: string): (r: Stepped)
    ensures r.shell == s
    ensures r.actions == if s.terminal then [WriteTerminal(data)] else []
  {
    Stepped(s, if s.terminal then [WriteTerminal(data)] else [])
  }

  /** `handleShellResize`: dropped when no terminal is open. */
  function ResizeStep(s: Shell, cols: int, rows: int): (r: Stepped)
    ensures r.shell == s
    ensures r.actions == if s.terminal then [ResizeTerminal(cols, rows)] else []
  {
    Stepped(s, if s.terminal then [ResizeTerminal(cols, rows)] else [])
  }

  /** `stopInteractiveShell`: the process (if any) is signalled and the
      terminal (if any) closed; the process handle itself is left for the
      exit watcher to clear. */
  function StopStep(s: Shell): (r: Stepped)
    ensures !r.shell.terminal && !r.shell.interactive && r.shell.process == s.process
    ensures Terminate in r.actions <==> s.process
    ensures CloseTerminal in r.actions <==> s.terminal
  {
    Stepped(Shell(false, s.process, false),
            (if s.process then [Terminate] else []) + (if s.terminal then [CloseTerminal] else []))
  }

  /** The exit watcher: once the shell process ends everything is cleared and
      the server is told. */
  function ExitedStep(s: Shell): (r: Stepped)
    ensures !r.shell.terminal && !r.shell.process && !r.shell.interactive
    ensures r.actions == [SendExit]
  {
    Stepped(Shell(false, false, false), [SendExit])
  }

  /** The output reader: a failed read of the terminal, end of file included,
      also tells the server the shell exited. It happens whenever the shell
      ends and whenever a stop closes the terminal, so the server hears of
      every exit twice. */
  function ReaderEndedStep(s: Shell): (r: Stepped)
    ensures r.shell == s
    ensures r.actions == [SendExit]
  {
    Stepped(s, [SendExit])
  }

  /** A shell that ends by itself: the reader sees end of file and the
      waiter sees the process exit, each sending `shell_exit`. */
  lemma ShellEndReportsExitTwice(s: Shell)
    ensures var read := ReaderEndedStep(s);
      var exited := ExitedStep(read.shell);
      multiset(read.actions + exited.actions)[SendExit] == 2
      && exited.shell == Shell(false, false, false)
  {
  }

  /** A stop of a running shell: the process is signalled and the terminal
      closed, which ends the reader, and then the process exits; two
      `shell_exit` frames reach the server. */
  lemma StoppedShellReportsExitTwice(s: Shell)
    requires s.terminal && s.process
    ensures var stopped := StopStep(s);
      var read := ReaderEndedStep(stopped.shell);
      var exited := ExitedStep(read.shell);
      stopped.actions + read.actions + exited.actions == [Terminate, CloseTerminal, SendExit, SendExit]
      && exited.shell == Shell(false, false, false)
  {
  }

  /** Once the shell has exited, input is dropped and a new start runs. */
  lemma AfterExitInputDroppedAndStartRuns(s: Shell, data: string, cols: int, rows: int)
    ensures InputStep(ExitedStep(s).shell, data).actions == []
    ensures StartShellStep(ExitedStep(s).shell, cols, rows, None).shell.terminal
  {
  }

  /** Stopping twice is the same as stopping once, and the second stop acts
      only on a process that is still there. */
  lemma StopIsIdempotent(s: Shell)
    ensures StopStep(StopStep(s).shell).shell == StopStep(s).shell
    ensures CloseTerminal !in StopStep(StopStep(s).shell).actions
  {
  }

  /** After a stop a new shell may be started again. */
  lemma StopThenStartRuns(s: Shell, cols: int, rows: int)
    ensures StartShellStep(StopStep(s).shell, cols, rows, None).shell == Shell(true, true, true)
  {
  }

  /** A shell_start while a terminal is open changes nothing, however often
      it is sent. */
  lemma RunningShellIgnoresStart(s: Shell, cols: int, rows: int, startError: Option<string>)
    requires s.terminal
    ensures StartShellStep(s, cols, rows, startError) == Stepped(s, [])
  {
  }

  /** The frame the backend sends to a connected agent, as the agent decodes it. */
  function Decoded(m: AgentRegistry.ShellMessage): Message {
    Message(m.kind, m.data, m.cols, m.rows)
  }

  /** Input and resizes the backend forwards reach an open terminal
      unchanged, and nothing else happens. */
  lemma ShellFramesReachTerminal(r: AgentRegistry.Registry, id: AgentRegistry.AgentId, s: Shell,
                                 input: string, cols: int, rows: int, startError: Option<string>)
    requires AgentRegistry.IsConnected(r, id) && s.terminal
    ensures var sent := AgentRegistry.ShellInput(r, id, input, None).sent;
      sent.Some? && Receive(s, Decoded(sent.value), startError) == Stepped(s, [WriteTerminal(input)])
    ensures var sent := AgentRegistry.ResizeShell(r, id, cols, rows, None).sent;
      sent.Some? && Receive(s, Decoded(sent.value), startError) == Stepped(s, [ResizeTerminal(cols, rows)])
  {
  }

  /** One received message. */
  function Receive(s: Shell, m: Message, startError: Option<string>): (r: Stepped)
    ensures Dispatch(m).Ignore? || Dispatch(m).RunCommand? ==> r == Stepped(s, [])
    ensures m.kind == "shell_stop" ==> r == StopStep(s)
    ensures !s.terminal && (m.kind == "shell_input" || m.kind == "shell_resize") ==> r == Stepped(s, [])
  {
    match Dispatch(m)
    case RunCommand(_) => Stepped(s, [])
    case StartShell(cols, rows) => StartShellStep(s, cols, rows, startError)
    case ShellInput(data) => InputStep(s, data)
    case ShellResize(cols, rows) => ResizeStep(s, cols, rows)
    case StopShell => StopStep(s)
    case Ignore => Stepped(s, [])
  }

  // ---------------------------------------------------------------------------
  // Commands

  /** The argument vector: `cmd.exe /c` on Windows, else the command run
      through `sudo` by `/bin/sh -c`. */
  function CommandLine(command: string, windows: bool): (argv: seq<string>)
    ensures |argv| == 3
    ensures windows ==> argv[2] == command
    ensures !windows ==> argv[2] == "sudo " + command && argv[0] == "/bin/sh"
  {
    if windows then ["cmd.exe", "/c", command] else ["/bin/sh", "-c", "sudo " + command]
  }

  /** How running the command ended: normally, with a non-zero exit status,
      or with any other error (the command could not be started). The
      combined output is whatever was captured. */
  datatype Outcome =
    | Completed(output: string)
    | ExitFailure(output: string, exitCode: int, message: string)
    | OtherFailure(output: string, message: string)

  datatype CommandResult = CommandResult(kind: string, output: string, error: string, code: int)

  /** `handleCommand`'s result. */
  function ResultFor(o: Outcome): (r: CommandResult)
    ensures r.kind == "command_result" && r.output == o.output
    ensures o.Completed? ==> r.error == "" && r.code == 0
    ensures o.ExitFailure? ==> r.error == o.message && r.code == o.exitCode
    ensures o.OtherFailure? ==> r.error == o.message && r.code == 1
  {
    match o
    case Completed(out) => CommandResult("command_result", out, "", 0)
    case ExitFailure(out, code, msg) => CommandResult("command_result", out, msg, code)
    case OtherFailure(out, msg) => CommandResult("command_result", out, msg, 1)
  }

  /** The result as the backend decodes it: every field is present. */
  function AsFrame(r: CommandResult): AgentRegistry.AgentFrame {
    AgentRegistry.AgentFrame(Some(r.kind), Some(r.output), Some(r.error), Some(r.code))
  }

  /** End to end: the backend completes the agent's pending command with
      exactly the output, error and code the agent reported. */
  lemma ResultReachesWaitingCommand(reg: AgentRegistry.Registry, id: AgentRegistry.AgentId, o: Outcome)
    requires id in reg.pending
    ensures var h := AgentRegistry.HandleMessage(reg, Some(id), Some(AsFrame(ResultFor(o))));
      h.reaction.Completed?
      && h.reaction.result == AgentRegistry.CommandResult(o.output, ResultFor(o).error, ResultFor(o).code)
  {
  }

  /** A successful run is the only outcome with code 0 and no error, as long
      as a failed exit reports a non-zero code and every error a message. */
  lemma SuccessIsRecognisable(o: Outcome)
    requires o.ExitFailure? ==> o.exitCode != 0
    requires !o.Completed? ==> o.message != ""
    ensures ResultFor(o).code == 0 && ResultFor(o).error == "" <==> o.Completed?
  {
  }
}

=== FILE: base.dfy ===
/** Failure-carrying wrappers shared by every component of the model.
    `None` stands for a Java `null`, a Go zero value that the code tests for,
    or a JavaScript `undefined`/`null`. */
module Base {

  datatype Option<T> = None | Some(value: T) {
    /** The value, or `d` when absent (Java `x != null ? x : d`, JavaScript `x ?? d`). */
    function GetOr(d: T): T {
      match this
      case Some(v) => v
      case None => d
    }
  }

  /** A call that either returns a value or raises / returns an error. */
  datatype Result<T, E> = Ok(value: T) | Err(error: E)
}

=== FILE: client_keys.dfy ===
/** Client authentication keys (`ClientKey`, `ClientKeyServiceImpl`,
    `ClientKeyDto`): the keys an agent presents when it registers and pushes.
    Times are milliseconds; a day is 86 400 000 ms (`LocalDateTime` has no
    zone, so `plusDays` adds whole days exactly). */
module ClientKeys {
  import opened Base
  import opened Text

  const KeyPrefix: string := "hzn_"
  /** Random bytes per key. */
  const KeyBytes: nat := 32
  const DayMillis: int := 86400000

  datatype ClientKey = ClientKey(
    id: nat,
    userId: int,
    keyValue: string,
    name: string,
    description: Option<string>,
    enabled: bool,
    expiresAt: Option<int>,
    lastUsedAt: Option<int>,
    createdAt: int)

  type Keys = seq<ClientKey>

  /** `isExpired`: only a key with an expiry can expire, and only strictly after it. */
  predicate IsExpired(k: ClientKey, now: int) {
    k.expiresAt.Some? && now > k.expiresAt.value
  }

  /** `isValid`. */
  predicate IsValid(k: ClientKey, now: int) {
    k.enabled && !IsExpired(k, now)
  }

  /** A key is not yet expired at the very instant of its expiry. */
  lemma NotExpiredAtExpiry(k: ClientKey)
    requires k.expiresAt.Some?
    ensures !IsExpired(k, k.expiresAt.value)
    ensures forall now | now > k.expiresAt.value :: IsExpired(k, now)
  {
  }

  /** A disabled key is never valid, whatever its expiry. */
  lemma DisabledNeverValid(k: ClientKey, now: int)
    requires !k.enabled
    ensures !IsValid(k, now)
  {
  }

  /** The condition of the `findValidKey` query, apart from the value match:
      enabled, and no expiry or an expiry strictly after `now`. */
  predicate Accepted(k: ClientKey, now: int) {
    k.enabled && (k.expiresAt.None? || k.expiresAt.value > now)
  }

  /** The query agrees with the entity's own validity except at the instant
      of expiry, where the entity still calls the key valid and the query
      already rejects it. */
  lemma AcceptedIsValidOffExpiry(k: ClientKey, now: int)
    ensures Accepted(k, now) <==> IsValid(k, now) && k.expiresAt != Some(now)
    ensures Accepted(k, now) ==> IsValid(k, now)
  {
  }

  /** `validateKey`: the key with that value, if it is currently valid. An
      absent key value matches nothing. */
  function FindValid(keys: Keys, value: Option<string>, now: int): (r: Option<ClientKey>)
    ensures r.Some? ==> value.Some? && r.value in keys && r.value.keyValue == value.value && Accepted(r.value, now)
    ensures r.None? ==> value.None? || forall k | k in keys && k.keyValue == value.value :: !Accepted(k, now)
  {
    if value.None? then None
    else if |keys| == 0 then None
    else if keys[0].keyValue == value.value && Accepted(keys[0], now) then Some(keys[0])
    else
      var r := FindValid(keys[1..], value, now);
      assert keys == [keys[0]] + keys[1..];
      r
  }

  /** `updateLastUsed`: every key with that value is stamped `now`. */
  function UpdateLastUsed(keys: Keys, value: Option<string>, now: int): (r: Keys)
    ensures |r| == |keys|
    ensures forall i | 0 <= i < |keys| ::
      r[i] == if value == Some(keys[i].keyValue) then keys[i].(lastUsedAt := Some(now)) else keys[i]
  {
    seq(|keys|, i requires 0 <= i < |keys| =>
      if value == Some(keys[i].keyValue) then keys[i].(lastUsedAt := Some(now)) else keys[i])
  }

  /** Stamping the last use never changes which key is valid. */
  lemma UpdateLastUsedKeepsValidity(keys: Keys, value: Option<string>, now: int, v: Option<string>, t: int)
    ensures FindValid(UpdateLastUsed(keys, value, now), v, t).None? <==> FindValid(keys, v, t).None?
  {
    var r := UpdateLastUsed(keys, value, now);
    assert forall i | 0 <= i < |keys| ::
      r[i].keyValue == keys[i].keyValue && r[i].enabled == keys[i].enabled && r[i].expiresAt == keys[i].expiresAt;
    if FindValid(keys, v, t).Some? {
      var k := FindValid(keys, v, t).value;
      var i :| 0 <= i < |keys| && keys[i] == k;
      assert r[i] in r && r[i].keyValue == v.value && Accepted(r[i], t);
    }
    if FindValid(r, v, t).Some? {
      var k := FindValid(r, v, t).value;
      var i :| 0 <= i < |r| && r[i] == k;
      assert keys[i] in keys && keys[i].keyValue == v.value && Accepted(keys[i], t);
    }
  }

  // ---------------------------------------------------------------------------
  // Creation

  /** Length of an unpadded base64 text (section 5 of RFC 4648) of `n` bytes. */
  function EncodedLength(n: nat): (len: nat)
    ensures 3 * len >= 4 * n && (n > 0 ==> 3 * (len - 1) < 4 * n)
  {
    (4 * n + 2) / 3
  }

  /** A generated key: the prefix and 43 encoded characters. */
  lemma GeneratedKeyLength(encoded: string)
    requires |encoded| == EncodedLength(KeyBytes)
    ensures |KeyPrefix + encoded| == 47 && StartsWith(KeyPrefix + encoded, KeyPrefix)
  {
  }

  predicate ValueInUse(keys: Keys, value: string) {
    exists k | k in keys :: k.keyValue == value
  }

  /** Every draw before the `i`-th gives a value already in use. */
  predicate UsedBefore(keys: Keys, draws: seq<string>, i: int) {
    0 <= i < |draws| && forall j | 0 <= j < i :: ValueInUse(keys, KeyPrefix + draws[j])
  }

  /** The first generated key value not already in use; `draws` are the
      successive encoded random texts. */
  function FirstUnused(keys: Keys, draws: seq<string>): (r: Option<string>)
    ensures r.Some? ==> !ValueInUse(keys, r.value)
    ensures r.Some? ==> exists i | UsedBefore(keys, draws, i) :: r.value == KeyPrefix + draws[i]
    ensures r.None? <==> forall i | 0 <= i < |draws| :: ValueInUse(keys, KeyPrefix + draws[i])
  {
    if |draws| == 0 then None
    else if !ValueInUse(keys, KeyPrefix + draws[0]) then
      assert UsedBefore(keys, draws, 0);
      Some(KeyPrefix + draws[0])
    else
      var r := FirstUnused(keys, draws[1..]);
      assert forall i | 1 <= i < |draws| :: draws[i] == draws[1..][i - 1];
      FirstAfterUsed(keys, draws, r.GetOr(""));
      r
  }

  /** A value first unused among the later draws is first unused among all
      of them when the first draw is in use. */
  lemma FirstAfterUsed(keys: Keys, draws: seq<string>, v: string)
    requires |draws| > 0 && ValueInUse(keys, KeyPrefix + draws[0])
    ensures (exists i | UsedBefore(keys, draws[1..], i) :: v == KeyPrefix + draws[1..][i])
        ==> exists i | UsedBefore(keys, draws, i) :: v == KeyPrefix + draws[i]
  {
    if exists i | UsedBefore(keys, draws[1..], i) :: v == KeyPrefix + draws[1..][i] {
      var i :| UsedBefore(keys, draws[1..], i) && v == KeyPrefix + draws[1..][i];
      assert v == KeyPrefix + draws[i + 1];
      assert forall j | 1 <= j < i + 1 :: draws[j] == draws[1..][j - 1];
      assert UsedBefore(keys, draws, i + 1);
    }
  }

  /** Conversely, an unused draw preceded only by used ones is the value
      chosen. */
  lemma {:induction false} FirstUnusedIsFirst(keys: Keys, draws: seq<string>, i: nat)
    requires i < |draws| && !ValueInUse(keys, KeyPrefix + draws[i])
    requires forall j | 0 <= j < i :: ValueInUse(keys, KeyPrefix + draws[j])
    ensures FirstUnused(keys, draws) == Some(KeyPrefix + draws[i])
  {
    if i > 0 {
      assert ValueInUse(keys, KeyPrefix + draws[0]);
      assert forall j | 0 <= j <= i - 1 :: draws[1..][j] == draws[j + 1];
      FirstUnusedIsFirst(keys, draws[1..], i - 1);
    }
  }

  datatype CreateKeyRequest = CreateKeyRequest(name: string, description: Option<string>, expiresInDays: Option<int>)

  datatype KeyError =
    | DuplicateKeyName
    | KeySpaceExhausted
    | KeyNotFound
    | NotOwner

  datatype Created = Created(keys: Keys, key: ClientKey)

  predicate NameTaken(keys: Keys, userId: int, name: string) {
    exists k | k in keys :: k.userId == userId && k.name == name
  }

  /** `createKey`: a name the user already uses fails; otherwise the key gets
      the first unused generated value, is enabled, and expires after the
      requested number of days only when that number is positive. */
  function CreateKey(keys: Keys, freshId: nat, userId: int, req: CreateKeyRequest, draws: seq<string>, now: int)
    : (r: Result<Created, KeyError>)
    ensures NameTaken(keys, userId, req.name) <==> r == Err(DuplicateKeyName)
    ensures r.Ok? ==> FirstUnused(keys, draws) == Some(r.value.key.keyValue)
    ensures r.Ok? ==>
      var k := r.value.key;
      r.value.keys == keys + [k]
      && k.id == freshId && k.userId == userId && k.name == req.name && k.description == req.description
      && k.enabled && k.lastUsedAt.None? && k.createdAt == now
      && StartsWith(k.keyValue, KeyPrefix) && !ValueInUse(keys, k.keyValue)
      && (k.expiresAt.Some? <==> req.expiresInDays.Some? && req.expiresInDays.value > 0)
      && (k.expiresAt.Some? ==> k.expiresAt.value == now + req.expiresInDays.value * DayMillis)
    ensures r.Err? && r.error == KeySpaceExhausted <==>
      !NameTaken(keys, userId, req.name) && FirstUnused(keys, draws).None?
  {
    if NameTaken(keys, userId, req.name) then Err(DuplicateKeyName)
    else
      match FirstUnused(keys, draws)
      case None => Err(KeySpaceExhausted)
      case Some(value) =>
        var expiresAt := if req.expiresInDays.Some? && req.expiresInDays.value > 0
                         then Some(now + req.expiresInDays.value * DayMillis) else None;
        var k := ClientKey(freshId, userId, value, req.name, req.description, true, expiresAt, None, now);
        Ok(Created(keys + [k], k))
  }

  /** Key values stay unique across creations. */
  predicate UniqueValues(keys: Keys) {
    forall i, j | 0 <= i < j < |keys| :: keys[i].keyValue != keys[j].keyValue
  }

  lemma CreateKeepsValuesUnique(keys: Keys, freshId: nat, userId: int, req: CreateKeyRequest,
                                draws: seq<string>, now: int)
    requires UniqueValues(keys)
    requires CreateKey(keys, freshId, userId, req, draws, now).Ok?
    ensures UniqueValues(CreateKey(keys, freshId, userId, req, draws, now).value.keys)
  {
    var c := CreateKey(keys, freshId, userId, req, draws, now).value;
    forall i, j | 0 <= i < j < |c.keys| ensures c.keys[i].keyValue != c.keys[j].keyValue {
      if j == |keys| {
        assert c.keys[i] in keys;
      }
    }
  }

  /** A freshly created key is valid until it expires. */
  lemma CreatedKeyIsValid(keys: Keys, freshId: nat, userId: int, req: CreateKeyRequest,
                          draws: seq<string>, now: int, t: int)
    requires CreateKey(keys, freshId, userId, req, draws, now).Ok?
    requires var k := CreateKey(keys, freshId, userId, req, draws, now).value.key;
      k.expiresAt.None? || t < k.expiresAt.value
    ensures var c := CreateKey(keys, freshId, userId, req, draws, now).value;
      FindValid(c.keys, Some(c.key.keyValue), t).Some?
  {
    var c := CreateKey(keys, freshId, userId, req, draws, now).value;
    assert c.keys[|keys|] == c.key;
  }

  // ---------------------------------------------------------------------------
  // Revocation and deletion

  function FindKey(keys: Keys, id: nat): (r: Option<ClientKey>)
    ensures r.Some? ==> r.value in keys && r.value.id == id
    ensures r.None? ==> forall k | k in keys :: k.id != id
  {
    if |keys| == 0 then None
    else if keys[0].id == id then Some(keys[0])
    else
      var r := FindKey(keys[1..], id);
      assert keys == [keys[0]] + keys[1..];
      r
  }

  /** The existence and ownership checks shared by revoke and delete. */
  function OwnedKey(keys: Keys, userId: int, keyId: nat): (r: Result<ClientKey, KeyError>)
    ensures r.Ok? <==> FindKey(keys, keyId).Some? && FindKey(keys, keyId).value.userId == userId
    ensures r.Ok? ==> r.value == FindKey(keys, keyId).value
    ensures r.Err? ==> r.error == (if FindKey(keys, keyId).None? then KeyNotFound else NotOwner)
  {
    match FindKey(keys, keyId)
    case None => Err(KeyNotFound)
    case Some(k) => if k.userId != userId then Err(NotOwner) else Ok(k)
  }

  /** `revokeKey`: only the key's enabled flag changes, to false. */
  function RevokeKey(keys: Keys, userId: int, keyId: nat): (r: Result<Keys, KeyError>)
    ensures r.Err? <==> OwnedKey(keys, userId, keyId).Err?
    ensures r.Err? ==> r.error == OwnedKey(keys, userId, keyId).error
    ensures r.Ok? ==> |r.value| == |keys|
    ensures r.Ok? ==> forall i | 0 <= i < |keys| ::
      r.value[i] == if keys[i].id == keyId then keys[i].(enabled := false) else keys[i]
  {
    match OwnedKey(keys, userId, keyId)
    case Err(e) => Err(e)
    case Ok(_) =>
      Ok(seq(|keys|, i requires 0 <= i < |keys| =>
        if keys[i].id == keyId then keys[i].(enabled := false) else keys[i]))
  }

  /** A revoked key is no longer accepted. */
  lemma RevokedKeyRejected(keys: Keys, userId: int, keyId: nat, now: int)
    requires UniqueValues(keys)
    requires RevokeKey(keys, userId, keyId).Ok?
    ensures FindValid(RevokeKey(keys, userId, keyId).value, Some(FindKey(keys, keyId).value.keyValue), now).None?
  {
    var k := FindKey(keys, keyId).value;
    var r := RevokeKey(keys, userId, keyId).value;
    forall c | c in r && c.keyValue == k.keyValue ensures !Accepted(c, now) {
      var i :| 0 <= i < |r| && r[i] == c;
      var m :| 0 <= m < |keys| && keys[m] == k;
      assert keys[i].keyValue == keys[m].keyValue;
      assert i == m;
    }
  }

  /** `deleteKey`: the same checks, then the key is removed. */
  function DeleteKey(keys: Keys, userId: int, keyId: nat): (r: Result<Keys, KeyError>)
    ensures r.Err? <==> OwnedKey(keys, userId, keyId).Err?
    ensures r.Err? ==> r.error == OwnedKey(keys, userId, keyId).error
    ensures r.Ok? ==> forall k :: k in r.value <==> k in keys && k.id != keyId
  {
    match OwnedKey(keys, userId, keyId)
    case Err(e) => Err(e)
    case Ok(_) => Ok(RemoveKey(keys, keyId))
  }

  function RemoveKey(keys: Keys, keyId: nat): (r: Keys)
    ensures forall k :: k in r <==> k in keys && k.id != keyId
  {
    if |keys| == 0 then []
    else
      assert keys == [keys[0]] + keys[1..];
      (if keys[0].id == keyId then [] else [keys[0]]) + RemoveKey(keys[1..], keyId)
  }

  // ---------------------------------------------------------------------------
  // The listing view

  const MaskedShort: string := "****"

  /** `maskKey`: the first 8 and the last 4 characters around "...". */
  function MaskKey(value: Option<string>): (m: string)
    ensures value.None? || |value.value| < 8 ==> m == MaskedShort
    ensures value.Some? && |value.value| >= 8 ==>
      |m| == 15 && m[..8] == value.value[..8] && m[8..11] == "..." && m[11..] == value.value[|value.value| - 4..]
  {
    if value.None? || |value.value| < 8 then MaskedShort
    else
      var k := value.value;
      k[..8] + "..." + k[|k| - 4..]
  }

  /** For keys of 8 to 11 characters the two visible windows overlap, so the
      mask shows some characters twice. */
  lemma ShortKeyMaskOverlaps(k: string)
    requires 8 <= |k| < 12
    ensures MaskKey(Some(k))[7] == MaskKey(Some(k))[11 + (7 - (|k| - 4))]
  {
  }

  /** Equal masks of keys of the same length mean equal first eight and last
      four characters. */
  lemma MaskDeterminesEnds(a: string, b: string)
    requires |a| == |b| >= 8 && MaskKey(Some(a)) == MaskKey(Some(b))
    ensures a[..8] == b[..8] && a[|a| - 4..] == b[|b| - 4..]
  {
    assert MaskKey(Some(a))[..8] == MaskKey(Some(b))[..8];
    assert MaskKey(Some(a))[11..] == MaskKey(Some(b))[11..];
  }

  datatype KeyView = KeyView(
    id: nat,
    name: string,
    description: Option<string>,
    enabled: bool,
    expired: bool,
    expiresAt: Option<int>,
    lastUsedAt: Option<int>,
    createdAt: int,
    maskedKey: string)

  /** `ClientKeyDto.from` at time `now`. */
  function ViewOf(k: ClientKey, now: int): (v: KeyView)
    ensures v.enabled == k.enabled && v.expired == IsExpired(k, now)
    ensures v.id == k.id && v.name == k.name && v.description == k.description
    ensures v.expiresAt == k.expiresAt && v.lastUsedAt == k.lastUsedAt && v.createdAt == k.createdAt
    ensures v.maskedKey == MaskKey(Some(k.keyValue))
  {
    KeyView(k.id, k.name, k.description, k.enabled, IsExpired(k, now), k.expiresAt, k.lastUsedAt,
            k.createdAt, MaskKey(Some(k.keyValue)))
  }

  /** A key listed as enabled and not expired is the one `validateKey`
      accepts for its value, except at the instant of its expiry. */
  lemma ViewAgreesWithValidation(keys: Keys, i: nat, now: int)
    requires UniqueValues(keys) && i < |keys|
    ensures var v := ViewOf(keys[i], now);
      (v.enabled && !v.expired && keys[i].expiresAt != Some(now)) <==> FindValid(keys, Some(keys[i].keyValue), now) == Some(keys[i])
  {
    var r := FindValid(keys, Some(keys[i].keyValue), now);
    if r.Some? {
      var m :| 0 <= m < |keys| && keys[m] == r.value;
      assert keys[m].keyValue == keys[i].keyValue;
    }
  }
}

=== FILE: command_execution.dfy ===
/** `CommandExecutionService.executeCommand`: validates a one-shot command
    request, hands it to the agent registry and classifies the outcome onto
    the response's exit code. */
module CommandExecution {
  import opened Base
  import opened Text
  import opened AgentRegistry

  const CommandTimeoutSeconds: int := 30

  const ExecutionFailedPrefix: string := "Command execution failed: "

  datatype Response = Response(output: string, error: string, exitCode: int)

  /** The repository has no agent with this numeric id. */
  datatype NotFound = NotFound(id: int)

  datatype Execution = Execution(reg: Registry, response: Result<Response, NotFound>)

  /** The response for a registry failure: an `IOException` keeps its message,
      anything else is prefixed. */
  function FailureResponse(f: Failure): (resp: Response)
    ensures resp.exitCode == -1 && resp.output == ""
    ensures IsIOException(f) ==> resp.error == FailureMessage(f)
    ensures !IsIOException(f) ==> resp.error == ExecutionFailedPrefix + FailureMessage(f)
  {
    if IsIOException(f) then Response("", FailureMessage(f), -1)
    else Response("", ExecutionFailedPrefix + FailureMessage(f), -1)
  }

  /** Validation runs in order: command present and not blank, agent id a
      64-bit decimal, agent known, agent connected under the id exactly as
      given. Only then is the command sent and awaited. `known` is the set of
      ids in the agent repository. */
  function ExecuteCommand(r: Registry, known: set<int>, agentId: string, command: Option<string>,
                          slot: Slot, writeError: Option<string>, event: WaitEvent): (e: Execution)
    ensures command.None? || JavaTrim(command.value) == "" ==>
      e == Execution(r, Ok(Response("", "Command cannot be empty", 1)))
    ensures command.Some? && JavaTrim(command.value) != "" && ParseLong(agentId).None? ==>
      e == Execution(r, Ok(Response("", "Invalid agent ID", 1)))
    ensures e.response.Err? <==>
      command.Some? && JavaTrim(command.value) != ""
      && ParseLong(agentId).Some? && ParseLong(agentId).value !in known
    ensures e.response.Err? ==> e.reg == r && e.response.error == NotFound(ParseLong(agentId).value)
    ensures (command.Some? && JavaTrim(command.value) != "" && ParseLong(agentId).Some?
             && ParseLong(agentId).value in known && !IsConnected(r, agentId)) ==>
      e == Execution(r, Ok(Response("", "Agent is offline", 1)))
    ensures e.reg != r ==> agentId !in e.reg.pending
  {
    if command.None? || JavaTrim(command.value) == "" then
      Execution(r, Ok(Response("", "Command cannot be empty", 1)))
    else
      match ParseLong(agentId)
      case None => Execution(r, Ok(Response("", "Invalid agent ID", 1)))
      case Some(id) =>
        if id !in known then Execution(r, Err(NotFound(id)))
        else if !IsConnected(r, agentId) then Execution(r, Ok(Response("", "Agent is offline", 1)))
        else
          var c := SendCommandAndWait(r, agentId, slot, CommandTimeoutSeconds, writeError, event);
          match c.outcome
          case Ok(res) => Execution(c.reg, Ok(Response(res.output, res.error, res.exitCode)))
          case Err(f) => Execution(c.reg, Ok(FailureResponse(f)))
  }

  lemma TimeoutMessage()
    ensures FailureMessage(TimedOut(CommandTimeoutSeconds)) == "Command timeout after 30 seconds"
  {
    assert NatToString(30) == NatToString(3) + [DigitChar(0)];
  }

  /** A request that passes validation reaches the agent, and its response is
      exactly what the wait produced: the agent's reply unchanged, a timeout,
      a failed write, or the wrapped disconnect. */
  lemma ConnectedAgentOutcome(r: Registry, known: set<int>, agentId: string, cmd: string,
                              slot: Slot, writeError: Option<string>, event: WaitEvent)
    requires JavaTrim(cmd) != "" && ParseLong(agentId).Some? && ParseLong(agentId).value in known
    requires IsConnected(r, agentId)
    ensures var e := ExecuteCommand(r, known, agentId, Some(cmd), slot, writeError, event);
      e.response.Ok? && agentId !in e.reg.pending
      && (writeError.Some? ==> e.response.value == Response("", writeError.value, -1))
      && (writeError.None? ==>
          match event
          case Reply(o, err, k) => e.response.value == Response(o.GetOr(""), err.GetOr(""), k.GetOr(0))
          case Silence => e.response.value == Response("", "Command timeout after 30 seconds", -1)
          case AgentClosed =>
            e.response.value == Response("", ExecutionFailedPrefix + FailureMessage(Disconnected), -1))
  {
    var c := SendCommandAndWait(r, agentId, slot, CommandTimeoutSeconds, writeError, event);
    var e := ExecuteCommand(r, known, agentId, Some(cmd), slot, writeError, event);
    assert e.reg == c.reg && c.outcome.Ok? ==> e.response == Ok(Response(c.outcome.value.output, c.outcome.value.error, c.outcome.value.exitCode));
    assert c.outcome.Err? ==> e.response == Ok(FailureResponse(c.outcome.error));
    if writeError.None? && event.Silence? {
      TimeoutMessage();
    }

  }

  /** The connection check uses the id text as given, so a numeric id that is
      not in canonical form (a leading zero) finds its agent in the repository
      but reports it offline even while its session is open. */
  lemma LeadingZeroIdReportsOffline(r: Registry, cmd: string, slot: Slot, writeError: Option<string>,
                                    event: WaitEvent)
    requires JavaTrim(cmd) != ""
    requires IsConnected(r, "5") && "05" !in r.sessions
    ensures ParseLong("05") == Some(5)
    ensures ExecuteCommand(r, {5}, "05", Some(cmd), slot, writeError, event).response
            == Ok(Response("", "Agent is offline", 1))
  {
    LeadingZeroParses();
  }

  /** "05" is a well-formed number: 5. */
  lemma LeadingZeroParses()
    ensures ParseLong("05") == Some(5)
  {
    assert AllDigits("05");
    assert DigitsValue("05") == 10 * DigitsValue("0") + 5 by {
      assert "05"[..1] == "0";
    }
    assert DigitsValue("0") == 10 * DigitsValue("") + 0 by {
      assert "0"[..0] == "";
    }
  }
}

=== FILE: command_text.dfy ===
/** The dashboard's text for a command run on an agent
    (`frontend/src/api/command.ts`): how the backend's output, error and exit
    code become one string, and which message a failed request raises. The
    HTTP request is an input (its decoded response or its failure); an absent
    or null text field is modelled as the empty string, which JavaScript
    treats the same way. */
module CommandText {
  import opened Base
  import opened Text

  const FailedPrefix: string := "Command failed with exit code: "
  const SuccessText: string := "Command executed successfully"
  const FallbackError: string := "Failed to execute command"

  /** The output, then the error, separated by a newline only when both are
      present. */
  function Combine(output: string, error: string): (r: string)
    ensures r == "" <==> output == "" && error == ""
    ensures error == "" ==> r == output
    ensures output == "" ==> r == error
    ensures output != "" && error != "" ==> r == output + "\n" + error
  {
    var result := if output != "" then output else "";
    if error != "" then result + (if result != "" then "\n" else "") + error else result
  }

  /** The string `executeAgentCommand` resolves with: the combined text, or
      the exit code when there is none and the code is not 0, or the success
      message. */
  function CommandResultText(output: string, error: string, exitCode: int): (r: string)
    ensures r != ""
    ensures Combine(output, error) != "" ==> r == Combine(output, error)
    ensures Combine(output, error) == "" && exitCode != 0 ==> r == FailedPrefix + IntToString(exitCode)
    ensures Combine(output, error) == "" && exitCode == 0 ==> r == SuccessText
  {
    var result := Combine(output, error);
    var result := if exitCode != 0 && result == "" then FailedPrefix + IntToString(exitCode) else result;
    if result != "" then result else SuccessText
  }

  /** Single-line output and error are recovered by splitting at the
      newline. */
  lemma OutputAndErrorRecoverable(output: string, error: string, exitCode: int)
    requires output != "" && error != ""
    requires '\n' !in output && '\n' !in error
    ensures Split(CommandResultText(output, error, exitCode), '\n') == [output, error]
  {
    SplitAtFirst(output, '\n', error);
    SplitWithoutSeparator(error, '\n');
    assert output + "\n" + error == output + ['\n'] + error;
  }

  /** The exit code of a silent failure is recovered from the text. */
  lemma ExitCodeRecoverable(exitCode: int)
    requires exitCode != 0 && LongMin <= exitCode <= LongMax
    ensures var r := CommandResultText("", "", exitCode);
      StartsWith(r, FailedPrefix) && ParseLong(r[|FailedPrefix|..]) == Some(exitCode)
  {
    var r := CommandResultText("", "", exitCode);
    assert r[..|FailedPrefix|] == FailedPrefix;
    assert r[|FailedPrefix|..] == IntToString(exitCode);
    ParseLongRoundTrip(exitCode);
  }

  /** A silent failure never reads as a silent success. */
  lemma SilentOutcomesDistinct(exitCode: int)
    requires exitCode != 0
    ensures CommandResultText("", "", exitCode) != CommandResultText("", "", 0)
  {
    var r := CommandResultText("", "", exitCode);
    assert r[0] == 'C' && r[8] == 'f';
    assert SuccessText[8] == 'e';
  }

  /** How the request went: a response from the backend, an HTTP client
      error (with the body's `error` field, "" when absent, and the client's
      own message), or any other exception. */
  datatype Outcome =
    | Response(output: string, error: string, exitCode: int)
    | ClientError(bodyError: string, message: string)
    | OtherError(thrown: string)

  /** The message of the error raised for a client error: the body's error,
      else the client's message, else a fixed text. */
  function ClientErrorMessage(bodyError: string, message: string): (m: string)
    ensures m != ""
    ensures bodyError != "" ==> m == bodyError
    ensures bodyError == "" && message != "" ==> m == message
    ensures bodyError == "" && message == "" ==> m == FallbackError
  {
    if bodyError != "" then bodyError else if message != "" then message else FallbackError
  }

  /** `executeAgentCommand`: the text on a response, a raised message
      otherwise; other exceptions pass through unchanged. */
  function Execute(o: Outcome): (r: Result<string, string>)
    ensures r.Ok? <==> o.Response?
    ensures r.Ok? ==> r.value != ""
    ensures r.Err? ==> r.error != "" || o.OtherError?
    ensures o.OtherError? ==> r == Err(o.thrown)
    ensures o.Response? ==> r == Ok(CommandResultText(o.output, o.error, o.exitCode))
    ensures o.ClientError? ==> r == Err(ClientErrorMessage(o.bodyError, o.message))
  {
    match o
    case Response(out, err, code) => Ok(CommandResultText(out, err, code))
    case ClientError(bodyError, message) => Err(ClientErrorMessage(bodyError, message))
    case OtherError(thrown) => Err(thrown)
  }

  /** The backend's own error text, when it sends one, is what the user
      sees, whatever the client library says. */
  lemma BackendErrorWins(bodyError: string, m1: string, m2: string)
    requires bodyError != ""
    ensures Execute(ClientError(bodyError, m1)) == Execute(ClientError(bodyError, m2)) == Err(bodyError)
  {
  }
}

=== FILE: metrics_cache.dfy ===
/** `MetricsServiceImpl`: ingestion of one metrics reading into the history
    table and the realtime snapshot cache, and the realtime reads over that
    cache. The cache is a key-value store whose entries carry an expiry time;
    times are milliseconds. Percentages are integer hundredths of a percent
    computed exactly (the source rounds a double). */
module MetricsCache {
  import opened Base
  import opened Text
  import opened AgentEntity

  const KeyPrefix: string := "agent:metrics:"
  const TtlSeconds: int := 60
  const TtlMillis: int := 60000

  // ---------------------------------------------------------------------------
  // Percentage

  /** Unboxing an absent `used` while `total` is non-zero throws. */
  datatype NullValue = NullValue

  /** `calculatePercentage`: 0 for an absent or zero total; otherwise
      used / total * 100 rounded half-up (toward positive infinity on a tie)
      to two decimals, returned in hundredths. */
  function CalculatePercentage(used: Option<int>, total: Option<int>): (r: Result<int, NullValue>)
    ensures total.None? || total == Some(0) ==> r == Ok(0)
    ensures r.Err? <==> total.Some? && total.value != 0 && used.None?
    ensures r.Ok? && total.Some? && total.value > 0 ==>
      2 * total.value * r.value <= 20000 * used.value + total.value < 2 * total.value * (r.value + 1)
    ensures r.Ok? && total.Some? && total.value < 0 ==>
      2 * -total.value * r.value <= -20000 * used.value - total.value < 2 * -total.value * (r.value + 1)
  {
    if total.None? || total.value == 0 then Ok(0)
    else if used.None? then Err(NullValue)
    else
      var n := if total.value > 0 then used.value else -used.value;
      var d := if total.value > 0 then total.value else -total.value;
      Ok(FloorDiv(20000 * n + d, 2 * d))
  }

  /** floor(x / d) for a positive divisor, with the bounds that define it. */
  function FloorDiv(x: int, d: int): (q: int)
    requires d > 0
    ensures d * q <= x < d * (q + 1)
  {
    var q := x / d;
    assert x == d * q + x % d;
    assert d * (q + 1) == d * q + d;
    q
  }

  lemma QuarterUsage()
    ensures CalculatePercentage(Some(250), Some(1000)) == Ok(2500)
  {
  }

  /** A used amount between 0 and a positive total gives 0.00 to 100.00. */
  lemma PercentageBounds(used: int, total: int)
    requires 0 <= used <= total && total > 0
    ensures var r := CalculatePercentage(Some(used), Some(total));
      r.Ok? && 0 <= r.value <= 10000
  {
    var r := CalculatePercentage(Some(used), Some(total)).value;
    MulCancel(2 * total, 0, r + 1);
    assert 20000 * used + total <= 2 * total * 10001 - 1;
    MulCancel(2 * total, r, 10001);
  }

  lemma MulCancel(a: int, x: int, y: int)
    requires a > 0 && a * x < a * y
    ensures x < y
  {
  }

  // ---------------------------------------------------------------------------
  // Readings, snapshots and the history row

  /** A metrics reading as ingested. The two rates are filled by the push
      conversion but kept by neither store. */
  datatype Reading = Reading(
    cpuUsage: Option<real>,
    memoryTotal: Option<int>,
    memoryUsed: Option<int>,
    diskTotal: Option<int>,
    diskUsed: Option<int>,
    networkRxBytes: Option<int>,
    networkTxBytes: Option<int>,
    loadAverage1m: Option<real>,
    loadAverage5m: Option<real>,
    loadAverage15m: Option<real>,
    processCount: Option<int>,
    uptimeSeconds: Option<int>,
    networkRxRate: Option<real>,
    networkTxRate: Option<real>)

  /** The metric values a store keeps: the reading without its rates, and the
      two computed percentages. */
  datatype Usage = Usage(reading: Reading, memoryUsage: int, diskUsage: int)

  /** `RealtimeMetrics`; `values` is absent in an offline snapshot. */
  datatype Snapshot = Snapshot(
    agentId: nat,
    agentName: string,
    agentIp: Option<string>,
    online: bool,
    values: Option<Usage>,
    timestamp: int,
    lastHeartbeat: Option<int>)

  datatype HistoryRow = HistoryRow(agentId: nat, usage: Usage)

  /** `RealtimeMetrics.offline`: identity fields only, stamped `now`. */
  function Offline(a: Agent, now: int): (s: Snapshot)
    ensures !s.online && s.values.None? && s.lastHeartbeat.None?
    ensures s.agentId == a.id && s.agentName == a.name && s.agentIp == a.ip && s.timestamp == now
  {
    Snapshot(a.id, a.name, a.ip, false, None, now, None)
  }

  // ---------------------------------------------------------------------------
  // The cache

  /** A stored value: a snapshot, or text that does not deserialise. */
  datatype Stored = Valid(snapshot: Snapshot) | Unreadable

  datatype Entry = Entry(stored: Stored, expiresAt: int)

  type Cache = map<string, Entry>

  function CacheKey(id: nat): (k: string)
    ensures StartsWith(k, KeyPrefix)
  {
    KeyPrefix + NatToString(id)
  }

  /** Distinct agents never share a cache key. */
  lemma CacheKeyInjective(a: nat, b: nat)
    requires CacheKey(a) == CacheKey(b)
    ensures a == b
  {
    assert NatToString(a) == CacheKey(a)[|KeyPrefix|..];
    assert NatToString(b) == CacheKey(b)[|KeyPrefix|..];
    NatToStringInjective(a, b);
  }

  /** `GET` at time `now`: an entry is visible until its expiry. */
  function Lookup(c: Cache, id: nat, now: int): (r: Option<Stored>)
    ensures r.Some? <==> CacheKey(id) in c && now < c[CacheKey(id)].expiresAt
    ensures r.Some? ==> r.value == c[CacheKey(id)].stored
  {
    var k := CacheKey(id);
    if k in c && now < c[k].expiresAt then Some(c[k].stored) else None
  }

  /** What ingestion guarantees of every readable entry: it sits under its
      own agent's key, it was written online, and it expires one TTL after
      its heartbeat. */
  predicate Consistent(c: Cache) {
    forall k | k in c && c[k].stored.Valid? ::
      var s := c[k].stored.snapshot;
      k == CacheKey(s.agentId) && s.online && s.lastHeartbeat == Some(c[k].expiresAt - TtlMillis)
  }

  // ---------------------------------------------------------------------------
  // Ingestion

  datatype IngestError = AgentNotFound(id: nat) | NullField

  datatype Ingested = Ingested(cache: Cache, history: seq<HistoryRow>, snapshot: Snapshot)

  /** The stored values of a reading, or the unboxing failure. */
  function UsageOf(req: Reading): (r: Result<Usage, NullValue>)
    ensures r.Err? <==> CalculatePercentage(req.memoryUsed, req.memoryTotal).Err?
                        || CalculatePercentage(req.diskUsed, req.diskTotal).Err?
    ensures r.Ok? ==>
      r.value.reading == req.(networkRxRate := None, networkTxRate := None)
      && Ok(r.value.memoryUsage) == CalculatePercentage(req.memoryUsed, req.memoryTotal)
      && Ok(r.value.diskUsage) == CalculatePercentage(req.diskUsed, req.diskTotal)
  {
    match CalculatePercentage(req.memoryUsed, req.memoryTotal)
    case Err(e) => Err(e)
    case Ok(mem) =>
      match CalculatePercentage(req.diskUsed, req.diskTotal)
      case Err(e) => Err(e)
      case Ok(disk) => Ok(Usage(req.(networkRxRate := None, networkTxRate := None), mem, disk))
  }

  /** `saveMetricsInternal` for the stored row `a`: one history row, and an
      online snapshot with the same values stored under the agent's key for
      one TTL. */
  function SaveInternal(c: Cache, history: seq<HistoryRow>, a: Agent, req: Reading, now: int)
    : (r: Result<Ingested, IngestError>)
    ensures r.Err? <==> UsageOf(req).Err?
    ensures r.Err? ==> r.error == NullField
    ensures r.Ok? ==>
      var s := r.value.snapshot;
      s.online && s.timestamp == now && s.lastHeartbeat == Some(now)
      && s.agentId == a.id && s.agentName == a.name && s.agentIp == a.ip
      && s.values == Some(UsageOf(req).value)
      && r.value.history == history + [HistoryRow(a.id, s.values.value)]
      && r.value.cache == c[CacheKey(a.id) := Entry(Valid(s), now + TtlMillis)]
  {
    match UsageOf(req)
    case Err(_) => Err(NullField)
    case Ok(u) =>
      var s := Snapshot(a.id, a.name, a.ip, true, Some(u), now, Some(now));
      Ok(Ingested(c[CacheKey(a.id) := Entry(Valid(s), now + TtlMillis)],
                  history + [HistoryRow(a.id, u)], s))
  }

  /** `saveMetrics`: an unknown agent fails before anything is stored. */
  function SaveMetrics(t: Table, c: Cache, history: seq<HistoryRow>, agentId: nat, req: Reading, now: int)
    : (r: Result<Ingested, IngestError>)
    ensures !HasId(t, agentId) ==> r == Err(AgentNotFound(agentId))
    ensures HasId(t, agentId) ==> r == SaveInternal(c, history, FindById(t, agentId).value, req, now)
  {
    match FindById(t, agentId)
    case None => Err(AgentNotFound(agentId))
    case Some(a) => SaveInternal(c, history, a, req, now)
  }

  /** Ingestion keeps the cache consistent, and the history row and snapshot
      carry the same computed usage. */
  lemma SavePreservesConsistency(c: Cache, history: seq<HistoryRow>, a: Agent, req: Reading, now: int)
    requires Consistent(c)
    requires SaveInternal(c, history, a, req, now).Ok?
    ensures var i := SaveInternal(c, history, a, req, now).value;
      Consistent(i.cache) && i.history[|i.history| - 1].usage == i.snapshot.values.value
  {
  }

  // ---------------------------------------------------------------------------
  // Reads

  /** `getRealtimeMetrics`: a readable entry is returned as stored, with no
      staleness check; otherwise the agent's offline snapshot, or not found. */
  function GetRealtime(t: Table, c: Cache, id: nat, now: int): (r: Result<Snapshot, IngestError>)
    ensures Lookup(c, id, now).Some? && Lookup(c, id, now).value.Valid? ==>
      r == Ok(Lookup(c, id, now).value.snapshot)
    ensures !(Lookup(c, id, now).Some? && Lookup(c, id, now).value.Valid?) ==>
      (r.Err? <==> !HasId(t, id))
      && (r.Err? ==> r.error == AgentNotFound(id))
      && (r.Ok? ==> r.value == Offline(FindById(t, id).value, now))
  {
    match Lookup(c, id, now)
    case Some(Valid(s)) => Ok(s)
    case _ =>
      match FindById(t, id)
      case None => Err(AgentNotFound(id))
      case Some(a) => Ok(Offline(a, now))
  }

  /** Reading the cache right after an ingest returns the snapshot just stored. */
  lemma SaveThenGetRealtime(t: Table, c: Cache, history: seq<HistoryRow>, id: nat, m: Reading, now: int)
    requires SaveMetrics(t, c, history, id, m, now).Ok?
    ensures var saved := SaveMetrics(t, c, history, id, m, now).value;
      GetRealtime(t, saved.cache, id, now) == Ok(saved.snapshot) && saved.snapshot.agentId == id
  {
  }

  /** More than 60 whole seconds since the heartbeat; whole seconds are
      floored, as `Duration.getSeconds` does. */
  predicate Stale(hb: int, now: int) {
    (now - hb) / 1000 > TtlSeconds
  }

  /** Stale means at least 61 seconds have passed, to the millisecond. */
  lemma StaleIff(hb: int, now: int)
    ensures Stale(hb, now) <==> now - hb >= 61000
  {
    var q := (now - hb) / 1000;
    assert now - hb == 1000 * q + (now - hb) % 1000;
  }

  /** The report for one enabled agent in `getAllRealtimeMetrics`. */
  function Report(c: Cache, a: Agent, now: int): (s: Snapshot)
    ensures (Lookup(c, a.id, now).Some? && Lookup(c, a.id, now).value.Valid?) ==>
      var stored := Lookup(c, a.id, now).value.snapshot;
      s == stored.(online := s.online)
      && (s.online <==> stored.online && !(stored.lastHeartbeat.Some? && Stale(stored.lastHeartbeat.value, now)))
    ensures !(Lookup(c, a.id, now).Some? && Lookup(c, a.id, now).value.Valid?) ==> s == Offline(a, now)
  {
    match Lookup(c, a.id, now)
    case Some(Valid(s)) =>
      if s.lastHeartbeat.Some? && Stale(s.lastHeartbeat.value, now) then s.(online := false) else s
    case _ => Offline(a, now)
  }

  /** `getAllRealtimeMetrics`: one report per enabled agent, in repository order. */
  function GetAllRealtime(t: Table, c: Cache, now: int): (r: seq<Snapshot>)
    ensures |r| == |FindEnabled(t)|
    ensures forall i | 0 <= i < |r| :: r[i] == Report(c, FindEnabled(t)[i], now)
  {
    var agents := FindEnabled(t);
    seq(|agents|, i requires 0 <= i < |agents| => Report(c, agents[i], now))
  }

  /** Over a consistent cache every report is about its own agent, in the
      order of the enabled agents. */
  lemma AllRealtimeOnePerAgent(t: Table, c: Cache, now: int, i: nat)
    requires Consistent(c) && i < |FindEnabled(t)|
    ensures GetAllRealtime(t, c, now)[i].agentId == FindEnabled(t)[i].id
  {
    var a := FindEnabled(t)[i];
    var l := Lookup(c, a.id, now);
    if l.Some? && l.value.Valid? {
      CacheKeyInjective(l.value.snapshot.agentId, a.id);
    }
  }

  /** The 60-second rule never fires on a consistent cache: a visible entry
      expires one TTL after its heartbeat, before it can be 61 seconds old,
      so every readable entry is reported online. */
  lemma StaleBranchUnreachable(c: Cache, a: Agent, now: int)
    requires Consistent(c)
    requires Lookup(c, a.id, now).Some? && Lookup(c, a.id, now).value.Valid?
    ensures Report(c, a, now).online
  {
    var s := Lookup(c, a.id, now).value.snapshot;
    StaleIff(s.lastHeartbeat.value, now);
  }

  /** `deleteMetricsByAgentId`: that agent's history rows and cache key go;
      nothing else changes. No existence check is made. */
  function DeleteMetrics(c: Cache, history: seq<HistoryRow>, id: nat): (r: (Cache, seq<HistoryRow>))
    ensures r.0 == c - {CacheKey(id)}
    ensures forall h :: h in r.1 <==> h in history && h.agentId != id
  {
    (c - {CacheKey(id)}, DropAgentRows(history, id))
  }

  function DropAgentRows(history: seq<HistoryRow>, id: nat): (r: seq<HistoryRow>)
    ensures forall h :: h in r <==> h in history && h.agentId != id
  {
    if |history| == 0 then []
    else
      assert history == [history[0]] + history[1..];
      (if history[0].agentId == id then [] else [history[0]]) + DropAgentRows(history[1..], id)
  }

  /** Deleting one agent's metrics leaves every other agent's lookup as it was. */
  lemma DeleteKeepsOthers(c: Cache, history: seq<HistoryRow>, id: nat, other: nat, now: int)
    requires other != id
    ensures Lookup(DeleteMetrics(c, history, id).0, other, now) == Lookup(c, other, now)
    ensures Lookup(DeleteMetrics(c, history, id).0, id, now).None?
  {
    if CacheKey(other) == CacheKey(id) {
      CacheKeyInjective(other, id);
    }
  }
}

=== FILE: metrics_history.dfy ===
/** The dashboard's sliding metric history per agent
    (`frontend/src/hooks/useMetricsHistory.ts`). Snapshots from the stream
    are remembered as each agent's latest point; every timer tick appends
    the latest point of every agent to its history, which keeps at most
    `maxPoints` points. The clock is a parameter (`now`); the timer itself is
    the caller applying `Tick`. */
module MetricsHistory {
  import opened Base
  import MetricsStream

  const DefaultMaxPoints: int := 60

  /** One point of an agent's chart. */
  datatype Point = Point(
    timestamp: int,
    cpu: Option<real>,
    memory: Option<real>,
    disk: Option<real>,
    rxRate: Option<real>,
    txRate: Option<real>,
    temperature: Option<real>)

  datatype AgentHistory = AgentHistory(agentId: int, history: seq<Point>, maxPoints: int)

  /** The rendered histories and the latest point of each agent, which the
      next tick appends. */
  datatype State = State(histories: map<int, AgentHistory>, latest: map<int, Point>)

  const Empty: State := State(map[], map[])

  /** JavaScript's `a ?? b` on optional values. */
  function OrElse(a: Option<real>, b: Option<real>): (r: Option<real>)
    ensures a.Some? ==> r == a
    ensures a.None? ==> r == b
  {
    if a.Some? then a else b
  }

  /** The point kept for an online snapshot `m` at time `now`, given the
      latest points before it: the snapshot's figures, and each missing
      network rate taken from the agent's previous latest point. */
  predicate Stores(p: Point, m: MetricsStream.Snapshot, before: map<int, Point>, now: int) {
    p.timestamp == now
    && p.cpu == m.cpu && p.memory == m.memory && p.disk == m.disk && p.temperature == m.temperature
    && (m.rxRate.Some? ==> p.rxRate == m.rxRate)
    && (m.rxRate.None? ==> p.rxRate == if m.agentId in before then before[m.agentId].rxRate else None)
    && (m.txRate.Some? ==> p.txRate == m.txRate)
    && (m.txRate.None? ==> p.txRate == if m.agentId in before then before[m.agentId].txRate else None)
  }

  /** `addMetrics`: an offline snapshot is ignored; otherwise it becomes the
      agent's latest point, and a missing network rate falls back to that of
      the agent's previous latest point. The histories are untouched until
      the next tick. */
  function AddMetrics(s: State, m: MetricsStream.Snapshot, now: int): (r: State)
    ensures !m.online ==> r == s
    ensures r.histories == s.histories
    ensures m.online ==> r.latest.Keys == s.latest.Keys + {m.agentId}
    ensures forall id | id in s.latest && id != m.agentId :: id in r.latest && r.latest[id] == s.latest[id]
    ensures m.online ==> Stores(r.latest[m.agentId], m, s.latest, now)
  {
    if !m.online then s
    else
      var prev := if m.agentId in s.latest then Some(s.latest[m.agentId]) else None;
      var prevRx := if prev.Some? then prev.value.rxRate else None;
      var prevTx := if prev.Some? then prev.value.txRate else None;
      var p := Point(now, m.cpu, m.memory, m.disk, OrElse(m.rxRate, prevRx), OrElse(m.txRate, prevTx), m.temperature);
      s.(latest := s.latest[m.agentId := p])
  }

  /** A network rate once reported stays on the chart while later online
      snapshots of the same agent omit it. */
  lemma RateSticksUntilReplaced(s: State, m1: MetricsStream.Snapshot, m2: MetricsStream.Snapshot, t1: int, t2: int)
    requires m1.online && m2.online && m1.agentId == m2.agentId
    requires m1.rxRate.Some? && m2.rxRate.None?
    ensures AddMetrics(AddMetrics(s, m1, t1), m2, t2).latest[m2.agentId].rxRate == m1.rxRate
  {
  }

  /** `addMultipleMetrics`: the snapshots in order. Afterwards exactly the
      agents that had a latest point or are reported online in the batch
      have one. */
  function AddMultiple(s: State, ms: seq<MetricsStream.Snapshot>, now: int): (r: State)
    decreases |ms|
    ensures forall id :: id in r.latest <==> id in s.latest || Reports(ms, id)
  {
    if |ms| == 0 then s
    else
      var r := AddMultiple(AddMetrics(s, ms[0], now), ms[1..], now);
      assert forall j | 0 <= j < |ms| - 1 :: ms[1..][j] == ms[j + 1];
      assert forall id :: Reports(ms, id) <==> (ms[0].online && ms[0].agentId == id) || Reports(ms[1..], id);
      r
  }

  /** Adding a batch leaves the histories alone. */
  lemma {:induction false} AddMultipleKeepsHistories(s: State, ms: seq<MetricsStream.Snapshot>, now: int)
    decreases |ms|
    ensures AddMultiple(s, ms, now).histories == s.histories
  {
    if |ms| > 0 {
      AddMultipleKeepsHistories(AddMetrics(s, ms[0], now), ms[1..], now);
    }
  }

  /** Whether the batch holds an online snapshot of the agent. */
  predicate Reports(ms: seq<MetricsStream.Snapshot>, id: int) {
    exists k | 0 <= k < |ms| :: ms[k].online && ms[k].agentId == id
  }

  /** Agents the batch does not report keep their latest point. */
  lemma {:induction false} AddMultipleKeepsOthers(s: State, ms: seq<MetricsStream.Snapshot>, now: int, id: int)
    decreases |ms|
    requires id in s.latest && !Reports(ms, id)
    ensures id in AddMultiple(s, ms, now).latest && AddMultiple(s, ms, now).latest[id] == s.latest[id]
  {
    if |ms| > 0 {
      assert !(ms[0].online && ms[0].agentId == id);
      forall j | 0 <= j < |ms[1..]|
        ensures !(ms[1..][j].online && ms[1..][j].agentId == id)
      {
        assert ms[1..][j] == ms[j + 1];
      }
      AddMultipleKeepsOthers(AddMetrics(s, ms[0], now), ms[1..], now, id);
    }
  }

  /** The agent's last online snapshot in the batch is its latest point,
      with the rate fallback taken from the points the batch had built
      before it. */
  lemma {:induction false} AddMultipleLastWins(s: State, ms: seq<MetricsStream.Snapshot>, now: int, k: nat)
    decreases |ms|
    requires k < |ms| && ms[k].online && !Reports(ms[k + 1..], ms[k].agentId)
    ensures ms[k].agentId in AddMultiple(s, ms, now).latest
    ensures Stores(AddMultiple(s, ms, now).latest[ms[k].agentId], ms[k], AddMultiple(s, ms[..k], now).latest, now)
  {
    var s1 := AddMetrics(s, ms[0], now);
    assert AddMultiple(s, ms, now) == AddMultiple(s1, ms[1..], now);
    if k == 0 {
      assert ms[1..] == ms[k + 1..];
      assert ms[..k] == [];
      AddMultipleKeepsOthers(s1, ms[1..], now, ms[0].agentId);
    } else {
      assert ms[1..][k - 1] == ms[k];
      assert ms[1..][k - 1 + 1..] == ms[k + 1..];
      AddMultipleLastWins(s1, ms[1..], now, k - 1);
      var prefix := ms[..k];
      assert prefix[0] == ms[0] && prefix[1..] == ms[1..][..k - 1];
      assert AddMultiple(s, prefix, now) == AddMultiple(s1, ms[1..][..k - 1], now);
    }
  }

  /** One agent's history after a tick: the point is appended with the tick's
      time, and one point is dropped from the front when the history then
      holds more than `maxPoints`. An agent without a history starts one. */
  function Extend(existing: Option<AgentHistory>, agentId: int, p: Point, now: int, maxPoints: int)
    : (h: AgentHistory)
    ensures |h.history| > 0 ==> h.history[|h.history| - 1] == p.(timestamp := now)
    ensures existing.None? || |existing.value.history| > 0 || maxPoints >= 1 ==> |h.history| > 0
    ensures existing.None? ==> h == AgentHistory(agentId, [p.(timestamp := now)], maxPoints)
    ensures existing.Some? ==>
      h.agentId == existing.value.agentId && h.maxPoints == existing.value.maxPoints
      && var grown := existing.value.history + [p.(timestamp := now)];
         h.history == if |grown| > maxPoints then grown[1..] else grown
  {
    var point := p.(timestamp := now);
    match existing
    case None => AgentHistory(agentId, [point], maxPoints)
    case Some(e) =>
      var grown := e.history + [point];
      e.(history := if |grown| > maxPoints then grown[1..] else grown)
  }

  /** An agent's entry after a tick. */
  function TickEntry(s: State, id: int, now: int, maxPoints: int): (h: AgentHistory)
    requires id in s.histories || id in s.latest
    ensures id !in s.latest ==> h == s.histories[id]
    ensures id in s.latest && |h.history| > 0 ==> h.history[|h.history| - 1] == s.latest[id].(timestamp := now)
    ensures id in s.histories ==> h.agentId == s.histories[id].agentId && h.maxPoints == s.histories[id].maxPoints
    ensures id in s.latest && id !in s.histories ==> h.history == [s.latest[id].(timestamp := now)]
  {
    if id in s.latest
    then Extend(if id in s.histories then Some(s.histories[id]) else None, id, s.latest[id], now, maxPoints)
    else s.histories[id]
  }

  /** The timer's tick: with no latest point nothing changes; otherwise
      every agent with a latest point has it appended to its history (which
      stays non-empty unless `maxPoints` is below one and the history was
      already empty). */
  function Tick(s: State, now: int, maxPoints: int): (r: State)
    ensures r.latest == s.latest
    ensures s.latest == map[] ==> r == s
    ensures r.histories.Keys == s.histories.Keys + s.latest.Keys
    ensures forall id | id in s.histories && id !in s.latest :: r.histories[id] == s.histories[id]
  {
    if s.latest == map[] then s
    else
      var ticked := map id | id in s.latest :: TickEntry(s, id, now, maxPoints);
      State(s.histories + ticked, s.latest)
  }

  /** The entry a tick leaves for an agent with a latest point. */
  lemma TickEntryOf(s: State, id: int, now: int, maxPoints: int)
    requires id in s.latest
    ensures id in Tick(s, now, maxPoints).histories
    ensures Tick(s, now, maxPoints).histories[id] == TickEntry(s, id, now, maxPoints)
  {
  }

  /** A tick with room left appends the agent's latest point. */
  lemma TickWithRoom(s: State, id: int, now: int, maxPoints: int)
    requires id in s.histories && id in s.latest
    requires |s.histories[id].history| + 1 <= maxPoints
    ensures id in Tick(s, now, maxPoints).histories
    ensures Tick(s, now, maxPoints).histories[id].history
            == s.histories[id].history + [s.latest[id].(timestamp := now)]
  {
    TickEntryOf(s, id, now, maxPoints);
  }

  /** A tick appends each agent's latest point, stamped with the tick's
      time, as the last point of its history. The history is non-empty
      afterwards unless `maxPoints` is below one and it was empty before. */
  lemma TickAppendsLatest(s: State, id: int, now: int, maxPoints: int)
    requires id in s.latest
    ensures var h := Tick(s, now, maxPoints).histories[id].history;
      (|h| > 0 ==> h[|h| - 1] == s.latest[id].(timestamp := now))
      && (maxPoints >= 1 || id !in s.histories || |s.histories[id].history| > 0 ==> |h| > 0)
  {
    TickEntryOf(s, id, now, maxPoints);
  }

  /** Every history holds at most `maxPoints` points, and one when
      `maxPoints` is below one. */
  ghost predicate Bounded(s: State, maxPoints: int) {
    forall id | id in s.histories :: |s.histories[id].history| <= if maxPoints < 1 then 1 else maxPoints
  }

  /** A tick keeps histories within bound: dropping a single point is enough
      because each tick appends only one. */
  lemma TickStaysBounded(s: State, now: int, maxPoints: int)
    requires Bounded(s, maxPoints)
    ensures Bounded(Tick(s, now, maxPoints), maxPoints)
  {
    var r := Tick(s, now, maxPoints);
    forall id | id in r.histories
      ensures |r.histories[id].history| <= if maxPoints < 1 then 1 else maxPoints
    {
      if id in s.latest && id in s.histories {
        assert |s.histories[id].history| <= if maxPoints < 1 then 1 else maxPoints;
      }
    }
  }

  /** A full history slides: the oldest point goes and the latest comes in,
      so its length stays at `maxPoints`. */
  lemma FullHistorySlides(s: State, id: int, now: int, maxPoints: int)
    requires id in s.histories && id in s.latest
    requires |s.histories[id].history| == maxPoints >= 1
    ensures Tick(s, now, maxPoints).histories[id].history
            == s.histories[id].history[1..] + [s.latest[id].(timestamp := now)]
  {
    var grown := s.histories[id].history + [s.latest[id].(timestamp := now)];
    assert grown[1..] == s.histories[id].history[1..] + [s.latest[id].(timestamp := now)];
  }

  /** Without a new snapshot each tick repeats the agent's last point: two
      ticks append it twice while there is room. */
  lemma TickRepeatsLatest(s: State, id: int, t1: int, t2: int, maxPoints: int)
    requires id in s.histories && id in s.latest
    requires |s.histories[id].history| + 2 <= maxPoints
    ensures Tick(Tick(s, t1, maxPoints), t2, maxPoints).histories[id].history
            == s.histories[id].history + [s.latest[id].(timestamp := t1), s.latest[id].(timestamp := t2)]
  {
    var s1 := Tick(s, t1, maxPoints);
    TickWithRoom(s, id, t1, maxPoints);
    assert s1.latest == s.latest;
    TickWithRoom(s1, id, t2, maxPoints);
  }

  /** `getHistory`: the agent's points, none for an unknown agent. */
  function GetHistory(s: State, agentId: int): (h: seq<Point>)
    ensures agentId !in s.histories ==> h == []
    ensures agentId in s.histories ==> h == s.histories[agentId].history
  {
    if agentId in s.histories then s.histories[agentId].history else []
  }

  /** A snapshot of an online agent is on its chart after the next tick:
      its figures, the rate fallback, and the tick's time. */
  lemma SnapshotShownAfterTick(s: State, m: MetricsStream.Snapshot, t: int, now: int, maxPoints: int)
    requires m.online && maxPoints >= 1
    ensures var h := GetHistory(Tick(AddMetrics(s, m, t), now, maxPoints), m.agentId);
            |h| > 0 && Stores(h[|h| - 1], m, s.latest, now)
  {
    var s1 := AddMetrics(s, m, t);
    TickAppendsLatest(s1, m.agentId, now, maxPoints);
    assert Stores(s1.latest[m.agentId], m, s.latest, t);
  }

  /** `clearHistory`: the agent's history and latest point are forgotten,
      so later ticks do not bring it back. */
  function ClearHistory(s: State, agentId: int): (r: State)
    ensures agentId !in r.histories && agentId !in r.latest
    ensures forall id | id != agentId :: (id in r.histories <==> id in s.histories)
                                        && (id in r.latest <==> id in s.latest)
    ensures forall id | id in r.histories :: r.histories[id] == s.histories[id]
    ensures forall id | id in r.latest :: r.latest[id] == s.latest[id]
  {
    State(s.histories - {agentId}, s.latest - {agentId})
  }

  /** A cleared agent stays off the charts until it reports again. */
  lemma ClearedStaysCleared(s: State, agentId: int, now: int, maxPoints: int)
    ensures GetHistory(Tick(ClearHistory(s, agentId), now, maxPoints), agentId) == []
  {
  }

  /** `clearAllHistories`. */
  function ClearAll(s: State): (r: State)
    ensures |r.histories| == 0 && |r.latest| == 0
    ensures forall id :: GetHistory(r, id) == []
  {
    Empty
  }

  /** After clearing everything, ticks change nothing. */
  lemma ClearedAllIsQuiet(s: State, now: int, maxPoints: int)
    ensures Tick(ClearAll(s), now, maxPoints) == ClearAll(s)
  {
  }
}

=== FILE: metrics_stream.dfy ===
/** The dashboard's live metrics stream (`frontend/src/hooks/useMetricsStream.ts`):
    the server-sent-events line parser, the handling of each event, and the
    reconnect backoff. The network reads are the sequence of text chunks the
    stream delivers; JSON decoding is an input (the decoded payload, or
    nothing when the data does not parse). */
module MetricsStream {
  import opened Base
  import opened Text

  // ---------------------------------------------------------------------------
  // Line parser

  datatype Event = Event(kind: string, data: string)

  /** The event being read: its type (default "message") and its data. */
  datatype Fields = Fields(eventType: string, eventData: string)

  const Fresh: Fields := Fields("message", "")

  /** One complete line. "event:" sets the type and "data:" replaces the data,
      both trimmed; a blank line dispatches the event when it has data and
      starts a fresh one; every other line is ignored. A second "data:" line
      replaces the first instead of being appended to it, unlike the
      server-sent events format of the WHATWG HTML standard (section 9.2.6). */
  function LineStep(f: Fields, line: string): (r: (Fields, seq<Event>))
    ensures StartsWith(line, "event:") ==> r == (f.(eventType := JsTrim(line[6..])), [])
    ensures !StartsWith(line, "event:") && StartsWith(line, "data:") ==>
      r == (f.(eventData := JsTrim(line[5..])), [])
    ensures r.1 != [] <==> line == "" && f.eventData != ""
    ensures r.1 != [] ==> r == (Fresh, [Event(f.eventType, f.eventData)])
    ensures r.1 == [] && !StartsWith(line, "event:") && !StartsWith(line, "data:") ==> r.0 == f
  {
    if StartsWith(line, "event:") then (f.(eventType := JsTrim(line[6..])), [])
    else if StartsWith(line, "data:") then (f.(eventData := JsTrim(line[5..])), [])
    else if line == "" && f.eventData != "" then (Fresh, [Event(f.eventType, f.eventData)])
    else (f, [])
  }

  /** A handler of one complete line. */
  type LineHandler = (Fields, string) -> (Fields, seq<Event>)

  /** A left fold of a line handler over lines, collecting the events. */
  function FoldLines(step: LineHandler, f: Fields, lines: seq<string>): (r: (Fields, seq<Event>))
    decreases |lines|
    ensures lines == [] ==> r == (f, [])
    ensures |lines| == 1 ==> r == step(f, lines[0])
  {
    if |lines| == 0 then (f, [])
    else
      var a := step(f, lines[0]);
      var b := FoldLines(step, a.0, lines[1..]);
      assert |lines| == 1 ==> a.1 + b.1 == a.1;
      (b.0, a.1 + b.1)
  }

  /** Two batches of lines in a row are one batch. */
  lemma {:induction false} FoldLinesAppend(step: LineHandler, f: Fields, xs: seq<string>, ys: seq<string>)
    decreases |xs|
    ensures var a := FoldLines(step, f, xs);
            var b := FoldLines(step, a.0, ys);
            FoldLines(step, f, xs + ys) == (b.0, a.1 + b.1)
  {
    if |xs| == 0 {
      assert xs + ys == ys;
      assert FoldLines(step, f, xs) == (f, []);
      assert [] + FoldLines(step, f, ys).1 == FoldLines(step, f, ys).1;
    } else {
      var first := step(f, xs[0]);
      assert (xs + ys)[0] == xs[0];
      assert (xs + ys)[1..] == xs[1..] + ys;
      FoldLinesAppend(step, first.0, xs[1..], ys);
      var tail := FoldLines(step, first.0, xs[1..]);
      var c := FoldLines(step, tail.0, ys);
      assert first.1 + (tail.1 + c.1) == (first.1 + tail.1) + c.1;
    }
  }

  /** The fold over one more line in front. */
  lemma FoldLinesCons(step: LineHandler, f: Fields, x: string, rest: seq<string>)
    ensures var a := step(f, x);
            var b := FoldLines(step, a.0, rest);
            FoldLines(step, f, [x] + rest) == (b.0, a.1 + b.1)
  {
    assert ([x] + rest)[0] == x;
    assert ([x] + rest)[1..] == rest;
  }

  lemma FoldLinesNil(step: LineHandler, f: Fields)
    ensures FoldLines(step, f, []) == (f, [])
  {
  }

  /** A blank line after data delivers the event. */
  lemma BlankLineDispatches(f: Fields)
    requires f.eventData != ""
    ensures FoldLines(LineStep, f, [""]) == (Fresh, [Event(f.eventType, f.eventData)])
  {
    var c := LineStep(f, "");
    assert c == (Fresh, [Event(f.eventType, f.eventData)]);
    FoldLinesCons(LineStep, f, "", []);
    assert [""] == [""] + [];
    FoldLinesNil(LineStep, c.0);
    assert c.1 + [] == c.1;
  }

  /** Every event `LineStep` dispatches carries data. */
  lemma {:induction false} DispatchedEventsHaveData(f: Fields, lines: seq<string>)
    decreases |lines|
    ensures forall e | e in FoldLines(LineStep, f, lines).1 :: e.data != ""
  {
    if |lines| > 0 {
      var a := LineStep(f, lines[0]);
      DispatchedEventsHaveData(a.0, lines[1..]);
      var b := FoldLines(LineStep, a.0, lines[1..]);
      assert FoldLines(LineStep, f, lines).1 == a.1 + b.1;
      assert forall e | e in a.1 :: e.data != "";
    }
  }

  /** What the reader keeps between reads: the unfinished last line and the
      fields of the event being read. */
  datatype Parser = Parser(buffer: string, fields: Fields)

  datatype Fed = Fed(parser: Parser, events: seq<Event>)

  /** The fields of a split buffer: every one but the last is a complete line
      and is handled; the last stays buffered. */
  function AfterLines(step: LineHandler, f: Fields, parts: seq<string>): Fed
    requires |parts| >= 1
  {
    var done := FoldLines(step, f, parts[..|parts| - 1]);
    Fed(Parser(parts[|parts| - 1], done.0), done.1)
  }

  /** `AfterLines` spelled out. */
  lemma AfterLinesUnfold(step: LineHandler, f: Fields, parts: seq<string>)
    requires |parts| >= 1
    ensures var done := FoldLines(step, f, parts[..|parts| - 1]);
      AfterLines(step, f, parts) == Fed(Parser(parts[|parts| - 1], done.0), done.1)
  {
  }

  /** Handling complete lines, then more text that ends in an unfinished
      line, is handling them all at once. */
  lemma AfterLinesAppend(step: LineHandler, f: Fields, xs: seq<string>, pb: seq<string>)
    requires |pb| >= 1
    ensures var r1 := FoldLines(step, f, xs);
            var r2 := AfterLines(step, r1.0, pb);
            AfterLines(step, f, xs + pb) == Fed(r2.parser, r1.1 + r2.events)
  {
    var whole := xs + pb;
    var init := pb[..|pb| - 1];
    var lines := whole[..|whole| - 1];
    assert lines == xs + init;
    assert whole[|whole| - 1] == pb[|pb| - 1];
    FoldLinesAppend(step, f, xs, init);
    var r1 := FoldLines(step, f, xs);
    var a := FoldLines(step, r1.0, init);
    var d := FoldLines(step, f, lines);
    assert d == (a.0, r1.1 + a.1);
    AfterLinesUnfold(step, f, whole);
    AfterLinesUnfold(step, r1.0, pb);
  }

  /** One read, with the event fields carried over to the next read: the
      chunk is appended to the buffer, every complete line is processed and
      the text after the last newline stays buffered. */
  function Feed(p: Parser, chunk: string): (r: Fed)
    ensures '\n' !in r.parser.buffer
  {
    AfterLines(LineStep, p.fields, Split(p.buffer + chunk, '\n'))
  }

  /** `Feed` spelled out. */
  lemma FeedUnfold(p: Parser, chunk: string)
    ensures Feed(p, chunk) == AfterLines(LineStep, p.fields, Split(p.buffer + chunk, '\n'))
  {
  }

  /** Text without a newline is only buffered. */
  lemma FeedWithoutNewline(p: Parser, chunk: string)
    requires '\n' !in p.buffer + chunk
    ensures Feed(p, chunk) == Fed(Parser(p.buffer + chunk, p.fields), [])
  {
    SplitWithoutSeparator(p.buffer + chunk, '\n');
  }

  /** The reading loop as written: the type and data are declared inside the
      loop, so every read starts a fresh event and only the buffer survives. */
  function ReadAsWritten(buffer: string, chunk: string): (r: (string, seq<Event>))
    ensures '\n' !in r.0
  {
    var lines := Split(buffer + chunk, '\n');
    var eventType := "message";
    var eventData := "";
    var done := FoldLines(LineStep, Fields(eventType, eventData), lines[..|lines| - 1]);
    (lines[|lines| - 1], done.1)
  }

  /** The code as written is the carrying parser restarted fresh at every read. */
  lemma AsWrittenRestartsEachRead(buffer: string, chunk: string)
    ensures ReadAsWritten(buffer, chunk) ==
      (Feed(Parser(buffer, Fresh), chunk).parser.buffer, Feed(Parser(buffer, Fresh), chunk).events)
  {
  }

  function Concat(chunks: seq<string>): string {
    if |chunks| == 0 then "" else chunks[0] + Concat(chunks[1..])
  }

  /** The whole stream, read by read, with the carrying parser. */
  function FeedAll(p: Parser, chunks: seq<string>): (r: Fed)
    decreases |chunks|
    ensures chunks == [] ==> r == Fed(p, [])
  {
    if |chunks| == 0 then Fed(p, [])
    else
      var first := Feed(p, chunks[0]);
      var rest := FeedAll(first.parser, chunks[1..]);
      Fed(rest.parser, first.events + rest.events)
  }

  /** The whole stream, read by read, as written. */
  function ReadAllAsWritten(buffer: string, chunks: seq<string>): (r: seq<Event>)
    decreases |chunks|
    ensures chunks == [] ==> r == []
    ensures |chunks| > 0 ==> ReadAsWritten(buffer, chunks[0]).1 <= r
  {
    if |chunks| == 0 then []
    else
      var first := ReadAsWritten(buffer, chunks[0]);
      first.1 + ReadAllAsWritten(first.0, chunks[1..])
  }

  /** Two reads in a row give what one read of both chunks gives. */
  lemma FeedAppend(p: Parser, a: string, b: string)
    ensures var r1 := Feed(p, a);
            var r2 := Feed(r1.parser, b);
            Feed(p, a + b) == Fed(r2.parser, r1.events + r2.events)
  {
    var pa := Split(p.buffer + a, '\n');
    var pb := Split(pa[|pa| - 1] + b, '\n');
    assert p.buffer + (a + b) == (p.buffer + a) + b;
    SplitAppend(p.buffer + a, b, '\n');
    var r1 := Feed(p, a);
    FeedUnfold(p, a);
    AfterLinesUnfold(LineStep, p.fields, pa);
    assert r1.parser == Parser(pa[|pa| - 1], FoldLines(LineStep, p.fields, pa[..|pa| - 1]).0);
    FeedUnfold(r1.parser, b);
    FeedUnfold(p, a + b);
    AfterLinesAppend(LineStep, p.fields, pa[..|pa| - 1], pb);
  }

  /** With the fields carried over, how the stream is cut into reads does not
      matter: the events are those of reading the whole text at once. */
  lemma {:induction false} ChunkingDoesNotMatter(p: Parser, chunks: seq<string>)
    decreases |chunks|
    requires '\n' !in p.buffer
    ensures FeedAll(p, chunks) == Feed(p, Concat(chunks))
  {
    if |chunks| == 0 {
      assert p.buffer + "" == p.buffer;
      FeedWithoutNewline(p, "");
    } else {
      var first := Feed(p, chunks[0]);
      ChunkingDoesNotMatter(first.parser, chunks[1..]);
      FeedAppend(p, chunks[0], Concat(chunks[1..]));
    }
  }

  /** The server's framing of one named event. */
  function Encode(e: Event): string {
    "event:" + e.kind + "\n" + "data:" + e.data + "\n\n"
  }

  function EncodeAll(es: seq<Event>): string {
    if |es| == 0 then "" else Encode(es[0]) + EncodeAll(es[1..])
  }

  /** An event the parser can carry unchanged: one line each, already
      trimmed, with data. */
  predicate Framable(e: Event) {
    '\n' !in e.kind && '\n' !in e.data && e.data != ""
    && JsTrim(e.kind) == e.kind && JsTrim(e.data) == e.data
  }

  lemma SplitEncoded(e: Event)
    requires '\n' !in e.kind && '\n' !in e.data
    ensures Split(Encode(e), '\n') == ["event:" + e.kind, "data:" + e.data, "", ""]
  {
    var parts := ["event:" + e.kind, "data:" + e.data, "", ""];
    assert Join(parts[2..], '\n') == "\n";
    assert Join(parts[1..], '\n') == "data:" + e.data + "\n\n";
    assert Join(parts, '\n') == Encode(e);
    SplitJoin(parts, '\n');
  }

  /** The two field lines of a framed event set its type and its data. */
  lemma FieldLinesSet(f: Fields, e: Event)
    requires Framable(e)
    ensures LineStep(f, "event:" + e.kind) == (f.(eventType := e.kind), [])
    ensures LineStep(f.(eventType := e.kind), "data:" + e.data) == (Fields(e.kind, e.data), [])
  {
    var l1, l2 := "event:" + e.kind, "data:" + e.data;
    assert l1[..6] == "event:" && l1[6..] == e.kind;
    assert l2[0] == 'd' && l2[..5] == "data:" && l2[5..] == e.data;
  }

  lemma FramedLinesAreParsed(f: Fields, e: Event)
    requires Framable(e)
    ensures FoldLines(LineStep, f, ["event:" + e.kind, "data:" + e.data, ""]) == (Fresh, [e])
  {
    var l1, l2 := "event:" + e.kind, "data:" + e.data;
    FieldLinesSet(f, e);
    var a := LineStep(f, l1);
    var b := LineStep(a.0, l2);
    BlankLineDispatches(b.0);
    var bb := FoldLines(LineStep, b.0, [""]);
    assert bb == (Fresh, [e]);
    assert b.1 + bb.1 == [e];
    FoldLinesCons(LineStep, a.0, l2, [""]);
    assert [l2, ""] == [l2] + [""];
    assert FoldLines(LineStep, a.0, [l2, ""]) == (Fresh, [e]);
    FoldLinesCons(LineStep, f, l1, [l2, ""]);
    assert [l1, l2, ""] == [l1] + [l2, ""];
  }

  /** One framed event read on a line boundary comes out as itself, and the
      parser is left fresh. */
  lemma EncodedEventIsParsed(f: Fields, e: Event)
    requires Framable(e)
    ensures Feed(Parser("", f), Encode(e)) == Fed(Parser("", Fresh), [e])
  {
    SplitEncoded(e);
    assert "" + Encode(e) == Encode(e);
    var parts := ["event:" + e.kind, "data:" + e.data, "", ""];
    assert parts[..3] == ["event:" + e.kind, "data:" + e.data, ""];
    FramedLinesAreParsed(f, e);
  }

  /** Decoding what the server encodes: a stream of framed events, cut into
      reads at any points, yields exactly those events. */
  lemma {:induction false} EncodedStreamIsParsed(es: seq<Event>)
    requires forall k | 0 <= k < |es| :: Framable(es[k])
    ensures Feed(Parser("", Fresh), EncodeAll(es)) == Fed(Parser("", Fresh), es)
  {
    if |es| == 0 {
      assert Split("", '\n') == [""];
    } else {
      EncodedEventIsParsed(Fresh, es[0]);
      EncodedStreamIsParsed(es[1..]);
      FeedAppend(Parser("", Fresh), Encode(es[0]), EncodeAll(es[1..]));
      assert [es[0]] + es[1..] == es;
    }
  }

  lemma ChunkedStreamIsParsed(es: seq<Event>, chunks: seq<string>)
    requires forall k | 0 <= k < |es| :: Framable(es[k])
    requires Concat(chunks) == EncodeAll(es)
    ensures FeedAll(Parser("", Fresh), chunks).events == es
  {
    ChunkingDoesNotMatter(Parser("", Fresh), chunks);
    EncodedStreamIsParsed(es);
  }

  /** A lone newline is two empty lines. */
  lemma SplitNewline()
    ensures Split("\n", '\n') == ["", ""]
  {
    assert Split("", '\n') == [""];
    SplitAtFirst("", '\n', "");
    assert "" + ['\n'] + "" == "\n";
  }

  /** A line and its newline. */
  lemma SplitLineNewline(line: string)
    requires '\n' !in line
    ensures Split(line + "\n", '\n') == [line, ""]
  {
    SplitAtFirst(line, '\n', "");
    assert line + ['\n'] + "" == line + "\n";
    assert Split("", '\n') == [""];
  }

  /** A line, its newline and a blank line. */
  lemma SplitLineBlank(line: string)
    requires '\n' !in line
    ensures Split(line + "\n\n", '\n') == [line, "", ""]
  {
    SplitAtFirst(line, '\n', "\n");
    assert line + ['\n'] + "\n" == line + "\n\n";
    SplitNewline();
  }

  /** How the example's reads split into lines, for a data line `line`. */
  lemma ExampleSplits(line: string)
    requires '\n' !in line
    ensures Split(line + "\n", '\n') == [line, ""]
    ensures Split(line + "\n\n", '\n') == [line, "", ""]
  {
    SplitLineNewline(line);
    SplitLineBlank(line);
  }

  /** A data line of the example sets the data and dispatches nothing. */
  lemma ExampleDataLine(d: string)
    ensures LineStep(Fresh, "data:" + d) == (Fields("message", JsTrim(d)), [])
    ensures FoldLines(LineStep, Fresh, ["data:" + d]) == (Fields("message", JsTrim(d)), [])
  {
    var line := "data:" + d;
    assert line[0] == 'd';
    assert !StartsWith(line, "event:") by {
      if |line| >= 6 {
        assert line[..6][0] == 'd';
      }
    }
    assert line[..5] == "data:" && line[5..] == d;
    var a := LineStep(Fresh, line);
    assert a == (Fields("message", JsTrim(d)), []);
    FoldLinesCons(LineStep, Fresh, line, []);
    FoldLinesNil(LineStep, a.0);
    assert [line] == [line] + [];
    var b := FoldLines(LineStep, a.0, []);
    assert a.1 + b.1 == [];
  }

  /** The lines of the example: a data line, then a blank line. */
  lemma ExampleLines(d: string)
    requires JsTrim(d) != ""
    ensures FoldLines(LineStep, Fresh, ["data:" + d, ""]) == (Fresh, [Event("message", JsTrim(d))])
  {
    var line := "data:" + d;
    ExampleDataLine(d);
    var a := LineStep(Fresh, line);
    BlankLineDispatches(Fields("message", JsTrim(d)));
    var b := FoldLines(LineStep, a.0, [""]);
    assert b == (Fresh, [Event("message", JsTrim(d))]);
    FoldLinesCons(LineStep, Fresh, line, [""]);
    assert [line, ""] == [line] + [""];
    assert a.1 + b.1 == [Event("message", JsTrim(d))];
  }

  /** One read as written, given how the buffered text splits into lines. */
  lemma ReadAsWrittenOfLines(buffer: string, chunk: string, lines: seq<string>)
    requires Split(buffer + chunk, '\n') == lines
    ensures ReadAsWritten(buffer, chunk) == (lines[|lines| - 1], FoldLines(LineStep, Fresh, lines[..|lines| - 1]).1)
  {
  }

  /** The data line, in a read of its own, is consumed without an event. */
  lemma ExampleFirstRead(d: string)
    requires '\n' !in d
    ensures ReadAsWritten("", "data:" + d + "\n") == ("", [])
  {
    var line := "data:" + d;
    assert '\n' !in line by {
      assert forall k | 0 <= k < |line| :: line[k] in "data:" || line[k] in d;
    }
    ExampleSplits(line);
    ExampleDataLine(d);
    assert "" + (line + "\n") == line + "\n";
    assert [line, ""][..1] == [line];
    ReadAsWrittenOfLines("", line + "\n", [line, ""]);
  }

  /** A blank line in a fresh read dispatches nothing. */
  lemma ExampleBlankRead()
    ensures ReadAsWritten("", "\n") == ("", [])
  {
    SplitNewline();
    var a := LineStep(Fresh, "");
    assert a == (Fresh, []);
    FoldLinesCons(LineStep, Fresh, "", []);
    FoldLinesNil(LineStep, Fresh);
    assert [""] == [""] + [];
    var b := FoldLines(LineStep, Fresh, []);
    assert a.1 + b.1 == [];
    assert FoldLines(LineStep, Fresh, [""]) == (Fresh, []);
    assert "" + "\n" == "\n";
    assert ["", ""][..1] == [""];
    ReadAsWrittenOfLines("", "\n", ["", ""]);
  }

  /** The data line and the blank line in one read deliver the event. */
  lemma ExampleWholeRead(d: string)
    requires '\n' !in d && JsTrim(d) != ""
    ensures ReadAsWritten("", "data:" + d + "\n\n") == ("", [Event("message", JsTrim(d))])
  {
    var line := "data:" + d;
    assert '\n' !in line by {
      assert forall k | 0 <= k < |line| :: line[k] in "data:" || line[k] in d;
    }
    ExampleSplits(line);
    ExampleLines(d);
    assert "" + (line + "\n\n") == line + "\n\n";
    assert [line, "", ""][..2] == [line, ""];
    ReadAsWrittenOfLines("", line + "\n\n", [line, "", ""]);
  }

  /** The failing input: the data line arrives in one read and the blank line
      ending the event in the next. Read as written the event is lost, while
      the same text in a single read delivers it. */
  lemma SplitEventLostAsWritten(d: string)
    requires '\n' !in d && JsTrim(d) != ""
    ensures ReadAllAsWritten("", ["data:" + d + "\n", "\n"]) == []
    ensures ReadAllAsWritten("", ["data:" + d + "\n\n"]) == [Event("message", JsTrim(d))]
  {
    ExampleFirstRead(d);
    ExampleBlankRead();
    ExampleWholeRead(d);
    assert ["data:" + d + "\n", "\n"][1..] == ["\n"];
    assert ReadAllAsWritten("", ["\n"]) == [];
  }

  /** With the fields carried over, the same two reads deliver the event. */
  lemma SplitEventDeliveredWhenCarried(d: string)
    requires '\n' !in d && JsTrim(d) != ""
    ensures FeedAll(Parser("", Fresh), ["data:" + d + "\n", "\n"]).events == [Event("message", JsTrim(d))]
  {
    var line := "data:" + d;
    assert '\n' !in line by {
      assert forall k | 0 <= k < |line| :: line[k] in "data:" || line[k] in d;
    }
    ExampleSplits(line);
    SplitNewline();
    ExampleDataLine(d);
    assert "" + (line + "\n") == line + "\n";
    assert [line, ""][..1] == [line];
    var r1 := Feed(Parser("", Fresh), line + "\n");
    assert r1 == Fed(Parser("", Fields("message", JsTrim(d))), []);
    assert "" + "\n" == "\n";
    assert ["", ""][..1] == [""];
    BlankLineDispatches(Fields("message", JsTrim(d)));
    var r2 := Feed(r1.parser, "\n");
    assert r2 == Fed(Parser("", Fresh), [Event("message", JsTrim(d))]);
    assert [line + "\n", "\n"][1..] == ["\n"];
    assert FeedAll(r1.parser, ["\n"]) == r2;
  }

  // ---------------------------------------------------------------------------
  // Events

  /** A realtime snapshot as the dashboard receives it: usage figures, rates
      and temperature are JavaScript numbers, idealised as reals, and absent
      values are `None`. */
  datatype Snapshot = Snapshot(
    agentId: int,
    online: bool,
    cpu: Option<real>,
    memory: Option<real>,
    disk: Option<real>,
    rxRate: Option<real>,
    txRate: Option<real>,
    temperature: Option<real>)

  /** The decoded data of an event: one snapshot or an array of them. */
  datatype Payload = One(snapshot: Snapshot) | Many(snapshots: seq<Snapshot>)

  function Ids(ms: seq<Snapshot>): set<int> {
    set m | m in ms :: m.agentId
  }

  /** The snapshots a payload carries, in order. */
  function Snapshots(p: Payload): seq<Snapshot> {
    match p
    case One(m) => [m]
    case Many(ms) => ms
  }

  function PayloadIds(p: Payload): set<int> {
    Ids(Snapshots(p))
  }

  /** No later snapshot of `ms` is for the same agent as the `k`-th. */
  predicate LastOfAgent(ms: seq<Snapshot>, k: int) {
    0 <= k < |ms| && forall j | k < j < |ms| :: ms[j].agentId != ms[k].agentId
  }

  /** Upserts by agent id in order: every id of `ms` is present and holds that
      agent's last snapshot in `ms`; every other entry is unchanged. */
  function Upsert(m: map<int, Snapshot>, ms: seq<Snapshot>): (r: map<int, Snapshot>)
    ensures r.Keys == m.Keys + Ids(ms)
    ensures forall id | id in m && id !in Ids(ms) :: r[id] == m[id]
    ensures forall k | 0 <= k < |ms| && LastOfAgent(ms, k) :: r[ms[k].agentId] == ms[k]
  {
    if |ms| == 0 then m
    else
      var init := ms[..|ms| - 1];
      var last := ms[|ms| - 1];
      assert ms == init + [last];
      assert Ids(ms) == Ids(init) + {last.agentId};
      var r := Upsert(m, init)[last.agentId := last];
      assert forall k | 0 <= k < |init| && LastOfAgent(ms, k) :: LastOfAgent(init, k) && init[k] == ms[k];
      r
  }

  /** The map the cards are drawn from, and the map the reader fills; the
      first is refreshed from the second on every UI tick. */
  datatype View = View(shown: map<int, Snapshot>, pending: map<int, Snapshot>)

  /** The view after the event, and what was passed to the `onMetrics`
      callback, if anything. */
  datatype Processed = Processed(view: View, notified: Option<Payload>)

  /** The events that change the pending map: a decoded "init", a single
      snapshot for "metrics", an array for "metrics-all". */
  predicate Accepted(e: Event, decoded: Option<Payload>) {
    e.data != "" && decoded.Some?
    && (e.kind == "init" || (e.kind == "metrics" && decoded.value.One?)
        || (e.kind == "metrics-all" && decoded.value.Many?))
  }

  /** `processEvent`. `decoded` is `None` when the data is not a snapshot or
      an array of them (the parse error is swallowed). "init" replaces the
      shown map and upserts into the pending one; "metrics" and
      "metrics-all" upsert into the pending map only. A "metrics-all" event
      with a single object fails on the array iteration before any change. */
  function ProcessEvent(v: View, e: Event, decoded: Option<Payload>): (r: Processed)
    ensures e.kind == "heartbeat" || e.data == "" || decoded.None? ==> r == Processed(v, None)
    ensures r.notified.Some? ==> decoded.Some? && r.notified == decoded
    ensures !Accepted(e, decoded) ==> r.view == v
    ensures e.kind != "init" ==> r.view.shown == v.shown
    ensures Accepted(e, decoded) ==>
      var ms := Snapshots(decoded.value);
      r.notified == decoded
      && r.view.pending.Keys == v.pending.Keys + Ids(ms)
      && (forall id | id in v.pending && id !in Ids(ms) :: r.view.pending[id] == v.pending[id])
      && (forall k | 0 <= k < |ms| && LastOfAgent(ms, k) :: r.view.pending[ms[k].agentId] == ms[k])
    ensures Accepted(e, decoded) && e.kind == "init" ==>
      var ms := Snapshots(decoded.value);
      r.view.shown.Keys == Ids(ms)
      && (forall k | 0 <= k < |ms| && LastOfAgent(ms, k) :: r.view.shown[ms[k].agentId] == ms[k])
  {
    if e.kind == "heartbeat" || e.data == "" || decoded.None? then Processed(v, None)
    else
      match decoded.value
      case Many(ms) =>
        if e.kind == "init" then Processed(View(Upsert(map[], ms), Upsert(v.pending, ms)), decoded)
        else if e.kind == "metrics-all" then Processed(v.(pending := Upsert(v.pending, ms)), decoded)
        else if e.kind == "metrics" then Processed(v, decoded)
        else Processed(v, None)
      case One(m) =>
        if e.kind == "init" then Processed(View(map[m.agentId := m], v.pending[m.agentId := m]), decoded)
        else if e.kind == "metrics" then Processed(v.(pending := v.pending[m.agentId := m]), decoded)
        else Processed(v, None)
  }

  /** The UI tick: the shown map becomes a copy of the pending map whenever
      the latter is not empty. */
  function UiTick(v: View): (r: View)
    ensures r.pending == v.pending
    ensures |v.pending| > 0 ==> r.shown == v.pending
    ensures |v.pending| == 0 ==> r == v
  {
    if |v.pending| > 0 then v.(shown := v.pending) else v
  }

  /** The pending map is never emptied, so an "init" that no longer lists an
      agent hides it only until the next UI tick. */
  lemma InitIsUndoneByTick(v: View, data: string, ms: seq<Snapshot>, id: int)
    requires data != "" && id in v.pending && id !in Ids(ms)
    ensures id !in ProcessEvent(v, Event("init", data), Some(Many(ms))).view.shown
    ensures id in UiTick(ProcessEvent(v, Event("init", data), Some(Many(ms))).view).shown
  {
  }

  /** A "metrics" event for an agent shows its snapshot after the next UI
      tick, whatever was shown before. */
  lemma MetricsShownAfterTick(v: View, data: string, m: Snapshot)
    requires data != ""
    ensures UiTick(ProcessEvent(v, Event("metrics", data), Some(One(m))).view).shown[m.agentId] == m
  {
  }

  // ---------------------------------------------------------------------------
  // Reconnecting

  const MaxAttempts: nat := 10
  const BaseDelay: nat := 1000
  const MaxDelay: nat := 30000
  const GiveUpMessage: string := "Failed to connect after multiple attempts. Please refresh the page."

  function Pow2(n: nat): (p: nat)
    ensures p >= 1
  {
    if n == 0 then 1 else 2 * Pow2(n - 1)
  }

  /** The wait before reconnect attempt `n + 1`, in milliseconds. */
  function Delay(n: nat): (d: nat)
    ensures BaseDelay <= d <= MaxDelay
  {
    if BaseDelay * Pow2(n) < MaxDelay then BaseDelay * Pow2(n) else MaxDelay
  }

  /** The wait starts at one second and doubles with every failure until it
      reaches the 30-second cap, where it stays. */
  lemma DelayDoubles(n: nat)
    ensures Delay(0) == BaseDelay
    ensures Delay(n + 1) == if 2 * Delay(n) < MaxDelay then 2 * Delay(n) else MaxDelay
  {
    assert Pow2(n + 1) == 2 * Pow2(n);
    assert BaseDelay * Pow2(n + 1) == 2 * (BaseDelay * Pow2(n));
  }

  /** The waits of the first six attempts: 1, 2, 4, 8 and 16 seconds, then
      the cap. */
  lemma DelaySchedule()
    ensures [Delay(0), Delay(1), Delay(2), Delay(3), Delay(4), Delay(5)]
         == [1000, 2000, 4000, 8000, 16000, 30000]
  {
    assert Pow2(5) == 32;
  }

  lemma {:induction false} Pow2Monotone(m: nat, n: nat)
    requires m <= n
    ensures Pow2(m) <= Pow2(n)
  {
    if m < n {
      Pow2Monotone(m, n - 1);
    }
  }

  /** Waits never shrink as failures accumulate, and from the sixth attempt
      on they are capped at 30 seconds. */
  lemma DelayGrows(m: nat, n: nat)
    requires m <= n
    ensures Delay(m) <= Delay(n)
    ensures n >= 5 ==> Delay(n) == MaxDelay
  {
    Pow2Monotone(m, n);
    if n >= 5 {
      Pow2Monotone(5, n);
      assert Pow2(5) == 32;
    }
  }

  /** The connection as the hook tracks it: failed attempts since the last
      success, and the reconnect timer, if one is set. */
  datatype Connection = Connection(attempts: nat, connected: bool, timer: Option<nat>, error: Option<string>)

  function ReconnectMessage(delay: nat): string {
    "Connection lost. Reconnecting in " + NatToString(delay / 1000) + "s..."
  }

  /** `scheduleReconnect`, run when the stream ends or fails. */
  function ScheduleReconnect(c: Connection): (r: Connection)
    ensures !r.connected
    ensures c.attempts < MaxAttempts ==>
      r.attempts == c.attempts + 1 && r.timer == Some(Delay(c.attempts))
      && r.error == Some(ReconnectMessage(Delay(c.attempts)))
    ensures c.attempts >= MaxAttempts ==>
      r.attempts == c.attempts && r.timer == c.timer && r.error == Some(GiveUpMessage)
  {
    if c.attempts < MaxAttempts then
      var delay := Delay(c.attempts);
      Connection(c.attempts + 1, false, Some(delay), Some(ReconnectMessage(delay)))
    else c.(connected := false, error := Some(GiveUpMessage))
  }

  /** A response with a body: connected, error cleared, count reset. */
  function Connected(c: Connection): (r: Connection)
    ensures r.connected && r.attempts == 0 && r.error.None? && r.timer == c.timer
  {
    c.(connected := true, attempts := 0, error := None)
  }

  /** `reconnect`: the timer is cleared and the count reset before a new
      connection attempt. */
  function ManualReconnect(c: Connection): (r: Connection)
    ensures r.attempts == 0 && r.timer.None?
    ensures r.connected == c.connected && r.error == c.error
  {
    c.(attempts := 0, timer := None)
  }

  /** The waits scheduled by `n` consecutive failed attempts. */
  function Failures(c: Connection, n: nat): (delays: seq<nat>)
    decreases n
    ensures |delays| <= n
    ensures c.attempts >= MaxAttempts ==> delays == []
    ensures forall k | 0 <= k < |delays| :: BaseDelay <= delays[k] <= MaxDelay
  {
    if n == 0 then []
    else
      var next := ScheduleReconnect(c);
      (if c.attempts < MaxAttempts then [Delay(c.attempts)] else []) + Failures(next, n - 1)
  }

  /** However many attempts fail in a row, at most ten reconnects are
      scheduled after a success, with waits 1 s, 2 s, 4 s, 8 s, 16 s and
      then 30 s. */
  lemma FailuresAreBounded(c: Connection, n: nat)
    requires c.attempts <= MaxAttempts
    ensures |Failures(c, n)| == if n < MaxAttempts - c.attempts then n else MaxAttempts - c.attempts
    ensures forall k | 0 <= k < |Failures(c, n)| :: Failures(c, n)[k] == Delay(c.attempts + k)
  {
    FailuresCount(c, n);
    FailuresDelays(c, n);
  }

  /** How many reconnects `n` failures schedule. */
  lemma {:induction false} FailuresCount(c: Connection, n: nat)
    decreases n
    requires c.attempts <= MaxAttempts
    ensures |Failures(c, n)| == if n < MaxAttempts - c.attempts then n else MaxAttempts - c.attempts
  {
    if n > 0 {
      var next := ScheduleReconnect(c);
      FailuresCount(next, n - 1);
    }
  }

  /** The waits of the reconnects `n` failures schedule. */
  lemma {:induction false} FailuresDelays(c: Connection, n: nat)
    decreases n
    ensures forall k | 0 <= k < |Failures(c, n)| :: Failures(c, n)[k] == Delay(c.attempts + k)
  {
    if n > 0 {
      var next := ScheduleReconnect(c);
      FailuresDelays(next, n - 1);
      var rest := Failures(next, n - 1);
      if c.attempts < MaxAttempts {
        assert next.attempts == c.attempts + 1;
        DelaysShift(Failures(c, n), rest, c.attempts);
      } else {
        assert Failures(c, n) == [] + rest;
      }
    }
  }

  /** The waits from attempt `a` on are the wait for `a` followed by the waits
      from `a + 1` on. */
  lemma DelaysShift(fs: seq<nat>, rest: seq<nat>, a: nat)
    requires fs == [Delay(a)] + rest
    requires forall j | 0 <= j < |rest| :: rest[j] == Delay(a + 1 + j)
    ensures forall k | 0 <= k < |fs| :: fs[k] == Delay(a + k)
  {
    forall k | 0 <= k < |fs|
      ensures fs[k] == Delay(a + k)
    {
      if k > 0 {
        assert fs[k] == rest[k - 1];
      }
    }
  }

  /** After a success, or a manual reconnect, the next wait is one second
      again. */
  lemma SuccessResetsBackoff(c: Connection)
    ensures ScheduleReconnect(Connected(c)).timer == Some(BaseDelay)
    ensures ScheduleReconnect(ManualReconnect(c)).timer == Some(BaseDelay)
  {
  }
}

=== FILE: payload.dfy ===
/** The metrics document an agent reports, already decoded from JSON, and the
    sums the backend forms over its disk and interface lists. Both ingestion
    paths (pulled by the polling service, pushed by the agent) read the same
    shape; absent JSON fields are `None`. 64-bit overflow of the sums is not
    modelled. */
module Payload {
  import opened Base

  datatype Disk = Disk(totalBytes: Option<int>, usedBytes: Option<int>)

  datatype Interface = Interface(
    name: Option<string>,
    recvBytes: Option<int>,
    sentBytes: Option<int>,
    recvRate: Option<real>,
    sentRate: Option<real>)

  datatype Report = Report(
    nodeId: Option<string>,
    cpu: Option<real>,
    memoryTotal: Option<int>,
    memoryUsed: Option<int>,
    disks: Option<seq<Disk>>,
    interfaces: Option<seq<Interface>>,
    uptimeSeconds: Option<int>,
    processCount: Option<int>)

  /** Sum of the present values; absent ones are skipped. */
  function SumPresent(xs: seq<Option<int>>): (s: int)
    ensures (forall i | 0 <= i < |xs| :: xs[i].Some? && xs[i].value >= 0) ==> s >= 0
  {
    if |xs| == 0 then 0 else xs[0].GetOr(0) + SumPresent(xs[1..])
  }

  function SumPresentReal(xs: seq<Option<real>>): real {
    if |xs| == 0 then 0.0 else xs[0].GetOr(0.0) + SumPresentReal(xs[1..])
  }

  /** Sum that unboxes every value: absent if any value is absent (the
      unboxing throws). */
  function SumAll(xs: seq<Option<int>>): (s: Option<int>)
    ensures s.Some? <==> forall i | 0 <= i < |xs| :: xs[i].Some?
  {
    if |xs| == 0 then Some(0)
    else if xs[0].None? then None
    else
      var rest := SumAll(xs[1..]);
      assert forall i | 1 <= i < |xs| :: xs[i] == xs[1..][i - 1];
      if rest.None? then None else Some(xs[0].value + rest.value)
  }

  /** When nothing is absent the two sums agree. */
  lemma {:induction false} SumAllIsSumPresent(xs: seq<Option<int>>)
    ensures SumAll(xs).Some? ==> SumAll(xs).value == SumPresent(xs)
  {
    if |xs| > 0 {
      SumAllIsSumPresent(xs[1..]);
    }
  }

  /** Skipping absent values: a sum over a concatenation is the sum of the parts. */
  lemma {:induction false} SumPresentAppend(xs: seq<Option<int>>, ys: seq<Option<int>>)
    ensures SumPresent(xs + ys) == SumPresent(xs) + SumPresent(ys)
  {
    if |xs| > 0 {
      assert (xs + ys)[1..] == xs[1..] + ys;
      SumPresentAppend(xs[1..], ys);
    } else {
      assert xs + ys == ys;
    }
  }

  /** An absent value anywhere changes nothing in the skipping sum. */
  lemma SumPresentSkipsAbsent(xs: seq<Option<int>>, ys: seq<Option<int>>)
    ensures SumPresent(xs + [None] + ys) == SumPresent(xs + ys)
  {
    SumPresentAppend(xs + [None], ys);
    SumPresentAppend(xs, [None]);
    SumPresentAppend(xs, ys);
  }

  function DiskTotals(ds: seq<Disk>): (r: seq<Option<int>>)
    ensures |r| == |ds| && forall i | 0 <= i < |ds| :: r[i] == ds[i].totalBytes
  {
    seq(|ds|, i requires 0 <= i < |ds| => ds[i].totalBytes)
  }

  function DiskUsed(ds: seq<Disk>): (r: seq<Option<int>>)
    ensures |r| == |ds| && forall i | 0 <= i < |ds| :: r[i] == ds[i].usedBytes
  {
    seq(|ds|, i requires 0 <= i < |ds| => ds[i].usedBytes)
  }

  function Received(ifs: seq<Interface>): (r: seq<Option<int>>)
    ensures |r| == |ifs| && forall i | 0 <= i < |ifs| :: r[i] == ifs[i].recvBytes
  {
    seq(|ifs|, i requires 0 <= i < |ifs| => ifs[i].recvBytes)
  }

  function Sent(ifs: seq<Interface>): (r: seq<Option<int>>)
    ensures |r| == |ifs| && forall i | 0 <= i < |ifs| :: r[i] == ifs[i].sentBytes
  {
    seq(|ifs|, i requires 0 <= i < |ifs| => ifs[i].sentBytes)
  }

  function ReceiveRates(ifs: seq<Interface>): (r: seq<Option<real>>)
    ensures |r| == |ifs| && forall i | 0 <= i < |ifs| :: r[i] == ifs[i].recvRate
  {
    seq(|ifs|, i requires 0 <= i < |ifs| => ifs[i].recvRate)
  }

  function SendRates(ifs: seq<Interface>): (r: seq<Option<real>>)
    ensures |r| == |ifs| && forall i | 0 <= i < |ifs| :: r[i] == ifs[i].sentRate
  {
    seq(|ifs|, i requires 0 <= i < |ifs| => ifs[i].sentRate)
  }

  const TwoTo31: int := 0x8000_0000
  const TwoTo32: int := 0x1_0000_0000

  /** `Long.intValue`: the low 32 bits, read as a signed number. */
  function ToInt32(x: int): (r: int)
    ensures -TwoTo31 <= r < TwoTo31
    ensures (r - x) % TwoTo32 == 0
    ensures -TwoTo31 <= x < TwoTo31 ==> r == x
  {
    (x + TwoTo31) % TwoTo32 - TwoTo31
  }
}

=== FILE: polling.dfy ===
/** `AgentPollingService`: one fixed-rate polling task per enabled agent,
    reconciled against the agents table, and the decision logic of a single
    poll. The HTTP exchange is an input (`Fetch`); a scheduled task is its
    interval, initial delay and whether it has been cancelled. */
module AgentPolling {
  import opened Base
  import opened Text
  import opened AgentEntity
  import opened Payload
  import MetricsCache
  import SseHub

  const DefaultInterval: int := 1000
  const DefaultAgentPort: int := 9090

  datatype Task = Task(interval: int, initialDelay: int, cancelled: bool)

  type Tasks = map<nat, Task>

  /** `scheduleAgent`: the agent's interval, 1000 ms when it has none, first
      run immediately. */
  function NewTask(a: Agent): (task: Task)
    ensures !task.cancelled && task.initialDelay == 0
    ensures a.pollingInterval.Some? ==> task.interval == a.pollingInterval.value
    ensures a.pollingInterval.None? ==> task.interval == DefaultInterval
  {
    Task(a.pollingInterval.GetOr(DefaultInterval), 0, false)
  }

  /** `scheduleAgentPolling`: first every tracked id that is no longer an
      enabled agent loses its task, which is cancelled; then every enabled
      agent whose task is missing or cancelled is given a new one, in table
      order. Live tasks of enabled agents are left running. */
  method Reconcile(tasks: Tasks, t: Table) returns (tasks': Tasks, cancelled: set<nat>)
    ensures tasks'.Keys == Ids(FindEnabled(t))
    ensures cancelled == tasks.Keys - Ids(FindEnabled(t))
    ensures forall k | k in tasks' :: !tasks'[k].cancelled
    ensures forall k | k in tasks' && k in tasks && !tasks[k].cancelled :: tasks'[k] == tasks[k]
    ensures forall k | k in tasks' && (k !in tasks || tasks[k].cancelled) ::
      exists a | a in FindEnabled(t) && a.id == k :: tasks'[k] == NewTask(a)
  {
    var enabled := FindEnabled(t);
    var kept;
    kept, cancelled := DropStale(tasks, Ids(enabled));
    tasks' := ScheduleMissing(kept, enabled);
  }

  /** The first loop: tasks whose id is not in `ids` are removed and cancelled. */
  method DropStale(tasks: Tasks, ids: set<nat>) returns (kept: Tasks, cancelled: set<nat>)
    ensures kept.Keys == tasks.Keys * ids
    ensures cancelled == tasks.Keys - ids
    ensures forall k | k in kept :: kept[k] == tasks[k]
  {
    kept := tasks;
    cancelled := {};
    var rest := tasks.Keys;
    while rest != {}
      invariant rest <= tasks.Keys
      invariant forall x :: x in kept <==> x in tasks && (x in rest || x in ids)
      invariant forall x :: x in cancelled <==> x in tasks && x !in rest && x !in ids
      invariant forall k | k in kept :: kept[k] == tasks[k]
      decreases |rest|
    {
      var k :| k in rest;
      if k !in ids {
        kept := kept - {k};
        cancelled := cancelled + {k};
      }
      rest := rest - {k};
    }
  }

  /** The second loop: every agent of `enabled` whose task is missing or
      cancelled gets a new one; live tasks are kept. */
  method ScheduleMissing(kept: Tasks, enabled: Table) returns (tasks': Tasks)
    requires kept.Keys <= Ids(enabled)
    ensures tasks'.Keys == Ids(enabled)
    ensures forall k | k in tasks' :: !tasks'[k].cancelled
    ensures forall k | k in tasks' && k in kept && !kept[k].cancelled :: tasks'[k] == kept[k]
    ensures forall k | k in tasks' && (k !in kept || kept[k].cancelled) ::
      exists a | a in enabled && a.id == k :: tasks'[k] == NewTask(a)
  {
    tasks' := kept;
    var i := 0;
    while i < |enabled|
      invariant 0 <= i <= |enabled|
      invariant kept.Keys <= tasks'.Keys <= Ids(enabled)
      invariant forall j | 0 <= j < i :: enabled[j].id in tasks' && !tasks'[enabled[j].id].cancelled
      invariant forall k | k in tasks' && k in kept && !kept[k].cancelled :: tasks'[k] == kept[k]
      invariant forall k | k in tasks' ::
        (k in kept && tasks'[k] == kept[k]) || exists a | a in enabled && a.id == k :: tasks'[k] == NewTask(a)
    {
      var a := enabled[i];
      if a.id !in tasks' || tasks'[a.id].cancelled {
        tasks' := tasks'[a.id := NewTask(a)];
      }
      i := i + 1;
    }
  }

  /** `rescheduleAgent`: only that id's task is cancelled and dropped, and it
      is re-added only for an existing, enabled agent. */
  function Reschedule(tasks: Tasks, t: Table, id: nat): (r: (Tasks, bool))
    ensures r.1 <==> id in tasks
    ensures id in r.0 <==> FindById(t, id).Some? && FindById(t, id).value.enabled
    ensures id in r.0 ==> r.0[id] == NewTask(FindById(t, id).value)
    ensures forall k | k != id :: (k in r.0 <==> k in tasks) && (k in tasks ==> r.0[k] == tasks[k])
  {
    var dropped := tasks - {id};
    match FindById(t, id)
    case Some(a) => if a.enabled then (dropped[id := NewTask(a)], id in tasks) else (dropped, id in tasks)
    case None => (dropped, id in tasks)
  }

  // ---------------------------------------------------------------------------
  // One poll

  /** The HTTP exchange: a transport exception, or a status and a body that
      decodes to a report (`None` when it does not). */
  datatype Fetch = TransportError | Response(status: int, body: Option<Report>)

  datatype PollState = PollState(cache: MetricsCache.Cache, history: seq<MetricsCache.HistoryRow>, hub: SseHub.Hub)

  /** The state after a poll, the URL requested (none when the poll stopped
      early) and the snapshot broadcast. */
  datatype Polled = Polled(state: PollState, url: Option<string>, sent: Option<MetricsCache.Snapshot>)

  /** `http://<ip>:<port>/metrics`, with an absent ip formatted as "null". */
  function PollUrl(a: Agent): (url: string)
    ensures StartsWith(url, "http://") && EndsWith(url, "/metrics")
    ensures a.port.None? ==> EndsWith(url, ":9090/metrics")
  {
    DefaultPortText();
    var tail := ":" + IntToString(a.port.GetOr(DefaultAgentPort)) + "/metrics";
    var url := "http://" + a.ip.GetOr("null") + tail;
    assert url[|url| - |tail|..] == tail;
    url
  }

  lemma DefaultPortText()
    ensures IntToString(DefaultAgentPort) == "9090"
  {
    assert NatToString(9) == "9";
    assert NatToString(90) == "90";
    assert NatToString(909) == "909";
  }

  /** The host and the port read back from the URL: between the scheme and
      the path, an ip without ':' is the text before the one ':', and the text
      after it parses as the agent's port, or 9090 when it has none. */
  lemma PollUrlReadsBack(a: Agent)
    requires ':' !in a.ip.GetOr("null")
    requires LongMin <= a.port.GetOr(DefaultAgentPort) <= LongMax
    ensures var url := PollUrl(a);
      |url| >= 15 &&
      var hostPort := Split(url[7..|url| - 8], ':');
      |hostPort| == 2 && hostPort[0] == a.ip.GetOr("null")
      && ParseLong(hostPort[1]) == Some(a.port.GetOr(DefaultAgentPort))
  {
    var host := a.ip.GetOr("null");
    var port := IntToString(a.port.GetOr(DefaultAgentPort));
    var url := PollUrl(a);
    assert url == "http://" + (host + [':'] + port) + "/metrics";
    assert url[7..|url| - 8] == host + [':'] + port;
    NumberLacksChar(a.port.GetOr(DefaultAgentPort), ':');
    SplitAtFirst(host, ':', port);
    SplitWithoutSeparator(port, ':');
    ParseLongRoundTrip(a.port.GetOr(DefaultAgentPort));
  }

  /** `convertToMetricsRequest` of a pulled report: the lists are summed with
      unboxing, so an absent byte count inside a present list throws; an
      absent list sums to 0. */
  function ConvertPolled(rep: Report): (r: Result<MetricsCache.Reading, MetricsCache.NullValue>)
    ensures r.Ok? <==>
      (rep.disks.Some? ==> SumAll(DiskTotals(rep.disks.value)).Some? && SumAll(DiskUsed(rep.disks.value)).Some?)
      && (rep.interfaces.Some? ==>
            SumAll(Received(rep.interfaces.value)).Some? && SumAll(Sent(rep.interfaces.value)).Some?)
    ensures r.Ok? ==>
      var m := r.value;
      m.cpuUsage == rep.cpu && m.memoryTotal == rep.memoryTotal && m.memoryUsed == rep.memoryUsed
      && m.diskTotal == Some(if rep.disks.Some? then SumPresent(DiskTotals(rep.disks.value)) else 0)
      && m.diskUsed == Some(if rep.disks.Some? then SumPresent(DiskUsed(rep.disks.value)) else 0)
      && m.networkRxBytes == Some(if rep.interfaces.Some? then SumPresent(Received(rep.interfaces.value)) else 0)
      && m.networkTxBytes == Some(if rep.interfaces.Some? then SumPresent(Sent(rep.interfaces.value)) else 0)
      && m.processCount.None? && m.uptimeSeconds.None? && m.loadAverage1m.None?
  {
    var dt := if rep.disks.Some? then SumAll(DiskTotals(rep.disks.value)) else Some(0);
    var du := if rep.disks.Some? then SumAll(DiskUsed(rep.disks.value)) else Some(0);
    var rx := if rep.interfaces.Some? then SumAll(Received(rep.interfaces.value)) else Some(0);
    var tx := if rep.interfaces.Some? then SumAll(Sent(rep.interfaces.value)) else Some(0);
    if dt.None? || du.None? || rx.None? || tx.None? then Err(MetricsCache.NullValue)
    else
      SumAllIsSumPresent(DiskTotals(rep.disks.GetOr([])));
      SumAllIsSumPresent(DiskUsed(rep.disks.GetOr([])));
      SumAllIsSumPresent(Received(rep.interfaces.GetOr([])));
      SumAllIsSumPresent(Sent(rep.interfaces.GetOr([])));
      Ok(MetricsCache.Reading(rep.cpu, rep.memoryTotal, rep.memoryUsed, dt, du, rx, tx,
                              None, None, None, None, None, None, None))
  }

  /** The reading a fetch delivers, if the poll gets that far. */
  function Delivered(fetch: Fetch): Option<MetricsCache.Reading> {
    match fetch
    case Response(200, Some(rep)) =>
      (match ConvertPolled(rep) case Ok(m) => Some(m) case Err(_) => None)
    case _ => None
  }

  /** `pollAgent`: a missing or disabled agent is skipped without a request;
      only a 200 response whose body decodes and converts is saved and then
      broadcast. Every exception is caught, so any other outcome leaves the
      state as it was and the task keeps running. */
  function PollAgent(t: Table, s: PollState, id: nat, now: int, fetch: Fetch, failing: set<SseHub.Emitter>)
    : (r: Polled)
    ensures FindById(t, id).None? || !FindById(t, id).value.enabled ==> r == Polled(s, None, None)
    ensures FindById(t, id).Some? && FindById(t, id).value.enabled ==>
      r.url == Some(PollUrl(FindById(t, id).value))
    ensures r.sent.None? ==> r.state == s
    ensures r.sent.Some? ==>
      FindById(t, id).Some? && FindById(t, id).value.enabled && Delivered(fetch).Some?
      && var saved := MetricsCache.SaveMetrics(t, s.cache, s.history, id, Delivered(fetch).value, now);
         saved.Ok? && r.sent == Some(saved.value.snapshot)
         && r.state == PollState(saved.value.cache, saved.value.history, SseHub.SendToAll(s.hub, id, failing))
  {
    match FindById(t, id)
    case None => Polled(s, None, None)
    case Some(a) =>
      if !a.enabled then Polled(s, None, None)
      else
        var url := Some(PollUrl(a));
        match Delivered(fetch)
        case None => Polled(s, url, None)
        case Some(m) =>
          match MetricsCache.SaveMetrics(t, s.cache, s.history, id, m, now)
          case Err(_) => Polled(s, url, None)
          case Ok(saved) =>
            match MetricsCache.GetRealtime(t, saved.cache, id, now)
            case Err(_) => Polled(s, url, None)
            case Ok(snap) =>
              MetricsCache.SaveThenGetRealtime(t, s.cache, s.history, id, m, now);
              Polled(PollState(saved.cache, saved.history, SseHub.SendToAll(s.hub, snap.agentId, failing)),
                     url, Some(snap))
  }

  /** A successful poll always broadcasts: the snapshot read back is the one
      saved, so the broadcast cannot fail once the save succeeded. */
  lemma PollOfHealthyAgentBroadcasts(t: Table, s: PollState, id: nat, now: int, rep: Report,
                                     failing: set<SseHub.Emitter>)
    requires FindById(t, id).Some? && FindById(t, id).value.enabled
    requires ConvertPolled(rep).Ok?
    requires MetricsCache.SaveMetrics(t, s.cache, s.history, id, ConvertPolled(rep).value, now).Ok?
    ensures PollAgent(t, s, id, now, Response(200, Some(rep)), failing).sent.Some?
  {
    MetricsCache.SaveThenGetRealtime(t, s.cache, s.history, id, ConvertPolled(rep).value, now);
  }

  /** A non-200 status changes nothing. */
  lemma NonOkStatusChangesNothing(t: Table, s: PollState, id: nat, now: int, status: int, body: Option<Report>,
                                  failing: set<SseHub.Emitter>)
    requires status != 200
    ensures PollAgent(t, s, id, now, Response(status, body), failing).state == s
  {
  }
}

=== FILE: push_client.dfy ===
/** The agent's push client (`agent/push/push.go`): registration, metric
    pushes and key validation against the backend, with the sticky
    "authentication invalid" state that stops pushing for good. Each HTTP
    exchange is an input: a transport failure or a status with its body. */
module PushClient {
  import opened Base
  import opened Text

  const AuthPrefix: string := "key invalid or expired (HTTP "

  datatype Exchange = TransportFailure | Reply(status: int, body: string)

  /** The decoded registration answer: its message and the new agent's id
      (absent when the answer has no `data`). */
  datatype RegisterAnswer = RegisterAnswer(message: string, id: Option<int>)

  datatype Client = Client(agentId: string, authInvalid: bool, authErrorMsg: string)

  datatype Failure =
    | Transport
    | AuthenticationFailed(message: string)
    | RegistrationFailed(message: string)
    | RegistrationStatus(status: int, body: string)
    | AuthenticationInvalid(message: string)
    | PushStatus(status: int, body: string)
    | InvalidOrExpiredKey(body: string)
    | ValidationStatus(status: int, body: string)

  /** `NewPushClient`. */
  function NewClient(): (c: Client)
    ensures !c.authInvalid && c.agentId == "" && c.authErrorMsg == ""
  {
    Client("", false, "")
  }

  /** The message recorded when the server rejects the key. */
  function AuthMessage(status: int, body: string): (m: string)
    ensures StartsWith(m, AuthPrefix) && EndsWith(m, body)
  {
    AuthPrefix + IntToString(status) + "): " + body
  }

  /** The status and the body read back from the message: after the prefix,
      the text up to the first ')' parses as the status, and what follows it
      is "): " and the body. */
  lemma AuthMessageReadsBack(status: int, body: string)
    requires LongMin <= status <= LongMax
    ensures var m := AuthMessage(status, body);
      StartsWith(m, AuthPrefix)
      && var rest := m[|AuthPrefix|..];
         var num := Split(rest, ')')[0];
         |num| <= |rest| && ParseLong(num) == Some(status) && rest[|num|..] == "): " + body
  {
    var num := IntToString(status);
    var rest := AuthMessage(status, body)[|AuthPrefix|..];
    assert rest == num + [')'] + (": " + body);
    NumberLacksChar(status, ')');
    SplitAtFirst(num, ')', ": " + body);
    ParseLongRoundTrip(status);
  }

  // ---------------------------------------------------------------------------
  // Recognising an authentication error in a 400 body

  function AuthWords(l: string): bool {
    (Contains(l, "invalid") && Contains(l, "authentication"))
    || (Contains(l, "expired") && Contains(l, "key"))
    || Contains(l, "invalid or expired")
  }

  /** `containsAuthError`: the words are looked for in the lower-cased body. */
  function ContainsAuthError(body: string): (b: bool)
    ensures b <==> AuthWords(ToLower(body))
  {
    AuthWords(ToLower(body))
  }

  lemma ToLowerIdempotent(s: string)
    ensures ToLower(ToLower(s)) == ToLower(s)
  {
  }

  lemma ToLowerAppend(a: string, b: string)
    ensures ToLower(a + b) == ToLower(a) + ToLower(b)
  {
  }

  /** Case does not matter. */
  lemma AuthErrorIgnoresCase(body: string)
    ensures ContainsAuthError(ToLower(body)) == ContainsAuthError(body)
  {
    ToLowerIdempotent(body);
  }

  /** A substring survives being surrounded by more text. */
  lemma ContainsInContext(s: string, sub: string, before: string, after: string)
    requires Contains(s, sub)
    ensures Contains(before + s + after, sub)
  {
    var i :| 0 <= i <= |s| - |sub| && OccursAt(s, sub, i);
    var t := before + s + after;
    assert t[|before| + i..|before| + i + |sub|] == s[i..i + |sub|];
    assert OccursAt(t, sub, |before| + i);
  }

  /** Whatever text surrounds them, the words still count as an
      authentication error. */
  lemma AuthErrorInContext(body: string, before: string, after: string)
    requires ContainsAuthError(body)
    ensures ContainsAuthError(before + body + after)
  {
    var l := ToLower(body);
    ToLowerAppend(before + body, after);
    ToLowerAppend(before, body);
    var words := ["invalid", "authentication", "expired", "key", "invalid or expired"];
    forall w | w in words && Contains(l, w)
      ensures Contains(ToLower(before + body + after), w)
    {
      ContainsInContext(l, w, ToLower(before), ToLower(after));
    }
  }

  // ---------------------------------------------------------------------------
  // Registration

  predicate RegisterOk(status: int) {
    status == 200 || status == 201
  }

  /** `Register`: 401 and 403 mark the key invalid; any other status but 200
      and 201 fails with the server's message when the body decodes to one,
      else with the status and body; success records the new id in decimal
      when the answer carries one. */
  function Register(c: Client, ex: Exchange, decoded: Option<RegisterAnswer>): (r: (Client, Result<(), Failure>))
    ensures ex.TransportFailure? ==> r == (c, Err(Transport))
    ensures ex.Reply? && (ex.status == 401 || ex.status == 403) ==>
      r.0 == c.(authInvalid := true, authErrorMsg := AuthMessage(ex.status, ex.body))
      && r.1 == Err(AuthenticationFailed(AuthMessage(ex.status, ex.body)))
    ensures r.0.authInvalid != c.authInvalid ==>
      ex.Reply? && (ex.status == 401 || ex.status == 403)
    ensures r.0.authInvalid ==> c.authInvalid || r.1.Err?
    ensures r.1.Ok? <==> ex.Reply? && RegisterOk(ex.status)
    ensures ex.Reply? && RegisterOk(ex.status) && decoded.Some? && decoded.value.id.Some? ==>
      r.0 == c.(agentId := IntToString(decoded.value.id.value))
    ensures ex.Reply? && RegisterOk(ex.status) && (decoded.None? || decoded.value.id.None?) ==> r.0 == c
    ensures ex.Reply? && ex.status != 401 && ex.status != 403 && !RegisterOk(ex.status) ==>
      r.0 == c
      && (decoded.Some? && decoded.value.message != "" ==> r.1 == Err(RegistrationFailed(decoded.value.message)))
      && (decoded.None? || decoded.value.message == "" ==> r.1 == Err(RegistrationStatus(ex.status, ex.body)))
  {
    match ex
    case TransportFailure => (c, Err(Transport))
    case Reply(status, body) =>
      if status == 401 || status == 403 then
        var msg := AuthMessage(status, body);
        (c.(authInvalid := true, authErrorMsg := msg), Err(AuthenticationFailed(msg)))
      else if !RegisterOk(status) then
        if decoded.Some? && decoded.value.message != "" then (c, Err(RegistrationFailed(decoded.value.message)))
        else (c, Err(RegistrationStatus(status, body)))
      else if decoded.Some? && decoded.value.id.Some? then
        (c.(agentId := IntToString(decoded.value.id.value)), Ok(()))
      else (c, Ok(()))
  }

  // ---------------------------------------------------------------------------
  // Pushing

  /** The replies that mark the key invalid during a push. */
  predicate PushAuthFailure(ex: Exchange) {
    ex.Reply? && (ex.status == 401 || ex.status == 403 || (ex.status == 400 && ContainsAuthError(ex.body)))
  }

  /** The result of one push, and whether a request was sent at all. */
  datatype Pushed = Pushed(client: Client, sent: bool, result: Result<(), Failure>)

  /** `PushMetrics`: nothing is sent once the key is known to be invalid;
      otherwise 401, 403 and a 400 naming an authentication error mark it
      invalid, and any other status but 200 fails without doing so. */
  function PushMetrics(c: Client, ex: Exchange): (r: Pushed)
    ensures c.authInvalid ==> r == Pushed(c, false, Err(AuthenticationInvalid(c.authErrorMsg)))
    ensures !c.authInvalid ==> r.sent
    ensures !c.authInvalid ==> (r.client.authInvalid <==> PushAuthFailure(ex))
    ensures !c.authInvalid && PushAuthFailure(ex) ==>
      r.client == c.(authInvalid := true, authErrorMsg := AuthMessage(ex.status, ex.body))
      && r.result == Err(AuthenticationFailed(r.client.authErrorMsg))
    ensures !PushAuthFailure(ex) ==> r.client == c
    ensures r.result.Ok? <==> !c.authInvalid && ex.Reply? && ex.status == 200
  {
    if c.authInvalid then Pushed(c, false, Err(AuthenticationInvalid(c.authErrorMsg)))
    else
      match ex
      case TransportFailure => Pushed(c, true, Err(Transport))
      case Reply(status, body) =>
        if PushAuthFailure(ex) then
          var msg := AuthMessage(status, body);
          Pushed(c.(authInvalid := true, authErrorMsg := msg), true, Err(AuthenticationFailed(msg)))
        else if status != 200 then Pushed(c, true, Err(PushStatus(status, body)))
        else Pushed(c, true, Ok(()))
  }

  /** No exchange ever clears the invalid-key state. */
  lemma AuthInvalidIsSticky(c: Client, ex: Exchange, decoded: Option<RegisterAnswer>)
    requires c.authInvalid
    ensures PushMetrics(c, ex).client.authInvalid
    ensures Register(c, ex, decoded).0.authInvalid
  {
  }

  /** The pushing loop over the outcomes of its successive attempts: the
      first attempt is immediate, then one per tick; it stops as soon as the
      key is known to be invalid and otherwise keeps going after any other
      failure. Running out of outcomes stands for the stop signal. */
  datatype Run = Run(client: Client, attempts: nat, sends: nat, stoppedByAuth: bool)

  function StartPushing(c: Client, outcomes: seq<Exchange>): (r: Run)
    decreases |outcomes|
    ensures r.stoppedByAuth <==> r.client.authInvalid
    ensures r.sends <= r.attempts <= |outcomes|
    ensures !c.authInvalid && (forall k | 0 <= k < |outcomes| :: !PushAuthFailure(outcomes[k])) ==>
      r == Run(c, |outcomes|, |outcomes|, false)
  {
    if |outcomes| == 0 then Run(c, 0, 0, c.authInvalid)
    else
      var p := PushMetrics(c, outcomes[0]);
      if p.client.authInvalid then Run(p.client, 1, if p.sent then 1 else 0, true)
      else
        var rest := StartPushing(p.client, outcomes[1..]);
        Run(rest.client, rest.attempts + 1, rest.sends + 1, rest.stoppedByAuth)
  }

  /** The loop makes exactly one more attempt after the first authentication
      failure: none. Every outcome up to and including the first failure is
      used, and nothing after it. */
  lemma {:induction false} PushingStopsAtFirstAuthFailure(c: Client, outcomes: seq<Exchange>, n: nat)
    requires !c.authInvalid
    requires n < |outcomes| && PushAuthFailure(outcomes[n])
    requires forall k | 0 <= k < n :: !PushAuthFailure(outcomes[k])
    ensures StartPushing(c, outcomes) == Run(c.(authInvalid := true,
                                               authErrorMsg := AuthMessage(outcomes[n].status, outcomes[n].body)),
                                             n + 1, n + 1, true)
  {
    if n > 0 {
      assert !PushAuthFailure(outcomes[0]);
      PushingStopsAtFirstAuthFailure(c, outcomes[1..], n - 1);
    }
  }

  /** A client whose key is already known invalid sends nothing. */
  lemma InvalidClientNeverSends(c: Client, outcomes: seq<Exchange>)
    requires c.authInvalid
    ensures StartPushing(c, outcomes).sends == 0
  {
  }

  // ---------------------------------------------------------------------------
  // Key validation

  /** `ValidateKey`: 401 and 400 mean the key is invalid or expired, any other
      status but 200 and 201 is a failure with that status. */
  function ValidateKey(ex: Exchange): (r: Result<(), Failure>)
    ensures r.Ok? <==> ex.Reply? && RegisterOk(ex.status)
    ensures ex.TransportFailure? ==> r == Err(Transport)
    ensures ex.Reply? && (ex.status == 401 || ex.status == 400) ==> r == Err(InvalidOrExpiredKey(ex.body))
    ensures ex.Reply? && ex.status != 401 && ex.status != 400 && !RegisterOk(ex.status) ==>
      r == Err(ValidationStatus(ex.status, ex.body))
  {
    match ex
    case TransportFailure => Err(Transport)
    case Reply(status, body) =>
      if status == 401 || status == 400 then Err(InvalidOrExpiredKey(body))
      else if !RegisterOk(status) then Err(ValidationStatus(status, body))
      else Ok(())
  }

  /** The validation endpoint answers 403 as a plain status failure, while a
      push or a registration would mark the key invalid on the same status. */
  lemma ForbiddenIsOnlyInvalidForPushes(c: Client, body: string, decoded: Option<RegisterAnswer>)
    requires !c.authInvalid
    ensures ValidateKey(Reply(403, body)) == Err(ValidationStatus(403, body))
    ensures PushMetrics(c, Reply(403, body)).client.authInvalid
    ensures Register(c, Reply(403, body), decoded).0.authInvalid
  {
  }
}

=== FILE: push_controller.dfy ===
/** `AgentPushController`: the caller's address taken from proxy headers,
    and the cleaning of the raw key posted to the validation endpoint. */
module PushController {
  import opened Base
  import opened Text
  import ClientKeys
  import AgentPush

  /** The request headers the controller reads (`None` when absent) and the
      socket's remote address. */
  datatype Request = Request(forwardedFor: Option<string>, realIp: Option<string>, remoteAddr: string)

  /** The exception of indexing an empty array. */
  datatype IndexOutOfBounds = IndexOutOfBounds

  predicate Present(h: Option<string>) {
    h.Some? && h.value != ""
  }

  /** `getClientIp` as written: the first element of `X-Forwarded-For`
      split with Java's default limit, trimmed; then `X-Real-IP` verbatim;
      then the remote address. A header made only of commas splits into no
      element at all, and indexing it throws. */
  function ClientIpAsWritten(req: Request): (r: Result<string, IndexOutOfBounds>)
    ensures r.Err? <==> Present(req.forwardedFor) && forall i | 0 <= i < |req.forwardedFor.value| :: req.forwardedFor.value[i] == ','
    ensures r.Ok? && Present(req.forwardedFor) ==>
      r.value == JavaTrim(Split(req.forwardedFor.value, ',')[0])
    ensures !Present(req.forwardedFor) && Present(req.realIp) ==> r == Ok(req.realIp.value)
    ensures !Present(req.forwardedFor) && !Present(req.realIp) ==> r == Ok(req.remoteAddr)
  {
    if Present(req.forwardedFor) then
      var parts := JavaSplit(req.forwardedFor.value, ',');
      JavaSplitEmpty(req.forwardedFor.value, ',');
      if |parts| == 0 then Err(IndexOutOfBounds)
      else
        JavaSplitFirst(req.forwardedFor.value, ',');
        Ok(JavaTrim(parts[0]))
    else if Present(req.realIp) then Ok(req.realIp.value)
    else Ok(req.remoteAddr)
  }

  /** The failing input: a forwarded-for header of a single comma. */
  lemma CommaOnlyHeaderFails(realIp: Option<string>, remoteAddr: string)
    ensures ClientIpAsWritten(Request(Some(","), realIp, remoteAddr)).Err?
  {
    assert ","[0] == ',';
  }

  /** The corrected address: the first field of the full split (which always
      has one), trimmed, so a forwarded-for header never makes the request
      fail; the other sources as before. */
  function ClientIp(req: Request): (r: string)
    ensures Present(req.forwardedFor) ==> r == JavaTrim(Split(req.forwardedFor.value, ',')[0])
    ensures !Present(req.forwardedFor) && Present(req.realIp) ==> r == req.realIp.value
    ensures !Present(req.forwardedFor) && !Present(req.realIp) ==> r == req.remoteAddr
  {
    if Present(req.forwardedFor) then JavaTrim(Split(req.forwardedFor.value, ',')[0])
    else if Present(req.realIp) then req.realIp.value
    else req.remoteAddr
  }

  /** The correction only changes the failing case: wherever the code as
      written returns an address, the corrected one returns the same. */
  lemma ClientIpAgreesWhereDefined(req: Request)
    ensures ClientIpAsWritten(req).Ok? ==> ClientIp(req) == ClientIpAsWritten(req).value
    ensures ClientIpAsWritten(req).Err? ==> ClientIp(req) == ""
  {
    if ClientIpAsWritten(req).Err? {
      var h := req.forwardedFor.value;
      JoinOfEmptyFieldsConverse(h);
    }
  }

  /** The first field of a header made only of commas is empty. */
  lemma JoinOfEmptyFieldsConverse(h: string)
    requires forall i | 0 <= i < |h| :: h[i] == ','
    ensures Split(h, ',')[0] == ""
  {
    var ps := Split(h, ',');
    JoinSplit(h, ',');
    JoinOfSeparators(ps, ',');
    OnlyChar(ps[0], ',');
  }

  /** The key posted to the validation endpoint: every '"' removed, then
      trimmed. */
  function CleanKey(body: string): (key: string)
    ensures '"' !in key
    ensures CutFromEnds(RemoveChar(body, '"'), key, JavaSpace)
    ensures |key| > 0 ==> !JavaSpace(key[0]) && !JavaSpace(key[|key| - 1])
  {
    var unquoted := RemoveChar(body, '"');
    var key := JavaTrim(unquoted);
    TrimKeepsChars(unquoted, JavaSpace);
    key
  }

  /** A key posted as a JSON string literal, quotes included, is cleaned to
      the key itself. */
  lemma QuotedKeyCleans(k: string)
    requires '"' !in k
    requires |k| > 0 ==> !JavaSpace(k[0]) && !JavaSpace(k[|k| - 1])
    ensures CleanKey("\"" + k + "\"") == k
  {
    RemoveCharAppend("\"" + k, "\"", '"');
    RemoveCharAppend("\"", k, '"');
    RemoveCharAbsent(k, '"');
    assert RemoveChar("\"", '"') == "";
    TrimUntrimmed(k, JavaSpace);
  }

  /** Cleaning is idempotent. */
  lemma CleanKeyIdempotent(body: string)
    ensures CleanKey(CleanKey(body)) == CleanKey(body)
  {
    var k := CleanKey(body);
    RemoveCharAbsent(k, '"');
    TrimUntrimmed(k, JavaSpace);
  }

  /** The validation endpoint's answer. */
  function ValidateEndpoint(keys: ClientKeys.Keys, body: string, now: int): (ok: bool)
    ensures ok <==> exists k | k in keys :: k.keyValue == CleanKey(body) && ClientKeys.Accepted(k, now)
  {
    AgentPush.ValidateKey(keys, Some(CleanKey(body)), now)
  }
}

=== FILE: shell_handler.dfy ===
/** The backend's frontend-terminal WebSocket endpoint (`ShellWebSocketHandler`):
    decodes a terminal's control frame into a registry call for the agent
    named in the terminal's URI, and answers the terminal with an error frame
    when the call throws. */
module ShellHandler {
  import opened Base
  import opened Text
  import opened AgentRegistry

  /** A decoded terminal frame; JSON fields that are absent are `None`. */
  datatype ShellFrame = ShellFrame(
    kind: Option<string>,
    data: Option<string>,
    cols: Option<int>,
    rows: Option<int>)

  datatype Action =
    | Start(cols: int, rows: int)
    | Input(data: string)
    | Resize(cols: int, rows: int)
    | Stop
    | NoAction

  const DefaultCols: int := 80
  const DefaultRows: int := 24

  /** The switch on the frame's `type` (absent means ""), with terminal size
      defaulting to 80x24 and input data to "". */
  function Decode(f: ShellFrame): (a: Action)
    ensures f.kind.None? ==> a == NoAction
    ensures a.Start? || a.Resize? ==>
      a.cols == f.cols.GetOr(DefaultCols) && a.rows == f.rows.GetOr(DefaultRows)
    ensures a.Input? ==> a.data == f.data.GetOr("")
    ensures a.Start? <==> f.kind == Some("shell_start")
    ensures a.Input? <==> f.kind == Some("shell_input")
    ensures a.Resize? <==> f.kind == Some("shell_resize")
    ensures a.Stop? <==> f.kind == Some("shell_stop")
  {
    match f.kind.GetOr("")
    case "shell_start" => Start(f.cols.GetOr(DefaultCols), f.rows.GetOr(DefaultRows))
    case "shell_input" => Input(f.data.GetOr(""))
    case "shell_resize" => Resize(f.cols.GetOr(DefaultCols), f.rows.GetOr(DefaultRows))
    case "shell_stop" => Stop
    case _ => NoAction
  }

  const ErrorFramePrefix: string := "{\"type\":\"error\",\"data\":\""
  const ErrorFrameSuffix: string := "\"}"

  /** The error reply, built by concatenation with no JSON escaping. */
  function ErrorFrame(message: string): (frame: string)
    ensures StartsWith(frame, ErrorFramePrefix) && EndsWith(frame, ErrorFrameSuffix)
    ensures |frame| == |ErrorFramePrefix| + |message| + |ErrorFrameSuffix|
  {
    ErrorFramePrefix + message + ErrorFrameSuffix
  }

  /** The message can be read back out of the error reply. */
  lemma ErrorFrameRoundTrip(message: string)
    ensures var frame := ErrorFrame(message);
      frame[|ErrorFramePrefix|..|frame| - |ErrorFrameSuffix|] == message
  {
  }

  /** The registry after a terminal frame, the frame sent to the agent, and
      the reply sent back to this terminal only. */
  datatype Outcome = Outcome(reg: Registry, sent: Option<ShellMessage>, reply: Option<string>)

  /** Applies a decoded action for agent `id` on behalf of terminal `obs`. */
  function Perform(r: Registry, id: AgentId, obs: ObserverId, a: Action, writeError: Option<string>): (s: Step)
    requires !a.NoAction?
  {
    match a
    case Start(c, w) => StartShell(r, id, obs, c, w, writeError)
    case Input(d) => ShellInput(r, id, d, writeError)
    case Resize(c, w) => ResizeShell(r, id, c, w, writeError)
    case Stop => StopShell(r, id, obs, writeError)
  }

  /** `handleTextMessage`. `frame` is `None` when the payload is not JSON.
      `libraryError` is the message of an exception thrown inside a library
      (the JSON parser, or the null-key lookup when the terminal's URI names
      no agent), which this model does not compute. The session is never
      closed here. */
  function HandleMessage(r: Registry, agentId: Option<AgentId>, obs: ObserverId,
                         frame: Option<ShellFrame>, writeError: Option<string>,
                         libraryError: string): (o: Outcome)
    ensures frame.None? ==> o == Outcome(r, None, Some(ErrorFrame(libraryError)))
    ensures frame.Some? && Decode(frame.value).NoAction? ==> o == Outcome(r, None, None)
    ensures frame.Some? && !Decode(frame.value).NoAction? && agentId.None? ==>
      o == Outcome(r, None, Some(ErrorFrame(libraryError)))
    ensures frame.Some? && agentId.Some? && !Decode(frame.value).NoAction? ==>
      var s := Perform(r, agentId.value, obs, Decode(frame.value), writeError);
      o.reg == s.reg && o.sent == s.sent
      && (o.reply.Some? <==> s.failure.Some?)
      && (s.failure.Some? ==> o.reply == Some(ErrorFrame(FailureMessage(s.failure.value))))
    ensures o.reg.sessions == r.sessions && o.reg.pending == r.pending
  {
    match frame
    case None => Outcome(r, None, Some(ErrorFrame(libraryError)))
    case Some(f) =>
      var a := Decode(f);
      if a.NoAction? then Outcome(r, None, None)
      else
        match agentId
        case None => Outcome(r, None, Some(ErrorFrame(libraryError)))
        case Some(id) =>
          var s := Perform(r, id, obs, a, writeError);
          match s.failure
          case None => Outcome(s.reg, s.sent, None)
          case Some(e) => Outcome(s.reg, s.sent, Some(ErrorFrame(FailureMessage(e))))
  }

  /** A terminal asking for a shell on an agent that is not connected is told
      so, and is not registered as a listener. */
  lemma StartOnOfflineAgentReportsNotConnected(r: Registry, id: AgentId, obs: ObserverId, f: ShellFrame,
                                               writeError: Option<string>, libraryError: string)
    requires f.kind == Some("shell_start") && !IsConnected(r, id)
    ensures var o := HandleMessage(r, Some(id), obs, Some(f), writeError, libraryError);
      o.reg == r && o.sent.None?
      && o.reply == Some(ErrorFrame("Agent " + id + " is not connected"))
  {
  }

  /** `shell_stop` removes only the sending terminal from the agent's listeners. */
  lemma StopRemovesOnlySender(r: Registry, id: AgentId, obs: ObserverId, f: ShellFrame,
                              writeError: Option<string>, libraryError: string)
    requires f.kind == Some("shell_stop")
    ensures var o := HandleMessage(r, Some(id), obs, Some(f), writeError, libraryError);
      Listeners(o.reg, id) == Listeners(r, id) - {obs}
      && forall a | a != id :: Listeners(o.reg, a) == Listeners(r, a)
  {
  }

  /** `afterConnectionClosed`: the closing terminal is removed from its agent's
      listener set; nothing is sent to the agent. */
  function ObserverClosed(r: Registry, agentId: Option<AgentId>, obs: ObserverId): (r': Registry)
    ensures agentId.None? ==> r' == r
    ensures agentId.Some? ==>
      Listeners(r', agentId.value) == Listeners(r, agentId.value) - {obs}
      && forall a | a != agentId.value :: Listeners(r', a) == Listeners(r, a)
    ensures r'.sessions == r.sessions && r'.pending == r.pending
  {
    match agentId
    case None => r
    case Some(id) => RemoveShellListener(r, id, obs)
  }
}

=== FILE: sse_hub.dfy ===
/** The backend's server-sent-events hub (`SseEmitterService`, and the
    heartbeat gate of `MetricsScheduler`): one list of dashboard streams that
    want every agent, and one list per agent. A send to a stream may fail;
    `failing` is the set of streams whose send throws, and every send prunes
    the streams it failed on. */
module SseHub {
  /** An emitter (one open event stream), told apart by identity. */
  type Emitter = nat

  /** An agent's database id, a generated positive number. */
  type AgentKey = nat

  datatype Hub = Hub(all: seq<Emitter>, perAgent: map<AgentKey, seq<Emitter>>)

  const EmptyHub: Hub := Hub([], map[])

  /** The streams of `es` whose send succeeds, in their original order
      (`removeAll` of the dead ones). */
  function Prune(es: seq<Emitter>, failing: set<Emitter>): (r: seq<Emitter>)
    ensures |r| <= |es|
    ensures forall e :: e in r <==> e in es && e !in failing
    ensures forall e | e in es && e !in failing :: multiset(r)[e] == multiset(es)[e]
  {
    if |es| == 0 then []
    else
      var rest := Prune(es[1..], failing);
      assert es == [es[0]] + es[1..];
      if es[0] in failing then rest else [es[0]] + rest
  }

  /** Pruning twice with the same failures is pruning once. */
  lemma {:induction false} PruneIdempotent(es: seq<Emitter>, failing: set<Emitter>)
    ensures Prune(Prune(es, failing), failing) == Prune(es, failing)
  {
    if |es| > 0 {
      PruneIdempotent(es[1..], failing);
    }
  }

  /** `List.remove(e)`: drops the first occurrence only. */
  function RemoveFirst(es: seq<Emitter>, e: Emitter): (r: seq<Emitter>)
    ensures multiset(r) == multiset(es) - multiset{e}
    ensures e in es ==> |r| == |es| - 1
    ensures e !in es ==> r == es
  {
    if |es| == 0 then []
    else if es[0] == e then
      assert es == [e] + es[1..];
      es[1..]
    else
      assert es == [es[0]] + es[1..];
      [es[0]] + RemoveFirst(es[1..], e)
  }

  /** The per-agent list of `id`, empty when the agent has none. */
  function AgentList(h: Hub, id: AgentKey): seq<Emitter> {
    if id in h.perAgent then h.perAgent[id] else []
  }

  // ---------------------------------------------------------------------------
  // Connection count

  /** Total number of streams over all per-agent lists. */
  ghost function TotalSize(m: map<AgentKey, seq<Emitter>>): nat
    decreases |m.Keys|
  {
    if m == map[] then 0
    else
      var k :| k in m;
      |m[k]| + TotalSize(m - {k})
  }

  /** The total does not depend on which key is taken first. */
  lemma {:induction false} TotalSizeRemove(m: map<AgentKey, seq<Emitter>>, k: AgentKey)
    requires k in m
    ensures TotalSize(m) == |m[k]| + TotalSize(m - {k})
    decreases |m.Keys|
  {
    var j :| j in m && TotalSize(m) == |m[j]| + TotalSize(m - {j});
    if j != k {
      assert m - {j} - {k} == m - {k} - {j};
      TotalSizeRemove(m - {j}, k);
      TotalSizeRemove(m - {k}, j);
    }
  }

  /** `getConnectionCount`: the all-agents list plus every per-agent list. */
  ghost function ConnectionCount(h: Hub): nat {
    |h.all| + TotalSize(h.perAgent)
  }

  function Restrict(m: map<AgentKey, seq<Emitter>>, keys: set<AgentKey>): (r: map<AgentKey, seq<Emitter>>)
    ensures r.Keys == m.Keys * keys
    ensures forall k | k in r :: r[k] == m[k]
  {
    map k | k in m && k in keys :: m[k]
  }

  /** Sums the list sizes key by key, as the source's loop over the map's values does. */
  method CountConnections(h: Hub) returns (count: nat)
    ensures count == ConnectionCount(h)
  {
    count := |h.all|;
    var rest := h.perAgent.Keys;
    assert Restrict(h.perAgent, rest) == h.perAgent;
    while |rest| > 0
      invariant rest <= h.perAgent.Keys
      invariant count + TotalSize(Restrict(h.perAgent, rest)) == ConnectionCount(h)
      decreases |rest|
    {
      var k :| k in rest;
      var before := Restrict(h.perAgent, rest);
      TotalSizeRemove(before, k);
      assert before - {k} == Restrict(h.perAgent, rest - {k});
      count := count + |h.perAgent[k]|;
      rest := rest - {k};
    }
    assert Restrict(h.perAgent, rest) == map[];
  }

  // ---------------------------------------------------------------------------
  // Registration and removal

  /** `createEmitter`: appended to the all-agents list. */
  function CreateEmitter(h: Hub, e: Emitter): (h': Hub)
    ensures h'.all == h.all + [e] && h'.perAgent == h.perAgent
    ensures ConnectionCount(h') == ConnectionCount(h) + 1
  {
    h.(all := h.all + [e])
  }

  /** Completion, timeout and error callbacks of an all-agents stream remove
      exactly that stream. */
  function RemoveFromAll(h: Hub, e: Emitter): (h': Hub)
    ensures multiset(h'.all) == multiset(h.all) - multiset{e}
    ensures h'.perAgent == h.perAgent
  {
    h.(all := RemoveFirst(h.all, e))
  }

  /** A stream registered and then closed leaves the all-agents list as it was. */
  lemma CreateThenRemoveAll(h: Hub, e: Emitter)
    requires e !in h.all
    ensures RemoveFromAll(CreateEmitter(h, e), e).all == h.all
  {
    assert RemoveFirst(h.all + [e], e) == h.all by {
      RemoveFirstLast(h.all, e);
    }
  }

  lemma {:induction false} RemoveFirstLast(es: seq<Emitter>, e: Emitter)
    requires e !in es
    ensures RemoveFirst(es + [e], e) == es
  {
    if |es| > 0 {
      assert (es + [e])[1..] == es[1..] + [e];
      RemoveFirstLast(es[1..], e);
    }
  }

  /** `createEmitterForAgent`: appended to the agent's list, created if absent. */
  function CreateEmitterForAgent(h: Hub, id: AgentKey, e: Emitter): (h': Hub)
    ensures AgentList(h', id) == AgentList(h, id) + [e]
    ensures h'.perAgent.Keys == h.perAgent.Keys + {id}
    ensures forall a | a != id :: AgentList(h', a) == AgentList(h, a)
    ensures h'.all == h.all
  {
    h.(perAgent := h.perAgent[id := AgentList(h, id) + [e]])
  }

  /** `removeEmitter`: the stream leaves its agent's list, and the agent's key
      is dropped when that list becomes empty. */
  function RemoveEmitter(h: Hub, id: AgentKey, e: Emitter): (h': Hub)
    ensures id in h.perAgent ==>
      multiset(AgentList(h', id)) == multiset(AgentList(h, id)) - multiset{e}
    ensures id in h'.perAgent <==> id in h.perAgent && RemoveFirst(h.perAgent[id], e) != []
    ensures forall a | a != id :: a in h'.perAgent <==> a in h.perAgent
    ensures forall a | a != id && a in h.perAgent :: h'.perAgent[a] == h.perAgent[a]
    ensures h'.all == h.all
  {
    if id !in h.perAgent then h
    else
      var rest := RemoveFirst(h.perAgent[id], e);
      var m := if rest == [] then h.perAgent - {id} else h.perAgent[id := rest];
      assert forall a | a != id && a in h.perAgent :: a in m && m[a] == h.perAgent[a];
      assert id in m ==> m[id] == rest;
      h.(perAgent := m)
  }

  // ---------------------------------------------------------------------------
  // Sending

  /** `sendToAgent`: only that agent's list is touched; failed streams are
      pruned but the key stays even when its list becomes empty. */
  function SendToAgent(h: Hub, id: AgentKey, failing: set<Emitter>): (h': Hub)
    ensures h'.perAgent.Keys == h.perAgent.Keys
    ensures id in h.perAgent ==> h'.perAgent[id] == Prune(h.perAgent[id], failing)
    ensures id !in h.perAgent ==> h' == h
    ensures forall a | a in h.perAgent && a != id :: h'.perAgent[a] == h.perAgent[a]
    ensures h'.all == h.all
  {
    if id in h.perAgent then h.(perAgent := h.perAgent[id := Prune(h.perAgent[id], failing)])
    else h
  }

  /** `sendToAll(snapshot)`: the all-agents list loses its failed streams,
      then the snapshot goes to the agent's own list. */
  function SendToAll(h: Hub, agentId: AgentKey, failing: set<Emitter>): (h': Hub)
    ensures h'.all == Prune(h.all, failing)
    ensures h'.perAgent.Keys == h.perAgent.Keys
    ensures agentId in h.perAgent ==> h'.perAgent[agentId] == Prune(h.perAgent[agentId], failing)
    ensures forall a | a in h.perAgent && a != agentId :: h'.perAgent[a] == h.perAgent[a]
  {
    SendToAgent(h.(all := Prune(h.all, failing)), agentId, failing)
  }

  /** `sendToAll(list)`: the `metrics-all` event goes to the all-agents list only. */
  function SendListToAll(h: Hub, failing: set<Emitter>): (h': Hub)
    ensures h'.all == Prune(h.all, failing) && h'.perAgent == h.perAgent
  {
    h.(all := Prune(h.all, failing))
  }

  /** `sendHeartbeat`: every list, all-agents and per-agent, loses its failed
      streams; no key is dropped. */
  function Heartbeat(h: Hub, failing: set<Emitter>): (h': Hub)
    ensures h'.all == Prune(h.all, failing)
    ensures h'.perAgent.Keys == h.perAgent.Keys
    ensures forall a | a in h.perAgent :: h'.perAgent[a] == Prune(h.perAgent[a], failing)
  {
    Hub(Prune(h.all, failing), map a | a in h.perAgent :: Prune(h.perAgent[a], failing))
  }

  /** A second heartbeat to the same failed streams removes nothing more. */
  lemma HeartbeatIdempotent(h: Hub, failing: set<Emitter>)
    ensures Heartbeat(Heartbeat(h, failing), failing) == Heartbeat(h, failing)
  {
    PruneIdempotent(h.all, failing);
    forall a | a in h.perAgent
      ensures Prune(Prune(h.perAgent[a], failing), failing) == Prune(h.perAgent[a], failing)
    {
      PruneIdempotent(h.perAgent[a], failing);
    }
  }

  /** A heartbeat in which no send fails changes nothing. */
  lemma {:induction false} PruneNothing(es: seq<Emitter>)
    ensures Prune(es, {}) == es
  {
    if |es| > 0 {
      PruneNothing(es[1..]);
      assert es == [es[0]] + es[1..];
    }
  }

  /** `MetricsScheduler.sendHeartbeat`: a heartbeat goes out only while at
      least one stream is registered. */
  method HeartbeatTick(h: Hub, failing: set<Emitter>) returns (h': Hub, sent: bool)
    ensures sent <==> ConnectionCount(h) > 0
    ensures sent ==> h' == Heartbeat(h, failing)
    ensures !sent ==> h' == h
  {
    var count := CountConnections(h);
    if count > 0 {
      h' := Heartbeat(h, failing);
      sent := true;
    } else {
      h' := h;
      sent := false;
    }
  }
}

=== FILE: text.dfy ===
/** String helpers with the exact semantics of the library calls the system
    makes: Java `String.split`/`trim`/`Long.parseLong`, Go `strings` and
    `strconv.Atoi`, JavaScript `split`/`trim`. Strings are `seq<char>`. */
module Text {
  import opened Base

  // ---------------------------------------------------------------------------
  // Prefixes, suffixes, occurrences

  predicate StartsWith(s: string, p: string) {
    |p| <= |s| && s[..|p|] == p
  }

  predicate EndsWith(s: string, p: string) {
    |p| <= |s| && s[|s| - |p|..] == p
  }

  /** A concatenation ends with its second part. */
  lemma EndsWithAppend(s: string, p: string)
    ensures EndsWith(s + p, p)
  {
    assert (s + p)[|s|..] == p;
  }

  /** `sub` occurs in `s` starting at index `i`. */
  predicate OccursAt(s: string, sub: string, i: int) {
    0 <= i && i + |sub| <= |s| && s[i..i + |sub|] == sub
  }

  /** Go `strings.Contains`, Java `String.contains`. */
  predicate Contains(s: string, sub: string) {
    exists i | 0 <= i <= |s| - |sub| :: OccursAt(s, sub, i)
  }

  /** First occurrence of `sub` in `s` at or after `i`. */
  function IndexOfFrom(s: string, sub: string, i: nat): (r: Option<nat>)
    decreases |s| + 1 - i
    ensures r.Some? ==> i <= r.value && OccursAt(s, sub, r.value)
    ensures r.Some? ==> forall j | i <= j < r.value :: !OccursAt(s, sub, j)
    ensures r.None? ==> forall j | i <= j :: !OccursAt(s, sub, j)
  {
    if i + |sub| > |s| then None
    else if s[i..i + |sub|] == sub then Some(i)
    else IndexOfFrom(s, sub, i + 1)
  }

  function IndexOf(s: string, sub: string): (r: Option<nat>)
    ensures r.Some? <==> Contains(s, sub)
    ensures r.Some? ==> OccursAt(s, sub, r.value)
    ensures r.Some? ==> forall j | 0 <= j < r.value :: !OccursAt(s, sub, j)
  {
    IndexOfFrom(s, sub, 0)
  }

  /** Go `strings.TrimPrefix`: removes one leading `p` if present. */
  function TrimPrefix(s: string, p: string): (r: string)
    ensures StartsWith(s, p) ==> s == p + r
    ensures !StartsWith(s, p) ==> r == s
  {
    if StartsWith(s, p) then s[|p|..] else s
  }

  /** Go `strings.TrimSuffix`: removes one trailing `p` if present. */
  function TrimSuffix(s: string, p: string): (r: string)
    ensures EndsWith(s, p) ==> s == r + p
    ensures !EndsWith(s, p) ==> r == s
  {
    if EndsWith(s, p) then s[..|s| - |p|] else s
  }

  /** Go `strings.Replace(s, old, new, 1)`: replaces the first occurrence only. */
  function ReplaceFirst(s: string, pat: string, repl: string): (r: string)
    ensures !Contains(s, pat) ==> r == s
    ensures Contains(s, pat) ==>
      exists i | 0 <= i <= |s| - |pat| ::
        OccursAt(s, pat, i) && r == s[..i] + repl + s[i + |pat|..] &&
        forall j | 0 <= j < i :: !OccursAt(s, pat, j)
  {
    match IndexOf(s, pat)
    case None => s
    case Some(i) => s[..i] + repl + s[i + |pat|..]
  }

  // ---------------------------------------------------------------------------
  // Splitting on one character and joining

  /** Joins with one separator character (Java `String.join`, JavaScript `join`). */
  function Join(parts: seq<string>, sep: char): string
  {
    if |parts| == 0 then ""
    else if |parts| == 1 then parts[0]
    else parts[0] + [sep] + Join(parts[1..], sep)
  }

  /** Splits at every occurrence of `sep`, keeping empty fields: JavaScript
      `s.split(c)`, Java `s.split(c, -1)`. The first character either ends an
      empty first field or begins the first field of the rest. */
  function Split(s: string, sep: char): (parts: seq<string>)
    decreases |s|
    ensures |parts| >= 1
    ensures forall k | 0 <= k < |parts| :: sep !in parts[k]
  {
    if |s| == 0 then [""]
    else
      var rest := Split(s[1..], sep);
      if s[0] == sep then [""] + rest else [[s[0]] + rest[0]] + rest[1..]
  }

  /** A text without the separator is one field. */
  lemma {:induction false} SplitWithoutSeparator(s: string, sep: char)
    requires sep !in s
    ensures Split(s, sep) == [s]
  {
    if |s| > 0 {
      assert sep !in s[1..];
      SplitWithoutSeparator(s[1..], sep);
      assert [s[0]] + s[1..] == s;
    }
  }

  /** Prepending a character to the first field prepends it to the join. */
  lemma JoinFirstCons(c: char, parts: seq<string>, sep: char)
    requires |parts| >= 1
    ensures Join([[c] + parts[0]] + parts[1..], sep) == [c] + Join(parts, sep)
  {
    var ps := [[c] + parts[0]] + parts[1..];
    assert ps[1..] == parts[1..];
  }

  /** Joining the fields again gives back the text. */
  lemma {:induction false} JoinSplit(s: string, sep: char)
    decreases |s|
    ensures Join(Split(s, sep), sep) == s
  {
    if |s| > 0 {
      var rest := Split(s[1..], sep);
      JoinSplit(s[1..], sep);
      if s[0] == sep {
        assert ([""] + rest)[1..] == rest;
        assert Join([""] + rest, sep) == [sep] + Join(rest, sep);
      } else {
        JoinFirstCons(s[0], rest, sep);
      }
      assert [s[0]] + s[1..] == s;
    }
  }

  /** Splitting a join gives back the fields, provided none contains the separator. */
  lemma {:induction false} SplitJoin(parts: seq<string>, sep: char)
    requires |parts| >= 1
    requires forall k | 0 <= k < |parts| :: sep !in parts[k]
    ensures Split(Join(parts, sep), sep) == parts
  {
    if |parts| > 1 {
      var rest := Join(parts[1..], sep);
      var s := parts[0] + [sep] + rest;
      assert Join(parts, sep) == s;
      SplitAtFirst(parts[0], sep, rest);
      assert forall k | 0 <= k < |parts[1..]| :: parts[1..][k] == parts[k + 1];
      SplitJoin(parts[1..], sep);
      assert parts == [parts[0]] + parts[1..];
    } else {
      SplitWithoutSeparator(parts[0], sep);
    }
  }

  /** Splitting after a first field without separators. */
  lemma {:induction false} SplitAtFirst(a: string, sep: char, t: string)
    requires sep !in a
    ensures Split(a + [sep] + t, sep) == [a] + Split(t, sep)
  {
    var s := a + [sep] + t;
    if |a| == 0 {
      assert s[0] == sep && s[1..] == t;
    } else {
      assert s[0] == a[0] && s[1..] == a[1..] + [sep] + t;
      assert sep !in a[1..];
      SplitAtFirst(a[1..], sep, t);
      var rest := [a[1..]] + Split(t, sep);
      assert rest[0] == a[1..] && rest[1..] == Split(t, sep);
      assert [a[0]] + a[1..] == a;
    }
  }

  /** The shape `SplitAppend` states, for `x` and `y`. */
  predicate AppendShape(x: string, y: string, sep: char)
  {
    var px := Split(x, sep);
    Split(x + y, sep) == px[..|px| - 1] + Split(px[|px| - 1] + y, sep)
  }

  /** Splitting `x + y`: the complete fields of `x` (all but its last one),
      then the split of `x`'s unfinished last field continued by `y`. */
  lemma {:induction false} SplitAppend(x: string, y: string, sep: char)
    decreases |x|
    ensures var px := Split(x, sep);
      Split(x + y, sep) == px[..|px| - 1] + Split(px[|px| - 1] + y, sep)
  {
    if |x| == 0 {
      assert x + y == y;
    } else {
      SplitAppend(x[1..], y, sep);
      if x[0] == sep {
        AppendShapeAfterSeparator(x, y, sep);
      } else if |Split(x[1..], sep)| == 1 {
        AppendShapeInOnlyField(x, y, sep);
      } else {
        AppendShapeInFirstField(x, y, sep);
      }
    }
  }

  /** `AppendShape` when `x` starts with the separator. */
  lemma AppendShapeAfterSeparator(x: string, y: string, sep: char)
    requires |x| > 0 && x[0] == sep && AppendShape(x[1..], y, sep)
    ensures AppendShape(x, y, sep)
  {
    var t := x[1..];
    assert (x + y)[0] == sep && (x + y)[1..] == t + y;
    var pt := Split(t, sep);
    EmptyFirstKeepsShape(Split(x, sep), pt, Split(t + y, sep), Split(pt[|pt| - 1] + y, sep), Split(x + y, sep));
  }

  /** The sequence step of `AppendShapeAfterSeparator`: an empty first field
      on both sides keeps the shape. */
  lemma EmptyFirstKeepsShape(px: seq<string>, pt: seq<string>, r: seq<string>, tail: seq<string>,
                             whole: seq<string>)
    requires |pt| >= 1 && px == [""] + pt
    requires r == pt[..|pt| - 1] + tail && whole == [""] + r
    ensures |px| >= 1 && px[|px| - 1] == pt[|pt| - 1] && whole == px[..|px| - 1] + tail
  {
    assert px[..|px| - 1] == [""] + pt[..|pt| - 1];
  }

  /** `AppendShape` when `x` has no separator after its first character. */
  lemma AppendShapeInOnlyField(x: string, y: string, sep: char)
    requires |x| > 0 && x[0] != sep && AppendShape(x[1..], y, sep) && |Split(x[1..], sep)| == 1
    ensures AppendShape(x, y, sep)
  {
    var c, t := x[0], x[1..];
    assert (x + y)[0] == c && (x + y)[1..] == t + y;
    var last := Split(t, sep)[0];
    var r := Split(t + y, sep);
    assert r == Split(last + y, sep);
    assert Split(x, sep) == [[c] + last];
    var z := [c] + last + y;
    assert z[0] == c && z[1..] == last + y;
    assert Split(z, sep) == [[c] + r[0]] + r[1..];
  }

  /** The sequence step of `AppendShapeInFirstField`: a character prepended
      to the first field of both sides keeps the shape. */
  lemma PrependKeepsShape(c: char, px: seq<string>, pt: seq<string>, r: seq<string>, tail: seq<string>,
                          whole: seq<string>)
    requires |pt| > 1 && px == [[c] + pt[0]] + pt[1..]
    requires r == pt[..|pt| - 1] + tail && whole == [[c] + r[0]] + r[1..]
    ensures |px| == |pt| && px[|px| - 1] == pt[|pt| - 1] && whole == px[..|px| - 1] + tail
  {
    assert r[0] == pt[0] && r[1..] == pt[1..|pt| - 1] + tail;
    assert px[..|px| - 1] == [[c] + pt[0]] + pt[1..|pt| - 1];
  }

  /** `AppendShape` when `x`'s first field ends before its last character. */
  lemma AppendShapeInFirstField(x: string, y: string, sep: char)
    requires |x| > 0 && x[0] != sep && AppendShape(x[1..], y, sep) && |Split(x[1..], sep)| > 1
    ensures AppendShape(x, y, sep)
  {
    var c, t := x[0], x[1..];
    assert (x + y)[0] == c && (x + y)[1..] == t + y;
    var pt := Split(t, sep);
    PrependKeepsShape(c, Split(x, sep), pt, Split(t + y, sep), Split(pt[|pt| - 1] + y, sep), Split(x + y, sep));
  }

  /** Removes trailing empty strings (the tail of Java's `split` with limit 0). */
  function DropTrailingEmpty(ps: seq<string>): (r: seq<string>)
    ensures |r| <= |ps| && r == ps[..|r|]
    ensures |r| > 0 ==> r[|r| - 1] != ""
    ensures forall k | |r| <= k < |ps| :: ps[k] == ""
    ensures (forall k | 0 <= k < |ps| :: ps[k] == "") ==> r == []
  {
    if |ps| > 0 && ps[|ps| - 1] == "" then DropTrailingEmpty(ps[..|ps| - 1]) else ps
  }

  /** Java `s.split(c)` (limit 0) for a one-character, non-meta pattern: the
      input itself when `c` does not occur, otherwise all fields with the
      trailing empty ones removed, which may leave no field at all. */
  function JavaSplit(s: string, sep: char): (r: seq<string>)
  {
    if sep !in s then [s] else DropTrailingEmpty(Split(s, sep))
  }

  /** A join of empty fields is nothing but separators. */
  lemma {:induction false} JoinOfEmptyFields(parts: seq<string>, sep: char)
    requires forall k | 0 <= k < |parts| :: parts[k] == ""
    ensures forall i | 0 <= i < |Join(parts, sep)| :: Join(parts, sep)[i] == sep
  {
    if |parts| > 1 {
      JoinOfEmptyFields(parts[1..], sep);
      assert Join(parts, sep) == [sep] + Join(parts[1..], sep);
    }
  }

  /** Every character of every field of a join made only of separators is
      the separator. */
  lemma {:induction false} JoinOfSeparators(parts: seq<string>, sep: char)
    requires forall i | 0 <= i < |Join(parts, sep)| :: Join(parts, sep)[i] == sep
    ensures forall k, j | 0 <= k < |parts| && 0 <= j < |parts[k]| :: parts[k][j] == sep
  {
    if |parts| > 1 {
      var s := Join(parts, sep);
      var rest := Join(parts[1..], sep);
      assert s == parts[0] + [sep] + rest;
      assert forall j | 0 <= j < |parts[0]| :: parts[0][j] == s[j];
      assert forall i | 0 <= i < |rest| :: rest[i] == s[|parts[0]| + 1 + i];
      JoinOfSeparators(parts[1..], sep);
      assert forall k | 1 <= k < |parts| :: parts[k] == parts[1..][k - 1];
    } else if |parts| == 1 {
      assert Join(parts, sep) == parts[0];
    }
  }

  /** A string made only of `c` is empty or contains `c`. */
  lemma OnlyChar(a: string, c: char)
    requires forall j | 0 <= j < |a| :: a[j] == c
    ensures a == "" || c in a
  {
    if |a| > 0 {
      assert a[0] == c;
    }
  }

  /** Java's limit-0 split yields no field at all exactly when the input is
      non-empty and made only of separators. */
  lemma JavaSplitEmpty(s: string, sep: char)
    ensures JavaSplit(s, sep) == [] <==> |s| > 0 && forall i | 0 <= i < |s| :: s[i] == sep
  {
    var ps := Split(s, sep);
    JoinSplit(s, sep);
    if |s| > 0 && forall i | 0 <= i < |s| :: s[i] == sep {
      assert s[0] == sep;
      JoinOfSeparators(ps, sep);
      forall k | 0 <= k < |ps|
        ensures ps[k] == ""
      {
        OnlyChar(ps[k], sep);
      }
    }
    if JavaSplit(s, sep) == [] {
      assert sep in s;
      JoinOfEmptyFields(ps, sep);
    }
  }

  /** When Java's limit-0 split yields a field, its first field is the first
      field of the full split. */
  lemma JavaSplitFirst(s: string, sep: char)
    requires JavaSplit(s, sep) != []
    ensures JavaSplit(s, sep)[0] == Split(s, sep)[0]
  {
    if sep !in s {
      SplitWithoutSeparator(s, sep);
    }
  }

  // ---------------------------------------------------------------------------
  // Trimming

  function TrimStart(s: string, isSpace: char -> bool): (r: string)
    ensures |r| <= |s| && r == s[|s| - |r|..]
    ensures |r| > 0 ==> !isSpace(r[0])
    ensures forall k | 0 <= k < |s| - |r| :: isSpace(s[k])
  {
    if |s| > 0 && isSpace(s[0]) then
      var t := s[1..];
      var r := TrimStart(t, isSpace);
      assert r == s[|s| - |r|..] by { assert t[|t| - |r|..] == s[|s| - |r|..]; }
      assert forall k | 1 <= k < |s| - |r| :: s[k] == t[k - 1];
      r
    else s
  }

  function TrimEnd(s: string, isSpace: char -> bool): (r: string)
    ensures |r| <= |s| && r == s[..|r|]
    ensures |r| > 0 ==> !isSpace(r[|r| - 1])
    ensures forall k | |r| <= k < |s| :: isSpace(s[k])
  {
    if |s| > 0 && isSpace(s[|s| - 1]) then
      var t := s[..|s| - 1];
      var r := TrimEnd(t, isSpace);
      assert r == s[..|r|] by { assert t[..|r|] == s[..|r|]; }
      assert forall k | |r| <= k < |s| - 1 :: s[k] == t[k];
      r
    else s
  }

  /** `r` is `s` with a run of `isSpace` characters cut from each end. */
  predicate CutFromEnds(s: string, r: string, isSpace: char -> bool) {
    exists i | 0 <= i <= |s| - |r| :: OccursAt(s, r, i)
      && (forall k | 0 <= k < i :: isSpace(s[k]))
      && (forall k | i + |r| <= k < |s| :: isSpace(s[k]))
  }

  function Trim(s: string, isSpace: char -> bool): (r: string)
    ensures CutFromEnds(s, r, isSpace)
    ensures |r| > 0 ==> !isSpace(r[0]) && !isSpace(r[|r| - 1])
  {
    var a := TrimStart(s, isSpace);
    var r := TrimEnd(a, isSpace);
    var i := |s| - |a|;
    assert OccursAt(s, r, i);
    assert forall k | i + |r| <= k < |s| :: s[k] == a[k - i];
    r
  }

  /** Java `String.trim` removes every leading and trailing char at or below U+0020. */
  predicate JavaSpace(c: char) {
    c <= ' '
  }

  /** JavaScript `String.prototype.trim`: WhiteSpace and LineTerminator code points. */
  predicate JsSpace(c: char) {
    c == '\t' || c == '\n' || c == '\U{B}' || c == '\U{C}' || c == '\r' || c == ' '
    || c == '\U{A0}' || c == '\U{1680}' || ('\U{2000}' <= c <= '\U{200A}')
    || c == '\U{2028}' || c == '\U{2029}' || c == '\U{202F}' || c == '\U{205F}'
    || c == '\U{3000}' || c == '\U{FEFF}'
  }

  /** Trimming only removes characters. */
  lemma TrimKeepsChars(s: string, isSpace: char -> bool)
    ensures forall c | c in Trim(s, isSpace) :: c in s
  {
    var a := TrimStart(s, isSpace);
    var r := TrimEnd(a, isSpace);
    forall c | c in r
      ensures c in s
    {
      var k :| 0 <= k < |r| && r[k] == c;
      assert a[k] == c;
      assert s[|s| - |a| + k] == c;
    }
  }

  /** Trimming a string with no space at either end changes nothing. */
  lemma TrimUntrimmed(s: string, isSpace: char -> bool)
    requires |s| > 0 ==> !isSpace(s[0]) && !isSpace(s[|s| - 1])
    ensures Trim(s, isSpace) == s
  {
  }

  function JavaTrim(s: string): string {
    Trim(s, JavaSpace)
  }

  /** JavaScript `trim`, written with `JsSpace` directly. */
  function JsTrimStart(s: string): string {
    if |s| > 0 && JsSpace(s[0]) then JsTrimStart(s[1..]) else s
  }

  function JsTrimEnd(s: string): string {
    if |s| > 0 && JsSpace(s[|s| - 1]) then JsTrimEnd(s[..|s| - 1]) else s
  }

  function JsTrim(s: string): string {
    JsTrimEnd(JsTrimStart(s))
  }

  /** `JsTrim` is `Trim` with the JavaScript notion of white space. */
  lemma JsTrimIsTrim(s: string)
    ensures JsTrim(s) == Trim(s, JsSpace)
  {
    JsTrimStartIsTrimStart(s);
    JsTrimEndIsTrimEnd(JsTrimStart(s));
  }

  lemma {:induction false} JsTrimStartIsTrimStart(s: string)
    ensures JsTrimStart(s) == TrimStart(s, JsSpace)
  {
    if |s| > 0 && JsSpace(s[0]) {
      JsTrimStartIsTrimStart(s[1..]);
    }
  }

  lemma {:induction false} JsTrimEndIsTrimEnd(s: string)
    ensures JsTrimEnd(s) == TrimEnd(s, JsSpace)
  {
    if |s| > 0 && JsSpace(s[|s| - 1]) {
      JsTrimEndIsTrimEnd(s[..|s| - 1]);
    }
  }

  /** Removes every occurrence of `c` (Java `replace("\"", "")`). */
  function RemoveChar(s: string, c: char): (r: string)
    ensures c !in r
    ensures |r| <= |s|
    ensures forall x | x in r :: x in s
  {
    if |s| == 0 then ""
    else (if s[0] == c then "" else [s[0]]) + RemoveChar(s[1..], c)
  }

  lemma {:induction false} RemoveCharAppend(a: string, b: string, c: char)
    ensures RemoveChar(a + b, c) == RemoveChar(a, c) + RemoveChar(b, c)
  {
    if |a| > 0 {
      assert (a + b)[1..] == a[1..] + b;
      RemoveCharAppend(a[1..], b, c);
    } else {
      assert a + b == b;
    }
  }

  lemma {:induction false} RemoveCharAbsent(s: string, c: char)
    requires c !in s
    ensures RemoveChar(s, c) == s
  {
    if |s| > 0 {
      RemoveCharAbsent(s[1..], c);
      assert s == [s[0]] + s[1..];
    }
  }

  // ---------------------------------------------------------------------------
  // Case

  /** ASCII lower-casing; other characters are left unchanged. */
  function LowerChar(c: char): char {
    if 'A' <= c <= 'Z' then (c as int + 32) as char else c
  }

  function ToLower(s: string): (r: string)
    ensures |r| == |s|
    ensures forall k | 0 <= k < |s| :: r[k] == LowerChar(s[k])
  {
    seq(|s|, k requires 0 <= k < |s| => LowerChar(s[k]))
  }

  // ---------------------------------------------------------------------------
  // Decimal numbers

  predicate IsDigit(c: char) {
    '0' <= c <= '9'
  }

  predicate AllDigits(s: string) {
    forall k | 0 <= k < |s| :: IsDigit(s[k])
  }

  function DigitValue(c: char): nat
    requires IsDigit(c)
  {
    (c as int) - ('0' as int)
  }

  function DigitChar(d: nat): (c: char)
    requires d < 10
    ensures IsDigit(c) && DigitValue(c) == d
  {
    (('0' as int) + d) as char
  }

  /** Value of a string of decimal digits, most significant first. */
  function DigitsValue(s: string): nat
    requires AllDigits(s)
    decreases |s|
  {
    if |s| == 0 then 0 else 10 * DigitsValue(s[..|s| - 1]) + DigitValue(s[|s| - 1])
  }

  /** Canonical decimal rendering (Java `Long.toString`, Go `%d`, JavaScript template). */
  function NatToString(n: nat): (s: string)
    decreases n
    ensures |s| >= 1 && AllDigits(s)
    ensures |s| > 1 ==> s[0] != '0'
  {
    if n < 10 then [DigitChar(n)] else NatToString(n / 10) + [DigitChar(n % 10)]
  }

  function IntToString(i: int): string {
    if i < 0 then "-" + NatToString(-i) else NatToString(i)
  }

  lemma {:induction false} NatToStringRoundTrip(n: nat)
    ensures DigitsValue(NatToString(n)) == n
  {
    if n >= 10 {
      NatToStringRoundTrip(n / 10);
      var s := NatToString(n);
      assert s[..|s| - 1] == NatToString(n / 10);
    }
  }

  lemma NatToStringInjective(a: nat, b: nat)
    ensures NatToString(a) == NatToString(b) ==> a == b
  {
    NatToStringRoundTrip(a);
    NatToStringRoundTrip(b);
  }

  /** A rendered number holds only digits and a leading minus sign. */
  lemma NumberLacksChar(i: int, c: char)
    requires !IsDigit(c) && c != '-'
    ensures c !in IntToString(i)
  {
    var s := IntToString(i);
    if i < 0 {
      assert forall k | 1 <= k < |s| :: s[k] == NatToString(-i)[k - 1];
    }
  }

  const LongMin: int := -0x8000_0000_0000_0000
  const LongMax: int := 0x7FFF_FFFF_FFFF_FFFF

  /** An optional `+`/`-` sign followed by at least one ASCII digit. */
  function ParseSigned(s: string): Option<int> {
    if |s| > 0 && (s[0] == '-' || s[0] == '+') then
      if |s| > 1 && AllDigits(s[1..]) then
        var v: int := DigitsValue(s[1..]);
        Some(if s[0] == '-' then -v else v)
      else None
    else if |s| > 0 && AllDigits(s) then Some(DigitsValue(s))
    else None
  }

  /** Java `Long.parseLong(s)` and Go `strconv.Atoi(s)` on a 64-bit platform:
      the same grammar, and out-of-range values are errors. */
  function ParseLong(s: string): (r: Option<int>)
    ensures r.Some? ==> LongMin <= r.value <= LongMax
    ensures r.Some? ==> |s| > 0
  {
    match ParseSigned(s)
    case Some(v) => if LongMin <= v <= LongMax then Some(v) else None
    case None => None
  }

  /** A rendered natural number parses back. */
  lemma ParseNatString(n: nat)
    ensures ParseSigned(NatToString(n)) == Some(n)
  {
    var s := NatToString(n);
    assert IsDigit(s[0]);
    NatToStringRoundTrip(n);
  }

  /** A rendered negative number parses back. */
  lemma ParseNegativeString(n: nat)
    ensures ParseSigned("-" + NatToString(n)) == Some(-(n as int))
  {
    var digits := NatToString(n);
    var s := "-" + digits;
    assert s[0] == '-' && s[1..] == digits;
    NatToStringRoundTrip(n);
  }

  /** Rendering a 64-bit value and parsing it back gives the value. */
  lemma ParseLongRoundTrip(i: int)
    requires LongMin <= i <= LongMax
    ensures ParseLong(IntToString(i)) == Some(i)
  {
    if i < 0 {
      ParseNegativeString(-i);
      assert IntToString(i) == "-" + NatToString(-i);
    } else {
      ParseNatString(i);
      assert IntToString(i) == NatToString(i);
    }
  }
}

=== FILE: tokens.dfy ===
/** `TokenServiceImpl`: refresh tokens stored as one pipe-joined value per
    token, a token set per user, and a blacklist of access tokens. The three
    Redis key families (`refresh_token:`, `user_tokens:`, `blacklist:`) never
    share a key, so each is its own map keyed by what follows the prefix.
    Expiry times are not modelled; the token itself (a random UUID) is an
    input. An empty token set reads the same as an absent one. */
module Tokens {
  import opened Base
  import opened Text

  const Pipe: char := '|'

  datatype TokenInfo = TokenInfo(userId: int, email: string, userAgent: string, ipAddress: string)

  datatype Store = Store(
    refresh: map<string, string>,
    userTokens: map<string, set<string>>,
    blacklist: set<string>)

  /** The number thrown by `Long.parseLong` on a malformed id field. */
  datatype NumberFormat = NumberFormat

  /** The stored value: id, email, user agent and address joined by '|', with
      absent header values written as empty fields. */
  function RefreshValue(userId: int, email: string, userAgent: Option<string>, ipAddress: Option<string>)
    : string
  {
    Join([IntToString(userId), email, userAgent.GetOr(""), ipAddress.GetOr("")], Pipe)
  }

  function UserKey(userId: int): string {
    IntToString(userId)
  }

  function TokensOf(s: Store, userKey: string): set<string> {
    if userKey in s.userTokens then s.userTokens[userKey] else {}
  }

  /** `createRefreshToken`: stores the value under the token and adds the
      token to its user's set. */
  function CreateRefreshToken(s: Store, token: string, userId: int, email: string,
                              userAgent: Option<string>, ipAddress: Option<string>): (r: Store)
    ensures r.refresh == s.refresh[token := RefreshValue(userId, email, userAgent, ipAddress)]
    ensures TokensOf(r, UserKey(userId)) == TokensOf(s, UserKey(userId)) + {token}
    ensures forall k | k != UserKey(userId) :: TokensOf(r, k) == TokensOf(s, k)
    ensures r.blacklist == s.blacklist
  {
    var uk := UserKey(userId);
    Store(s.refresh[token := RefreshValue(userId, email, userAgent, ipAddress)],
          s.userTokens[uk := TokensOf(s, uk) + {token}],
          s.blacklist)
  }

  /** `validateRefreshToken`: nothing for an unknown token or a value of
      fewer than four '|'-separated fields (empty fields count); otherwise
      the first four fields, the first read as a 64-bit number, which throws
      when it is not one. */
  function ValidateRefreshToken(s: Store, token: string): (r: Result<Option<TokenInfo>, NumberFormat>)
    ensures token !in s.refresh ==> r == Ok(None)
    ensures token in s.refresh && |Split(s.refresh[token], Pipe)| < 4 ==> r == Ok(None)
    ensures r.Ok? && r.value.Some? ==>
      var parts := Split(s.refresh[token], Pipe);
      |parts| >= 4 && ParseLong(parts[0]) == Some(r.value.value.userId)
      && r.value.value.email == parts[1] && r.value.value.userAgent == parts[2]
      && r.value.value.ipAddress == parts[3]
    ensures r.Err? <==> token in s.refresh && |Split(s.refresh[token], Pipe)| >= 4
                        && ParseLong(Split(s.refresh[token], Pipe)[0]).None?
    ensures (token in s.refresh && |Split(s.refresh[token], Pipe)| >= 4
             && ParseLong(Split(s.refresh[token], Pipe)[0]).Some?) ==> r.Ok? && r.value.Some?
  {
    if token !in s.refresh then Ok(None)
    else
      var parts := Split(s.refresh[token], Pipe);
      if |parts| < 4 then Ok(None)
      else
        match ParseLong(parts[0])
        case None => Err(NumberFormat)
        case Some(id) => Ok(Some(TokenInfo(id, parts[1], parts[2], parts[3])))
  }

  /** A rendered number holds no separator. */
  lemma NoPipeInNumber(i: int)
    ensures Pipe !in IntToString(i)
  {
    var s := IntToString(i);
    if i < 0 {
      assert forall k | 1 <= k < |s| :: s[k] == NatToString(-i)[k - 1];
    }
    assert forall k | 0 <= k < |s| :: s[k] != Pipe;
  }

  /** Round trip: a value created for a 64-bit id, with no '|' in the email,
      user agent or address, validates to exactly those fields, absent
      header values as empty strings. */
  lemma CreateThenValidate(s: Store, token: string, userId: int, email: string,
                           userAgent: Option<string>, ipAddress: Option<string>)
    requires LongMin <= userId <= LongMax
    requires Pipe !in email && Pipe !in userAgent.GetOr("") && Pipe !in ipAddress.GetOr("")
    ensures ValidateRefreshToken(CreateRefreshToken(s, token, userId, email, userAgent, ipAddress), token)
            == Ok(Some(TokenInfo(userId, email, userAgent.GetOr(""), ipAddress.GetOr(""))))
  {
    var fields := [IntToString(userId), email, userAgent.GetOr(""), ipAddress.GetOr("")];
    NoPipeInNumber(userId);
    SplitJoin(fields, Pipe);
    ParseLongRoundTrip(userId);
  }

  /** Java's default `split` (limit 0) would drop the empty trailing fields
      of a login without user agent and address, leaving two fields, so the
      value would be rejected; the explicit limit keeps all four. */
  lemma DefaultSplitWouldLoseEmptyFields(userId: int, email: string)
    requires email != "" && Pipe !in email
    ensures |Split(RefreshValue(userId, email, None, None), Pipe)| == 4
    ensures JavaSplit(RefreshValue(userId, email, None, None), Pipe) == [IntToString(userId), email]
  {
    var fields := [IntToString(userId), email, "", ""];
    NoPipeInNumber(userId);
    SplitJoin(fields, Pipe);
    var v := RefreshValue(userId, email, None, None);
    assert v[|IntToString(userId)|] == Pipe;
    assert DropTrailingEmpty(fields) == DropTrailingEmpty(fields[..3]);
    assert fields[..3][..2] == [IntToString(userId), email];
  }

  /** The first field of a value is the text before its first '|'. */
  lemma FirstField(a: string, rest: string)
    requires Pipe !in a
    ensures Split(a + [Pipe] + rest, Pipe)[0] == a
  {
    SplitAtFirst(a, Pipe, rest);
  }

  /** `deleteRefreshToken`: removes the token from the set named by its
      value's first field (when the value exists) and deletes the value. */
  function DeleteRefreshToken(s: Store, token: string): (r: Store)
    ensures token !in r.refresh
    ensures forall t | t != token :: (t in r.refresh <==> t in s.refresh)
                                     && (t in s.refresh ==> r.refresh[t] == s.refresh[t])
    ensures token !in s.refresh ==> r.userTokens == s.userTokens
    ensures token in s.refresh ==>
      var owner := Split(s.refresh[token], Pipe)[0];
      TokensOf(r, owner) == TokensOf(s, owner) - {token}
      && forall k | k != owner :: TokensOf(r, k) == TokensOf(s, k)
    ensures r.blacklist == s.blacklist
  {
    var userTokens :=
      if token in s.refresh then
        var owner := Split(s.refresh[token], Pipe)[0];
        if owner in s.userTokens then s.userTokens[owner := s.userTokens[owner] - {token}] else s.userTokens
      else s.userTokens;
    Store(s.refresh - {token}, userTokens, s.blacklist)
  }

  /** Deleting a created token makes it invalid and takes it out of its
      user's set, whatever else the value holds. */
  lemma CreateThenDelete(s: Store, token: string, userId: int, email: string,
                         userAgent: Option<string>, ipAddress: Option<string>)
    ensures var r := DeleteRefreshToken(CreateRefreshToken(s, token, userId, email, userAgent, ipAddress), token);
      ValidateRefreshToken(r, token) == Ok(None) && token !in TokensOf(r, UserKey(userId))
  {
    NoPipeInNumber(userId);
    var rest := Join([email, userAgent.GetOr(""), ipAddress.GetOr("")], Pipe);
    assert RefreshValue(userId, email, userAgent, ipAddress) == IntToString(userId) + [Pipe] + rest;
    FirstField(IntToString(userId), rest);
  }

  /** `deleteAllUserRefreshTokens`: deletes every token listed for the user,
      then the list. */
  function DeleteAllUserRefreshTokens(s: Store, userId: int): (r: Store)
    ensures forall t | t in TokensOf(s, UserKey(userId)) :: t !in r.refresh
    ensures forall t | t !in TokensOf(s, UserKey(userId)) :: (t in r.refresh <==> t in s.refresh)
                                                             && (t in s.refresh ==> r.refresh[t] == s.refresh[t])
    ensures TokensOf(r, UserKey(userId)) == {}
    ensures forall k | k != UserKey(userId) :: TokensOf(r, k) == TokensOf(s, k)
    ensures r.blacklist == s.blacklist
  {
    var listed := TokensOf(s, UserKey(userId));
    Store(s.refresh - listed, s.userTokens - {UserKey(userId)}, s.blacklist)
  }

  /** Logging a user out everywhere invalidates a token created for them. */
  lemma CreateThenDeleteAll(s: Store, token: string, userId: int, email: string,
                            userAgent: Option<string>, ipAddress: Option<string>)
    ensures var c := CreateRefreshToken(s, token, userId, email, userAgent, ipAddress);
      ValidateRefreshToken(DeleteAllUserRefreshTokens(c, userId), token) == Ok(None)
  {
  }

  /** `blacklistAccessToken` adds exactly that token. */
  function BlacklistAccessToken(s: Store, token: string): (r: Store)
    ensures IsAccessTokenBlacklisted(r, token)
    ensures forall t | t != token :: IsAccessTokenBlacklisted(r, t) == IsAccessTokenBlacklisted(s, t)
    ensures r.refresh == s.refresh && r.userTokens == s.userTokens
  {
    s.(blacklist := s.blacklist + {token})
  }

  predicate IsAccessTokenBlacklisted(s: Store, token: string) {
    token in s.blacklist
  }

  /** Refresh-token bookkeeping never un-blacklists an access token. */
  lemma RefreshOperationsKeepBlacklist(s: Store, token: string, access: string, userId: int, email: string,
                                       userAgent: Option<string>, ipAddress: Option<string>)
    requires IsAccessTokenBlacklisted(s, access)
    ensures IsAccessTokenBlacklisted(CreateRefreshToken(s, token, userId, email, userAgent, ipAddress), access)
    ensures IsAccessTokenBlacklisted(DeleteRefreshToken(s, token), access)
    ensures IsAccessTokenBlacklisted(DeleteAllUserRefreshTokens(s, userId), access)
  {
  }
}
